=== FILE: README.md ===
# GateFlow in Dafny

GateFlow is a campus gate-management system. Its NestJS back end has five parts:

- registration, login and password reset;
- admin user management;
- visitor-pass applications and their approval;
- the gate's entry/exit log, SOS broadcasts and incident reports;
- an analytics overview.

Its React front end holds the auth pages, the public visitor-pass page and the role-based route guard.

This project models the core of both halves and proves what they promise.

- **Back-end services.** Each database table is a class holding its rows as a `seq`: `Users.UserTable`, `VisitorPasses.VisitorPassTable` and `Incidents.IncidentTable`. Each write is a method whose new state and result equal a pure step function of the old rows, such as `Auth.RegisterStep`, `Users.UpdateStep` or `VisitorPasses.UpdateStatusStep`. The lemmas are about those step functions. The read queries (`findMany` with `where`, `orderBy … desc` and `take`) are functions over sequences, built on the shared `Ordering` module.
- **Request gate.** The controllers' `@UseGuards`/`@Roles` decorators become the route table `AccessPolicy.Access`. The ValidationPipe's class-validator constraints become the `Dtos` validators. `Controllers.Dispatch` runs one request through both and then names the service call that the handler makes.
- **Front end.** These parts are pure functions:
  - `parseApiError` and the pages' own message choice (`ApiErrors`);
  - the tone tables (`ToneTables`);
  - `ProtectedRoute`'s decision (`ProtectedRoute`);
  - the shared e-mail pattern (`EmailPattern`);
  - the URL query reading (`SearchParams`).

  Each auth page is a class whose fields are the page's React state. Its handlers are methods. Each `validateForm` is proved to build exactly the errors object of a specification function, and that function's meaning is proved as lemmas.
- **Foreign code.** Code the model cannot see becomes a parameter:
  - validator.js's `isEmail` and `isISO8601`;
  - JavaScript's date parser, as `new Date(s)` applies it;
  - `crypto.randomBytes` and `randomUUID`;
  - the clock;
  - whether the mail was sent;
  - how the store fails during `register`;
  - the schema's column defaults;
  - how each API call from a page settles.

  bcrypt is modelled as a collision-free hash of the 72 key bytes bcryptjs reads: the password's UTF-8 bytes and a zero byte, repeated to fill 72 bytes. A JWT is identified by its payload.

Where the code and its comments or API annotations disagree, the model follows the code, and a lemma states the difference:

- `AccessPolicy.CommentsVersusDecorators`: the "Admin" comments on the incident routes do not match their decorators;
- `Dtos.RegisterRoundTrip`: `RegisterDto` admits ADMIN and GUARD;
- `LoginPage.ShortPasswordPassesPageOnly`: the login page accepts passwords that `LoginDto` refuses;
- `Dtos.EmojiPasswordTooShort`: `MinLength(8)` counts code points, so four emoji pass the pages' `length < 8` test but not the DTOs;
- `Users.LongPasswordsCollide`: bcrypt reads only 72 bytes, so passwords that share their first 72 characters log in for each other;
- `Controllers.UpdateToTakenEmailFails`: an admin update to another user's email passes the pipe and ends in an unhandled 500;
- `Users.PatchedPasswordLocksOut`: a password set through the admin update is stored unhashed, so no password logs in against it (unless it is 60 units long, when bcryptjs reads it as a hash);
- `VisitorPassPage.FormNeverPassesDto`: the visitor-pass form cannot satisfy `CreateVisitorPassDto`;
- `SignupPage.LastNameBlocksSubmit`: the sign-up page has no `lastName` input, so its form never passes;
- `ApiErrors.PageMessageDiffers`: the pages read errors differently from `parseApiError`.

## Model

| member | source | states |
|---|---|---|
| Domain.RoleFromName | back-end/src/auth/dto/register.dto.ts:23-25 | `IsEnum(Role)` accepts a string exactly when it is the name of some role, and it yields that role |
| Domain.SeverityFromName | back-end/src/incidents/dto/create-incident.dto.ts:4-9 | The string accepted for a severity is exactly one of LOW, MEDIUM, HIGH or CRITICAL, and it yields that member |
| Domain.EntryTypeFromName | back-end/src/entry-logs/dto/create-entry-log.dto.ts:8-9 | The string accepted for an entry type is exactly ENTRY or EXIT, and it yields that member |
| JsStrings.TrimEmptyIffBlank | front-end/src/pages/auth/signup/SignupPage.tsx:121-131 | `!x.trim()` holds exactly for strings made only of JavaScript whitespace |
| JsStrings.JsLength | front-end/src/pages/auth/signup/SignupPage.tsx:132 | The UTF-16 length that the pages' `password.length < 8` tests measure lies between the code-point count and twice that count |
| JsStrings.ValidatorLength | back-end/src/auth/dto/register.dto.ts:10-13 | The length `MinLength` measures (validator.js `isLength`) never exceeds the code-point count, and equals it exactly when no U+FE0E or U+FE0F occurs |
| JsStrings.FourEmojiLengths | back-end/src/auth/dto/register.dto.ts:10-13 | Four emoji are 8 UTF-16 units but 4 for `isLength` |
| JsStrings.CharUtf8 | back-end/src/auth/auth.service.ts:91 | Each code point takes one to four UTF-8 bytes, and only U+0000 encodes to a zero byte |
| JsStrings.CharUtf8Decodes | back-end/src/auth/auth.service.ts:91 | A code point's UTF-8 encoding announces its own length in its leading byte and decodes back to the code point |
| JsStrings.Utf8 | back-end/src/auth/auth.service.ts:91 | A string has at least as many UTF-8 bytes as characters, and no bytes only when empty |
| JsStrings.Utf8Append | back-end/src/auth/auth.service.ts:91 | The encoding of a concatenation is the concatenation of the encodings |
| JsStrings.Utf8NoZero | back-end/src/auth/auth.service.ts:91 | A string without U+0000 encodes to bytes none of which is zero |
| JsStrings.Utf8Injective | back-end/src/auth/auth.service.ts:91 | Distinct strings have distinct UTF-8 encodings |
| JsStrings.JoinEmptyOnlyForEmptyParts | front-end/src/lib/constants.ts:100-101 | `join(', ')` is empty exactly for an empty list or a list holding one empty string |
| JsStrings.NatToString | back-end/src/entry-logs/entry-logs.controller.ts:49 | A count as a client writes it is a non-empty run of decimal digits (what `${n}` gives below 10^21) |
| JsStrings.ParseInt10 | back-end/src/entry-logs/entry-logs.controller.ts:49 | `parseInt(s, 10)` is NaN exactly when no digit follows the leading whitespace and the optional sign |
| JsStrings.ParseIntOfNatToString | back-end/src/entry-logs/entry-logs.controller.ts:49 | `parseInt` reads back every count below 2^53 that a client writes |
| EmailPattern.LooksLikeEmailIffRegex | front-end/src/pages/auth/login/LoginPage.tsx:60 | The hand-written check accepts exactly the strings that `/^[^\s@]+@[^\s@]+\.[^\s@]+$/` matches |
| EmailPattern.LooksLikeEmailMatches | front-end/src/pages/auth/signup/SignupPage.tsx:126 | Every string the check accepts is matched by the pattern |
| EmailPattern.MatchesLooksLikeEmail | front-end/src/pages/auth/forgot-password/ForgotPasswordPage.tsx:30 | Every string the pattern matches is accepted by the check |
| Ordering.FirstIndex | back-end/src/users/users.service.ts:24-26 | `findFirst`/`findUnique` gives the first row satisfying the filter, or no row when none satisfies it |
| Ordering.Filter | back-end/src/entry-logs/entry-logs.service.ts:9-10 | `where` keeps every matching row with its multiplicity, and no other row |
| Ordering.SortDesc | back-end/src/entry-logs/entry-logs.service.ts:12 | `orderBy: desc` yields the same rows, as a permutation, sorted newest first |
| Ordering.InsertDesc | back-end/src/entry-logs/entry-logs.service.ts:12 | Inserting one row into a newest-first list keeps it sorted and adds exactly that row |
| Ordering.NewestFirstSound | back-end/src/entry-logs/entry-logs.service.ts:8-13 | A capped newest-first query returns exactly min(n, matches) rows, sorted, and they are a sub-multiset of the table's matching rows, so no stored row is repeated |
| Ordering.NewestFirstCutoff | back-end/src/entry-logs/entry-logs.service.ts:12-13 | No matching row left out by the cap is newer than any returned row |
| Ordering.NewestFirstBelowCap | back-end/src/entry-logs/entry-logs.service.ts:9-13 | When no more than n rows match, the query returns all of them |
| Ordering.TakeCutsOnlyOlder | back-end/src/entry-logs/entry-logs.service.ts:21-25 | In a newest-first list, `take` cuts off only rows no newer than those it keeps |
| Users.Cycle72 | back-end/src/auth/auth.service.ts:91 | The key stream bcrypt's key schedule reads is 72 bytes long |
| Users.CycleKeepsPrefix | back-end/src/auth/auth.service.ts:91 | Up to its own length, a repeated key stream starts with the key |
| Users.BcryptKey | back-end/src/auth/auth.service.ts:91 | The bytes bcryptjs hashes are exactly 72, whatever the password's length |
| Users.Hash | back-end/src/users/users.service.ts:12 | Passwords are hashed with bcrypt at cost factor 12 |
| Users.CompareHash | back-end/src/auth/auth.service.ts:91-94 | For passwords under 72 UTF-8 bytes and without U+0000, `compare(q, hash(p))` holds exactly when q equals p |
| Users.LongPasswordsCollide | back-end/src/auth/auth.service.ts:91-94 | Any two passwords that share their first 72 characters compare equal against each other's hash, whatever follows |
| Users.IdIndex | back-end/src/users/users.service.ts:28-30 | The lookup by id finds a row with that id, or reports that no row has it |
| Users.EmailIndex | back-end/src/users/users.service.ts:24-26 | The lookup by email finds a row with that email, or reports that no row has it |
| Users.IndexOfMember | back-end/src/users/users.service.ts:24-34 | While ids and emails are unique, a row is found by its own id and its own email |
| Users.FindByEmail | back-end/src/users/users.service.ts:24-26 | `findByEmail` returns a stored row with that email exactly when one exists; otherwise null, never an error |
| Users.FindOne | back-end/src/users/users.service.ts:28-34 | `findOne` fails with NotFound "User … was not found" exactly when no row has the id; otherwise it returns the stored row unfiltered |
| Users.FindAll | back-end/src/users/users.service.ts:18-22 | `findAll` returns every user, as a permutation, newest first |
| Users.CreatedRow | back-end/src/users/users.service.ts:11-16 | The new row holds the bcrypt hash of the password (cost 12) in place of the plaintext, the other DTO fields as given, `isActive` from the DTO when given, and no reset fields |
| Users.InsertStep | back-end/src/users/users.service.ts:13-15 | An insert succeeds exactly when neither the id nor the email is taken; it then appends that row, and otherwise leaves the table as it was |
| Users.InsertKeepsUnique | back-end/src/users/users.service.ts:13-15 | Inserting preserves the uniqueness of ids and emails |
| Users.InsertThenFind | back-end/src/users/users.service.ts:11-34 | After a successful insert, the row is found by its id and by its email |
| Users.CreateStep | back-end/src/users/users.service.ts:11-16 | `create` appends the created row unless the email or the id is taken; a clash is not caught and gives a 500 with no write |
| Users.Patched | back-end/src/users/users.service.ts:36-39 | An update writes each column the body names, email included; a password is stored as sent, unhashed; NULL clears the contact number; the id, QR token, creation time and reset fields never change; an empty body changes nothing |
| Users.PatchedPasswordLocksOut | back-end/src/users/users.service.ts:36-39 | After an update that sets a password whose length is not 60 UTF-16 units, no password passes `bcrypt.compare` against the stored column |
| Users.UpdateStep | back-end/src/users/users.service.ts:36-39 | `update` fails with NotFound exactly when the id is unknown. It fails with an unhandled 500 exactly when the id is known and the body sets a required column to NULL or takes an email another user holds. Every failure writes nothing |
| Users.UpdateChangesOnlyThatUser | back-end/src/users/users.service.ts:36-39 | Whatever the body, the keys stay unique, because the email check refuses a clash. A successful update patches only the user with that id and leaves every other row as it was |
| Users.RemoveStep | back-end/src/users/users.service.ts:41-44 | `remove` fails with NotFound and writes nothing exactly when the id is unknown; otherwise it returns the removed row, and the table loses exactly that row |
| Users.WithoutId | back-end/src/users/users.service.ts:43 | The table without the id keeps only stored rows whose id differs |
| Users.RemoveDeletesExactlyThatUser | back-end/src/users/users.service.ts:41-44 | A successful remove leaves the other rows in order, leaves no row with that id, and keeps the keys unique |
| Users.DropKeepsUnique | back-end/src/users/users.service.ts:43 | Deleting any one row keeps ids and emails unique |
| Users.UserTable.constructor | back-end/src/users/users.service.ts:9 | The table starts with the given rows |
| Users.UserTable.Insert | back-end/src/users/users.service.ts:13-15 | `prisma.user.create` sets the rows and result to those of InsertStep, and keeps the keys unique |
| Users.UserTable.Overwrite | back-end/src/auth/auth.service.ts:132-138 | `prisma.user.update` by id replaces exactly that row and keeps the keys unique, given that the new row keeps its id and takes no other user's email |
| Users.UserTable.Create | back-end/src/users/users.service.ts:11-16 | `create` sets the rows and result to those of CreateStep |
| Users.UserTable.Update | back-end/src/users/users.service.ts:36-39 | `update` sets the rows and result to those of UpdateStep |
| Users.UserTable.Remove | back-end/src/users/users.service.ts:41-44 | `remove` sets the rows and result to those of RemoveStep |
| Auth.ToHex | back-end/src/auth/auth.service.ts:129 | The reset token is 64 lower-case hex digits for 32 random bytes: two digits per byte |
| Auth.HexValue | back-end/src/auth/auth.service.ts:129 | A character has a hex value exactly when it is a lower-case hex digit, and the value maps back to that digit |
| Auth.FromHex | back-end/src/auth/auth.service.ts:129 | Decoding a hex string gives half as many bytes as it has digits |
| Auth.FromHexToHex | back-end/src/auth/auth.service.ts:129 | The hex encoding of the random bytes decodes back to those bytes |
| Auth.ToHexInjective | back-end/src/auth/auth.service.ts:129 | Distinct random bytes give distinct tokens |
| Auth.StripPassword | back-end/src/auth/auth.service.ts:195-199 | The public user keeps the id, email, role and active flag of the stored user |
| Auth.StripThenRestore | back-end/src/auth/auth.service.ts:195-199 | Stripping removes only `password`, `passwordResetToken` and `passwordResetExpiry`: putting them back gives the stored row |
| Auth.StripHidesSecrets | back-end/src/auth/auth.service.ts:195-199 | No auth response can reveal the password hash or the reset fields: users that differ only in those look the same |
| Auth.InsertError | back-end/src/auth/auth.service.ts:62-71 | A failed insert is an error: Conflict exactly for code P2002, otherwise an internal error |
| Auth.RegisterStep | back-end/src/auth/auth.service.ts:29-79 | `register` succeeds exactly when the store does not fail and neither the email nor the new id is taken. It writes nothing on any error; on success it appends exactly the new row and returns the session of that row |
| Auth.RegisterDuplicateEmail | back-end/src/auth/auth.service.ts:29-44 | A taken email gives Conflict "Email is already registered" with no write; Conflict arises only from a taken email, P2002 or a taken id |
| Auth.RegisterInsertFault | back-end/src/auth/auth.service.ts:62-71 | An insert failing with P2002 (the registration race) gives the same Conflict; any other code gives the "Could not create account" 500; neither writes |
| Auth.RegisterAddsOneUser | back-end/src/auth/auth.service.ts:47-78 | A successful register adds exactly one user, who holds the hash of the password and no reset fields. The response is a token over (id, email, role) and the stripped user, and the keys stay unique |
| Auth.Login | back-end/src/auth/auth.service.ts:81-106 | `login` fails only with 401; on success it returns the session of a stored user with that email |
| Auth.LoginErrorsIndistinguishable | back-end/src/auth/auth.service.ts:82-94 | An unknown email and a wrong password give the identical 401 "Invalid email or password" |
| Auth.LoginOutcomes | back-end/src/auth/auth.service.ts:86-105 | For a stored user: a wrong password gives "Invalid email or password"; the right password on an inactive account gives the distinct "Account is deactivated"; only the right password on an active account succeeds, with that user's session |
| Auth.GetProfile | back-end/src/auth/auth.service.ts:108-116 | `getProfile` gives 401 "User not found" exactly for an unknown id; otherwise the stripped row with that id |
| Auth.RegisterThenLogin | back-end/src/auth/auth.service.ts:29-106 | After a successful register, logging in with the same credentials gives the same session, or "Account is deactivated" when the schema's default makes the account inactive |
| Auth.ForgotStep | back-end/src/auth/auth.service.ts:118-159 | `forgotPassword` never fails and never changes the row count. An unknown email gets the enumeration-safe reply and no write. The token and the link `http://localhost:5176/reset-password?token=…` are in the reply exactly when the email is known and the mail failed |
| Auth.ForgotWritesOnlyThatUser | back-end/src/auth/auth.service.ts:128-138 | For a known email, only that user's row changes: its reset token becomes the hex of the random bytes, and its expiry becomes now + 15 minutes |
| Auth.ForgotRepliesDistinct | back-end/src/auth/auth.service.ts:124-126 | The unknown-email reply differs from both known-email replies, and those two differ from each other |
| Auth.ForgotKeepsTokensUnique | back-end/src/auth/auth.service.ts:128-138 | A freshly minted token keeps every reset token held by at most one user |
| Auth.ResetStep | back-end/src/auth/auth.service.ts:161-185 | `resetPassword` succeeds exactly when some row holds the token with expiry ≥ now; otherwise it gives BadRequest "Invalid or expired reset token" with no write |
| Auth.ResetWindow | back-end/src/auth/auth.service.ts:130-167 | A token minted at `now` resets the password at time t exactly when t ≤ now + 15 minutes, so the bound is inclusive |
| Auth.ResetWritesHolder | back-end/src/auth/auth.service.ts:173-182 | A successful reset changes only the holder's row: it stores the hash of the new password and nulls both reset fields, and the public view is unchanged |
| Auth.ResetSingleUse | back-end/src/auth/auth.service.ts:161-182 | While tokens are unique, a token that has been used once fails on every later try, and that try writes nothing |
| Auth.ResetKeepsTokensUnique | back-end/src/auth/auth.service.ts:175-182 | A reset keeps reset tokens unique |
| Auth.AuthService.constructor | back-end/src/auth/auth.service.ts:23-27 | The service works on the given user table |
| Auth.AuthService.Register | back-end/src/auth/auth.service.ts:29-79 | `register` on the table gives the result and rows of RegisterStep, and keeps the keys unique |
| Auth.AuthService.ForgotPassword | back-end/src/auth/auth.service.ts:118-159 | `forgotPassword` on the table gives the reply and rows of ForgotStep |
| Auth.AuthService.ResetPassword | back-end/src/auth/auth.service.ts:161-185 | `resetPassword` on the table gives the result and rows of ResetStep |
| VisitorPasses.PassIndex | back-end/src/visitor-pass/visitor-pass.service.ts:31 | The lookup by id finds the pass with that id, or reports that none has it |
| VisitorPasses.CreateStep | back-end/src/visitor-pass/visitor-pass.service.ts:9-21 | `create` appends exactly one pass when all three dates make valid `Date`s and the id is free. Otherwise it fails with an unhandled 500 and writes nothing: this covers an ISO 8601 string that `new Date` cannot read |
| VisitorPasses.CreateStoresApplication | back-end/src/visitor-pass/visitor-pass.service.ts:9-21 | The pass stores the four text fields as given, and for each date the instant `new Date` makes of it. `status`, `qrToken` and `approvedById` come from the schema, and the DTO's `email` and `address` have no effect |
| VisitorPasses.FindAll | back-end/src/visitor-pass/visitor-pass.service.ts:23-28 | `findAll` returns every pass, as a permutation, newest first |
| VisitorPasses.FindOne | back-end/src/visitor-pass/visitor-pass.service.ts:30-39 | `findOne` fails with NotFound exactly for an unknown id; otherwise it returns the pass with that id |
| VisitorPasses.UpdateStatusStep | back-end/src/visitor-pass/visitor-pass.service.ts:41-51 | `updateStatus` fails with NotFound and writes nothing exactly for an unknown id |
| VisitorPasses.DecisionIgnoresCurrentStatus | back-end/src/visitor-pass/visitor-pass.service.ts:41-50 | Whatever the current status: approving sets APPROVED, a new QR token and the approver; rejecting sets REJECTED and keeps the token and the approver. Nothing sets EXPIRED, and the other fields are kept |
| VisitorPasses.ApproveThenReject | back-end/src/visitor-pass/visitor-pass.service.ts:43-50 | A re-approval replaces the token; rejecting an approved pass keeps its token and approver |
| VisitorPasses.UpdateStatusChangesOnlyThatPass | back-end/src/visitor-pass/visitor-pass.service.ts:43-45 | Only the pass with that id is modified, and ids stay unique |
| VisitorPasses.NeverExpires | back-end/src/visitor-pass/visitor-pass.service.ts:9-51 | When no pass is EXPIRED and the schema's initial status is not EXPIRED, neither `create` nor `updateStatus` produces an EXPIRED pass |
| VisitorPasses.VisitorPassTable.constructor | back-end/src/visitor-pass/visitor-pass.service.ts:7 | The table starts with the given rows |
| VisitorPasses.VisitorPassTable.Create | back-end/src/visitor-pass/visitor-pass.service.ts:9-21 | `create` gives the result and rows of CreateStep |
| VisitorPasses.VisitorPassTable.UpdateStatus | back-end/src/visitor-pass/visitor-pass.service.ts:41-51 | `updateStatus` gives the result and rows of UpdateStatusStep |
| EntryLogs.FindByUser | back-end/src/entry-logs/entry-logs.service.ts:8-19 | Exactly min(20, the user's logs) logs, newest first. They are a sub-multiset of that user's stored logs. None of the user's logs left out is newer than one returned, and at or below 20 the user's logs are all returned |
| EntryLogs.FindAll | back-end/src/entry-logs/entry-logs.service.ts:21-34 | Exactly min(take, total) logs, newest first, and a sub-multiset of the stored log. No log left out is newer than one returned, and with `take` at or above the total every log is returned |
| EntryLogs.FindAllDefault | back-end/src/entry-logs/entry-logs.service.ts:21 | With the default `take` of 50, the list holds min(50, total) distinct stored logs, all of them when there are at most 50, and none left out is newer than one returned |
| Sos.GetActive | back-end/src/sos/sos.service.ts:8-18 | Every active broadcast and only active ones, uncapped, as the filter's permutation, newest first |
| Incidents.CreateStep | back-end/src/incidents/incidents.service.ts:9-21 | `create` appends exactly one incident unless its id is taken, and otherwise writes nothing |
| Incidents.CreateRecordsReporter | back-end/src/incidents/incidents.service.ts:9-20 | The reporter is always the caller, even when the report is anonymous. The title, description, location, severity and image URL are stored as given, and `anonymous` defaults to false. The new incident is in the caller's own list |
| Incidents.CreateKeepsUniqueIds | back-end/src/incidents/incidents.service.ts:9-21 | `create` never leaves two incidents with the same id |
| Incidents.FindByUser | back-end/src/incidents/incidents.service.ts:23-28 | Exactly that user's incidents, anonymous ones included, uncapped, newest first |
| Incidents.IncidentTable.constructor | back-end/src/incidents/incidents.service.ts:7 | The table starts with the given rows, whose ids are unique |
| Incidents.IncidentTable.Create | back-end/src/incidents/incidents.service.ts:9-21 | `create` gives the result and rows of CreateStep, and the ids stay unique |
| Analytics.GetOverview | back-end/src/analytics/analytics.service.ts:8-54 | The totals count all users and logs. Each role count counts the users with that role. Today's entries count the logs at or after `todayStart`. The incident and pass counts count the rows with that status. The four role counts sum to the users minus the admins, so no more than the total. Today's entries are no more than all logs. Pending plus resolved incidents are all incidents. Pending plus approved passes leave out the REJECTED and EXPIRED ones. Active SOS equals the size of `getActive` |
| Analytics.RoleCountsSum | back-end/src/analytics/analytics.service.ts:26-30 | The five roles partition the users |
| Analytics.IncidentCountsSum | back-end/src/analytics/analytics.service.ts:33-34 | PENDING and RESOLVED partition the incidents |
| Analytics.PassCountsSum | back-end/src/analytics/analytics.service.ts:35-36 | The four statuses partition the passes |
| AccessPolicy.Admit | back-end/src/entry-logs/entry-logs.controller.ts:11 | JwtAuthGuard refuses an anonymous caller with 401 on any guarded route. RolesGuard then refuses with 403 exactly an authenticated caller whose role is not in a listed `@Roles` |
| AccessPolicy.Access | back-end/src/visitor-pass/visitor-pass.controller.ts:12-16 | An anonymous caller is admitted only to the visitor-pass application |
| AccessPolicy.AdmittedRoles | back-end/src/users/users.controller.ts:12-49 | The admitted roles of a route are exactly the roles its gate lets through |
| AccessPolicy.EveryRoleListed | back-end/src/users/users.controller.ts:12 | The five roles are all the roles there are |
| AccessPolicy.GateIgnoresCallerId | back-end/src/sos/sos.controller.ts:11 | Only the caller's role matters to the guards, never the id |
| AccessPolicy.OnlyPassApplicationIsPublic | back-end/src/visitor-pass/visitor-pass.controller.ts:12-16 | `POST /visitor-passes` is the one route open without a token; every other route refuses an anonymous caller with 401 |
| AccessPolicy.AdminOnlyRoutes | back-end/src/users/users.controller.ts:17-49 | `GET /sos` and the user-management routes except `GET /users/:id` admit exactly ADMIN and refuse every other role with 403 |
| AccessPolicy.GuardOnlyRoutes | back-end/src/entry-logs/entry-logs.controller.ts:17-37 | Scan, QR lookup and recent logs admit exactly GUARD; ADMIN gets 403 |
| AccessPolicy.AdminOrGuardRoutes | back-end/src/sos/sos.controller.ts:29-42 | The full log list, raising an SOS and closing an SOS admit exactly ADMIN and GUARD |
| AccessPolicy.AnyAuthenticatedRoutes | back-end/src/incidents/incidents.controller.ts:12-45 | Every other route admits any authenticated caller |
| AccessPolicy.EveryRouteClassified | back-end/src/entry-logs/entry-logs.controller.ts:11-49 | Every route admits either all roles, ADMIN only, GUARD only, or ADMIN and GUARD |
| AccessPolicy.CommentsVersusDecorators | back-end/src/incidents/incidents.controller.ts:29-45 | The doc comments disagree with the decorators exactly on the incident list, incident resolve and the pass list, and a STUDENT is admitted to all three |
| AccessPolicy.AnyRoleDecidesPasses | back-end/src/visitor-pass/visitor-pass.controller.ts:33-45 | Approve and reject need only a token: every role is admitted |
| AccessPolicy.UserRowReadableByAnyone | back-end/src/users/users.controller.ts:23-32 | A STUDENT may fetch any user by id but is refused the user list with 403 |
| Dtos.StringOf | back-end/src/entry-logs/dto/create-entry-log.dto.ts:5-6 | `IsString` accepts exactly a JSON string and yields it |
| Dtos.BoolOf | back-end/src/incidents/dto/create-incident.dto.ts:36-39 | `IsBoolean` accepts exactly a JSON boolean and yields it |
| Dtos.NonEmptyStringOf | back-end/src/incidents/dto/create-incident.dto.ts:12-25 | `IsNotEmpty IsString` accepts exactly a string other than "", whitespace-only strings included |
| Dtos.OptionalStringOf | back-end/src/auth/dto/register.dto.ts:27-30 | `IsOptional IsString` treats null and absent as omitted, accepts a string, and refuses anything else |
| Dtos.OptionalBoolOf | back-end/src/users/dto/create-user.dto.ts:32-35 | `IsOptional IsBoolean` treats null and absent as omitted, accepts a boolean, and refuses anything else |
| Dtos.CheckedStringOf | back-end/src/auth/dto/register.dto.ts:6-8 | `IsEmail` and `IsDateString` accept exactly a string that their validator.js check accepts |
| Dtos.PasswordOf | back-end/src/auth/dto/register.dto.ts:10-13 | `IsString MinLength(8)` accepts exactly a string that `isLength` counts at least 8 long |
| Dtos.EmojiPasswordTooShort | back-end/src/auth/dto/register.dto.ts:10-13 | A password of four emoji is 8 UTF-16 units long, yet `MinLength(8)` refuses it |
| Dtos.ChangeOf | back-end/src/users/users.service.ts:36-39 | An optional update field: absent leaves the column, null clears it, and any other value must pass its check |
| Dtos.ValidateUpdateUser | back-end/src/users/users.controller.ts:35-38 | In an accepted update body, each column is kept exactly when its key is absent and cleared exactly when it is null. Otherwise it is set to the value sent. A new email passes `isEmail`, a new password is at least 8 long for `isLength`, and a new role is a role's name |
| Dtos.UpdateRefusedIff | back-end/src/users/dto/create-user.dto.ts:6-35 | An update body is refused with 400 exactly when some field is present, not null, and fails its CreateUserDto check |
| Dtos.UpdateRoundTrip | back-end/src/users/dto/create-user.dto.ts:6-35 | Every patch whose new email passes `isEmail` and whose new password is long enough is accepted exactly as sent, with its absent keys and nulls |
| Dtos.UpdateCarriesEmailAndPassword | back-end/src/users/users.controller.ts:35-38 | A body holding just a valid email and password passes the pipe and sets those two columns and no others |
| Dtos.RoleOf | back-end/src/users/dto/create-user.dto.ts:23-25 | `IsEnum(Role)` accepts exactly the name of a role, ADMIN included |
| Dtos.SeverityOf | back-end/src/incidents/dto/create-incident.dto.ts:27-29 | `IsEnum(Severity)` accepts exactly LOW, MEDIUM, HIGH and CRITICAL |
| Dtos.EntryTypeOf | back-end/src/entry-logs/dto/create-entry-log.dto.ts:8-9 | `IsEnum(EntryType)` accepts exactly ENTRY and EXIT |
| Dtos.ValidateRegister | back-end/src/auth/dto/register.dto.ts:6-30 | An accepted body carries an `isEmail` email, a password `isLength` counts at least 8 long, string names, a role name, and a string or omitted contact number, each as validated |
| Dtos.RegisterRoundTrip | back-end/src/auth/dto/register.dto.ts:6-30 | Every registration with a valid email and a long enough password is accepted as sent. Empty names pass, and so do ADMIN and GUARD |
| Dtos.RegisterRejects | back-end/src/auth/dto/register.dto.ts:6-13 | A body without an email, or with a password `isLength` counts shorter than 8, is refused |
| Dtos.ValidateLogin | back-end/src/auth/dto/login.dto.ts:4-13 | A login body is accepted exactly when the email passes `IsEmail` and `isLength` counts the password at least 8 long, and it is read as sent |
| Dtos.LoginRoundTrip | back-end/src/auth/dto/login.dto.ts:5-7 | The email reaches the lookup unchanged: no trimming and no case folding |
| Dtos.LoginReadsOnlyItsFields | back-end/src/auth/dto/login.dto.ts:4-13 | Only `email` and `password` are read; any other key makes no difference |
| Dtos.ValidateCreateUser | back-end/src/users/dto/create-user.dto.ts:6-35 | An accepted body carries an `isEmail` email, a password `isLength` counts at least 8 long, string first and last names, a role name, a string or omitted contact number and a boolean or omitted `isActive`, each as validated |
| Dtos.CreateUserRoundTrip | back-end/src/users/dto/create-user.dto.ts:6-35 | Every admin-created user with a valid email and password is accepted as sent, whatever the role |
| Dtos.ValidatePassApplication | back-end/src/visitor-pass/dto/create-visitor-pass.dto.ts:5-41 | An accepted body carries the text fields as sent and three dates, each passing the ISO check on its own |
| Dtos.PassApplicationRoundTrip | back-end/src/visitor-pass/dto/create-visitor-pass.dto.ts:5-41 | Any three ISO dates pass, with no order between them, and empty text fields pass |
| Dtos.ValidateIncident | back-end/src/incidents/dto/create-incident.dto.ts:11-39 | An accepted report has a non-empty title, description and location and a severity name, each as sent |
| Dtos.IncidentRoundTrip | back-end/src/incidents/dto/create-incident.dto.ts:11-39 | Every report with non-empty title, description and location is accepted as sent |
| Dtos.IncidentTitleNonEmptyOnly | back-end/src/incidents/dto/create-incident.dto.ts:12-15 | An empty title is refused, while a title of one space passes |
| Dtos.ValidateScan | back-end/src/entry-logs/dto/create-entry-log.dto.ts:4-13 | A scan is accepted exactly when the token and location are strings and the type is ENTRY or EXIT; these three are all it carries |
| Dtos.ScanRoundTrip | back-end/src/entry-logs/dto/create-entry-log.dto.ts:4-13 | Every scan is accepted as sent, including an empty token and an empty location |
| Controllers.TakeArgument | back-end/src/entry-logs/entry-logs.controller.ts:46-50 | An absent or empty `take` gives 50. Anything else is `parseInt`'s result, with no range check, and NaN exactly when it does not parse |
| Controllers.TakeReadsBackCounts | back-end/src/entry-logs/entry-logs.controller.ts:49 | Every count below 2^53 that a client writes, 0 included, is passed on as written |
| Controllers.Dispatch | back-end/src/users/users.controller.ts:12-49 | A request the guards refuse gets their 401 or 403. An admitted request is either forwarded to the service or refused with 400 by the pipe, the update body included |
| Controllers.GuardsBeforeValidation | back-end/src/sos/sos.controller.ts:11 | The guards run before the pipe: a refused caller gets 401 or 403, whatever the body |
| Controllers.ScanRecordsCallerAsGuard | back-end/src/entry-logs/entry-logs.controller.ts:17-24 | A scan reaches `createFromScan(guardId, dto)` exactly when the caller is that GUARD and the body validates to that dto |
| Controllers.MyEntriesAreCallers | back-end/src/entry-logs/entry-logs.controller.ts:40-43 | `GET /entry-logs/me` lists the caller's own logs for any role, and refuses an anonymous caller with 401 |
| Controllers.ListEntriesDefault | back-end/src/entry-logs/entry-logs.controller.ts:46-50 | Without `take`, ADMIN and GUARD are forwarded `take` 50, which gives min(50, total) distinct stored logs with none left out newer than one returned |
| Controllers.RaiseSosUnchecked | back-end/src/sos/sos.controller.ts:29-36 | An SOS from ADMIN or GUARD is raised in the caller's name, with `type` and `message` passed on unvalidated |
| Controllers.ReportRecordsCaller | back-end/src/incidents/incidents.controller.ts:14-20 | A valid report is filed in the caller's name, whatever the role; an anonymous caller gets 401 |
| Controllers.ResolveUnchecked | back-end/src/incidents/incidents.controller.ts:37-45 | Any role may resolve any incident, with `actionTaken` passed on unvalidated |
| Controllers.DecisionsPlumbing | back-end/src/visitor-pass/visitor-pass.controller.ts:33-45 | Approve passes the caller as approver and reject passes no approver, for every role |
| Controllers.ApplyIsPublic | back-end/src/visitor-pass/visitor-pass.controller.ts:12-16 | Anyone may apply, with or without a token: only the pipe decides, and a valid application is forwarded as validated |
| Controllers.GetUserReturnsRawRow | back-end/src/users/users.controller.ts:29-32 | Any authenticated caller may fetch any user, and gets the stored row, hash and reset token included |
| Controllers.AdminCreatesAdmins | back-end/src/users/users.controller.ts:17-20 | An ADMIN can create another ADMIN: the body passes the pipe and reaches `create` unchanged |
| Controllers.UpdateToTakenEmailFails | back-end/src/users/users.controller.ts:35-38 | An ADMIN update that moves a user to another user's email reaches `update`, which fails with an unhandled 500 and leaves the table as it was |
| ApiErrors.Joined | front-end/src/lib/constants.ts:100-101 | A message list is joined with ", ", a string is kept, and an absent message stays absent |
| ApiErrors.OrElse | front-end/src/lib/constants.ts:103-109 | The `or` of a joined message and a fallback: the message when it is non-empty, otherwise the fallback |
| ApiErrors.ParseApiError | front-end/src/lib/constants.ts:86-115 | Never empty. No response with a request sent gives "Cannot reach the server…". No request at all gives "Unexpected error: " followed by the message or "unknown". A 500 gives the fixed text, and any other status shows a non-empty server message |
| ApiErrors.StatusDefaults | front-end/src/lib/constants.ts:104-111 | With no usable message, 401, 403 and 400 get their own default texts, and a 500 ignores even a present message |
| ApiErrors.OtherStatusDefault | front-end/src/lib/constants.ts:112-113 | Any other status, or none, without a message names the status in the fallback |
| ApiErrors.ValidationListJoined | front-end/src/lib/constants.ts:100-109 | A 400 with the pipe's message list shows the list joined, or the default only when the join is empty |
| ApiErrors.PageMessage | front-end/src/pages/auth/login/LoginPage.tsx:76-78 | The pages show a message list joined, a non-empty string as is, and their own fallback for no response, no message or "" |
| ApiErrors.PageMessageDiffers | front-end/src/pages/auth/reset-password/ResetPasswordPage.tsx:45-47 | Unlike `parseApiError`, a page shows a 500's own message, and shows "" for an empty message list |
| ToneTables.ToneTablesTotal | front-end/src/lib/constants.ts:5-38 | Every severity, incident status, emergency type, role and pass status has a badge tone |
| ProtectedRoute.HomeOf | front-end/src/components/ProtectedRoute.tsx:25-27 | ADMIN lands on /admin-dashboard, GUARD on /guard-dashboard, every other role on /dashboard |
| ProtectedRoute.Render | front-end/src/components/ProtectedRoute.tsx:8-31 | The spinner shows exactly while loading. /login follows exactly when not loading and signed out. The outlet shows exactly for a signed-in user whose role is listed, or when no list is given |
| ProtectedRoute.ExcludedRoleGoesHome | front-end/src/components/ProtectedRoute.tsx:23-28 | A signed-in user outside the list is sent to their own dashboard, never to /login |
| ProtectedRoute.EmptyListDeniesEveryone | front-end/src/components/ProtectedRoute.tsx:23 | An empty role list redirects every user, while no list at all admits every user |
| ProtectedRoute.LoadingHidesEverything | front-end/src/components/ProtectedRoute.tsx:11-17 | While loading, neither the user nor the list matters |
| FormErrors.Required | front-end/src/pages/auth/signup/SignupPage.tsx:122-131 | A field's message is recorded exactly when its value is blank after trim |
| FormErrors.EmailProblem | front-end/src/pages/auth/signup/SignupPage.tsx:125-127 | A blank email gives "Email is required". Otherwise "Enter a valid email address" comes exactly when the untrimmed email fails the pattern, and there is no message exactly when it passes |
| FormErrors.EmailAcceptedIffPattern | front-end/src/pages/auth/visitor-pass/VisitorPassPage.tsx:82-84 | The email check passes exactly when the pattern accepts the email |
| FormErrors.ClearError | front-end/src/pages/auth/signup/SignupPage.tsx:95-108 | Editing a field blanks that field's message when it has one and leaves every other entry as it was |
| SignupPage.InputField | front-end/src/pages/auth/signup/SignupPage.tsx:303-478 | None of the inputs wired to `handleInputChange` is the last name, the role or the dormitory |
| SignupPage.WithValue | front-end/src/pages/auth/signup/SignupPage.tsx:95-101 | An edit sets that field and leaves every other field as it was |
| SignupPage.ErrorsAfterHolds | front-end/src/pages/auth/signup/SignupPage.tsx:118-138 | After the first n checks, the object holds exactly the failed fields among them, each with its message |
| SignupPage.ErrorsOf | front-end/src/pages/auth/signup/SignupPage.tsx:118-138 | The object holds exactly the fields whose test failed, each with its message |
| SignupPage.Errors | front-end/src/pages/auth/signup/SignupPage.tsx:118-141 | `validateForm`'s object for a form holds exactly the fields with a problem, each with its message |
| SignupPage.ProblemsAreTheSharedChecks | front-end/src/pages/auth/signup/SignupPage.tsx:122-131 | The six text checks are the shared blank check with their own messages, and the email check is the shared email check |
| SignupPage.CompleteHasNoProblem | front-end/src/pages/auth/signup/SignupPage.tsx:121-137 | A complete form has no problem in any field |
| SignupPage.NoProblemIsComplete | front-end/src/pages/auth/signup/SignupPage.tsx:121-137 | A form with no problem in any field is complete |
| SignupPage.ErrorsEmptyIff | front-end/src/pages/auth/signup/SignupPage.tsx:139-140 | The form passes exactly when it is complete: a role and a dormitory answer chosen, six fields not blank, a matching email, a password of 8 or more units, and a matching confirmation |
| SignupPage.PasswordErrorsIndependent | front-end/src/pages/auth/signup/SignupPage.tsx:132-137 | A short password and a mismatched confirmation are both reported |
| SignupPage.BlankEmailIsMissing | front-end/src/pages/auth/signup/SignupPage.tsx:125-127 | A blank email is reported as missing, never as malformed |
| SignupPage.LastNameBlocksSubmit | front-end/src/pages/auth/signup/SignupPage.tsx:123 | While `lastName` is "", the form never passes |
| SignupPage.Page.constructor | front-end/src/pages/auth/signup/SignupPage.tsx:65-78 | The page starts with a blank form, no errors and no navigation |
| SignupPage.Page.HandleInputChange | front-end/src/pages/auth/signup/SignupPage.tsx:95-108 | An edit changes only that field, clears only that field's message, and does not navigate |
| SignupPage.Page.HandleRoleChange | front-end/src/pages/auth/signup/SignupPage.tsx:110-116 | Picking a role sets one of Student, Faculty or Staff and nothing else |
| SignupPage.Page.HandleDormChange | front-end/src/pages/auth/signup/SignupPage.tsx:378-379 | The dormitory select sets `yes` or `no` and clears no message |
| SignupPage.Page.ValidateForm | front-end/src/pages/auth/signup/SignupPage.tsx:118-141 | The check-by-check method builds exactly `Errors(form)`, replaces the page's errors with it, and returns true exactly when it is empty |
| SignupPage.Page.HandleSubmit | front-end/src/pages/auth/signup/SignupPage.tsx:143-149 | A valid form only navigates to /login with "Account created successfully!". No API is called, and with `lastName` "" nothing happens |
| LoginPage.Errors | front-end/src/pages/auth/login/LoginPage.tsx:57-62 | The email gets the shared email check's message, and the password's message appears exactly when it is "" |
| LoginPage.ErrorsEmptyIff | front-end/src/pages/auth/login/LoginPage.tsx:63-64 | The form passes exactly when the email matches the pattern and some password, of any length, was typed |
| LoginPage.ShortPasswordPassesPageOnly | front-end/src/pages/auth/login/LoginPage.tsx:62 | Any non-empty password that `isLength` counts shorter than 8 passes the page but is refused by `LoginDto`; four emoji are one such password |
| LoginPage.AcceptedFormReachesLogin | front-end/src/pages/auth/login/LoginPage.tsx:70-73 | A form the page accepts, whose email validator.js also accepts and whose password `isLength` counts at least 8 long, reaches `login` unchanged |
| LoginPage.Page.constructor | front-end/src/pages/auth/login/LoginPage.tsx:49-55 | The page starts empty, with no errors, no API message and no navigation |
| LoginPage.Page.ChangeEmail | front-end/src/pages/auth/login/LoginPage.tsx:200-203 | Typing an email sets it and clears only the email's message |
| LoginPage.Page.ChangePassword | front-end/src/pages/auth/login/LoginPage.tsx:237-240 | Typing a password sets it and clears only the password's message |
| LoginPage.Page.ValidateForm | front-end/src/pages/auth/login/LoginPage.tsx:57-64 | The page's errors become `Errors(email, password)`, and the method returns true exactly when they are empty |
| LoginPage.Page.HandleLogin | front-end/src/pages/auth/login/LoginPage.tsx:66-83 | The API message is cleared first. An invalid form sends nothing. A sent login goes to /dashboard when it resolves and shows the page's reading of the failure when it rejects, and the spinner stops either way |
| SearchParams.Find | front-end/src/pages/auth/reset-password/ResetPasswordPage.tsx:14-15 | The first position of a character, or none exactly when the character does not occur |
| SearchParams.Split | front-end/src/pages/auth/reset-password/ResetPasswordPage.tsx:14-15 | Splitting yields at least one piece, and exactly the whole string when the separator does not occur |
| SearchParams.Get | front-end/src/pages/auth/reset-password/ResetPasswordPage.tsx:15 | `get(name)` is null exactly when no pair has that name; otherwise it is the value of the first such pair |
| SearchParams.SingleParam | front-end/src/pages/auth/reset-password/ResetPasswordPage.tsx:15 | A query of one `name=value` gives that value back for that name |
| SearchParams.QueryAfterMark | front-end/src/pages/auth/reset-password/ResetPasswordPage.tsx:14 | The query of `base?query` is exactly `query` when the base has no `?` and the query has no `#` |
| SearchParams.LinkParam | front-end/src/pages/auth/reset-password/ResetPasswordPage.tsx:14-15 | A URL `base?name=value` gives the value for the name |
| ResetPasswordPage.TokenOf | front-end/src/pages/auth/reset-password/ResetPasswordPage.tsx:15 | The token is the first `token` value in the query, or "" when there is none |
| ResetPasswordPage.TokenOfLink | back-end/src/auth/auth.service.ts:149-157 | Read at the URL `forgotPassword` hands out, the page's token is exactly the hex token the service stored |
| ResetPasswordPage.EmailedLinkResets | back-end/src/auth/auth.service.ts:128-184 | For a known email whose mail failed, the page read at the reply's URL takes the stored token, and submitting it at time t resets the password exactly when t is within 15 minutes |
| ResetPasswordPage.Errors | front-end/src/pages/auth/reset-password/ResetPasswordPage.tsx:26-30 | A missing token, a new password under 8 units and a differing confirmation are each reported exactly when they occur, each with its own message |
| ResetPasswordPage.ErrorsEmptyIff | front-end/src/pages/auth/reset-password/ResetPasswordPage.tsx:31-32 | The form passes exactly when a token is present, the new password has 8 or more units, and the two passwords agree |
| ResetPasswordPage.NoTokenNeverSubmits | front-end/src/pages/auth/reset-password/ResetPasswordPage.tsx:15-28 | A page opened without a token never passes, whatever is typed |
| ResetPasswordPage.Page.constructor | front-end/src/pages/auth/reset-password/ResetPasswordPage.tsx:13-23 | The page reads its token from the URL and starts with empty fields and no messages |
| ResetPasswordPage.Page.ChangeNewPassword | front-end/src/pages/auth/reset-password/ResetPasswordPage.tsx:118-121 | Typing sets the new password and clears only its message |
| ResetPasswordPage.Page.ChangeConfirmPassword | front-end/src/pages/auth/reset-password/ResetPasswordPage.tsx:148-151 | Typing sets the confirmation and clears only its message |
| ResetPasswordPage.Page.ValidateForm | front-end/src/pages/auth/reset-password/ResetPasswordPage.tsx:26-33 | The page's errors become `Errors(token, newPassword, confirmPassword)`, and the method returns true exactly when they are empty |
| ResetPasswordPage.Page.HandleSubmit | front-end/src/pages/auth/reset-password/ResetPasswordPage.tsx:35-51 | An invalid form makes no call. A valid one sends (token, newPassword); `isSuccess` is set only when the call resolves, a rejection shows the page's reading with the "Reset failed…" fallback, and the spinner stops |
| ForgotPasswordPage.ErrorOf | front-end/src/pages/auth/forgot-password/ForgotPasswordPage.tsx:26-33 | A blank email gives "Email is required" before the pattern is tried; a malformed one gives "Enter a valid email address"; no message exactly when the pattern matches |
| ForgotPasswordPage.LinkShown | front-end/src/pages/auth/forgot-password/ForgotPasswordPage.tsx:40-42 | The page keeps a link exactly when the response carries a non-empty one |
| ForgotPasswordPage.LinkShownIffMailFailed | back-end/src/auth/auth.service.ts:141-157 | The page shows a link exactly when the email is registered and the mail failed, and the reset page read at that URL takes the stored token |
| ForgotPasswordPage.Page.constructor | front-end/src/pages/auth/forgot-password/ForgotPasswordPage.tsx:14-19 | The page starts with an empty email, no messages and no link |
| ForgotPasswordPage.Page.ChangeEmail | front-end/src/pages/auth/forgot-password/ForgotPasswordPage.tsx:125-128 | Typing sets the email and clears its message |
| ForgotPasswordPage.Page.HandleSubmit | front-end/src/pages/auth/forgot-password/ForgotPasswordPage.tsx:21-50 | Both messages are cleared, and the email's message becomes `ErrorOf(email)`. A request is sent exactly when the email matches the pattern. A resolved call sets success and keeps a returned link, a rejected one shows the page's reading with its fallback, and the spinner stops |
| VisitorPassPage.WithValue | front-end/src/pages/auth/visitor-pass/VisitorPassPage.tsx:64-69 | An edit sets that field and leaves the other five as they were |
| VisitorPassPage.ErrorsAfterHolds | front-end/src/pages/auth/visitor-pass/VisitorPassPage.tsx:78-89 | After the first n checks, the object holds exactly the failed fields among them, each with its message |
| VisitorPassPage.Errors | front-end/src/pages/auth/visitor-pass/VisitorPassPage.tsx:78-89 | `validateForm`'s object holds exactly the fields with a problem, each with its message |
| VisitorPassPage.ErrorsEmptyIff | front-end/src/pages/auth/visitor-pass/VisitorPassPage.tsx:90-91 | The form passes exactly when five text fields are not blank and the email matches the pattern |
| VisitorPassPage.FormNeverPassesDto | front-end/src/pages/auth/visitor-pass/VisitorPassPage.tsx:42-49 | The page's form has no `visitDate`, so `CreateVisitorPassDto` refuses every body built from it. Submitting sends nothing today, and wiring the form to the API as it stands could never produce a valid application |
| VisitorPassPage.Page.constructor | front-end/src/pages/auth/visitor-pass/VisitorPassPage.tsx:53-62 | The page starts with a blank form, no errors and no navigation |
| VisitorPassPage.Page.HandleInputChange | front-end/src/pages/auth/visitor-pass/VisitorPassPage.tsx:64-76 | An edit changes only that field and clears only that field's message |
| VisitorPassPage.Page.ValidateForm | front-end/src/pages/auth/visitor-pass/VisitorPassPage.tsx:78-92 | The check-by-check method builds exactly `Errors(form)`, replaces the page's errors with it, and returns true exactly when it is empty |
| VisitorPassPage.Page.HandleSubmit | front-end/src/pages/auth/visitor-pass/VisitorPassPage.tsx:94-99 | A complete form only navigates to /login with "Visitor pass application submitted!"; nothing is sent anywhere |

## Left out

- **Missing service methods.** `createFromScan`, `findUserByQrToken`, `findRecent`, SOS `findAll`, `create` and `close`, incident `findAll` and `resolve`, and `toggleActive` are called by the controllers but are absent from the services. Only their access gate and the arguments they are called with are modelled.
- **Guards.** The sources of JwtAuthGuard, RolesGuard and the `Roles` decorator are not part of this model. `AccessPolicy` assumes that RolesGuard admits exactly the listed roles, and that a route without `@Roles` admits any authenticated caller.
- **Unmounted modules.** The application module registers no EntryLogs, SOS, Incidents or Analytics module. Their services and controllers are modelled as written regardless.
- **Foreign code.** bcrypt's Blowfish rounds and salt (only which key bytes reach the hash is modelled), JWT signing and expiry, `crypto.randomBytes`, `crypto.randomUUID`, validator.js's `isEmail`/`isISO8601`, the clock and local midnight are parameters or uninterpreted values, not algorithms.
- **Mail.** Sending a mail is I/O: it is reduced to whether the send threw.
- **Prisma and the database.**
  - Tables are in-memory sequences.
  - Relation loading (`include`/`select` of the user, guard and approver) is not modelled.
  - Connection failures are modelled only where `register` handles them.
  - Schema defaults (ids, `status`, `isActive`, `qrToken`, `createdAt`) are a parameter, because the schema is not part of this model.
- **Concurrency.** The registration race is modelled only as an insert that may fail with P2002. The concurrent counts in analytics are modelled as independent counts.
- **Order of equal timestamps.** Ties in `orderBy … desc` keep store order in the model; Prisma leaves their order unspecified.
- **Unvalidated bodies.** `UpdateUserDto`, `ForgotPasswordDto` and `ResetPasswordDto` are not part of this model. `Dtos.ValidateUpdateUser` takes UpdateUserDto to be `PartialType(CreateUserDto)`: every CreateUserDto field optional, with its checks. The reset flow takes its fields as given. The SOS and incident-resolve handlers use inline body types, so their DTO files never apply.
- **ValidationPipe options.** The pipe's whitelist stripping and implicit type conversion are taken as already applied: a body is a map from the declared keys to JSON values.
- EntryLogs.FindAll: takes a non-negative `take` only. A NaN or negative value that `Controllers.TakeArgument` passes on is not run through it, and what Prisma does with such a value is not modelled.
- **`URLSearchParams`.** `SearchParams` does not model percent-decoding or `+` as space. The token links the back end mints contain only hex digits, so no such decoding applies to them.
- **Front end outside the auth pages.** Not modelled:
  - rendering and JSX, the show-password toggles and the role drop-down's open state;
  - the dashboards;
  - `api.ts`'s axios interceptors and `AuthContext`'s local storage;
  - `formatDate` and `formatDateTime`, which use locale formatting.
- **UTF-16.** `JsStrings.JsLength` and `JsStrings.ValidatorLength` count from code points. Dafny's `char` already excludes lone surrogates, so no string with a lone surrogate is modelled.
- **Dates.** `new Date(s)` is the parameter `toDate`. V8's parsing rules are not modelled: rolling "2021-02-30" over to 2 March, reading a date-time without an offset in the server's time zone, and refusing some ISO 8601 forms such as week dates. Prisma's own date handling is not modelled either.
- Users.Compare: matches no password against a column that is not a bcrypt hash. bcryptjs instead reads any column of exactly 60 UTF-16 units as a hash. If that plain text is a well-formed bcrypt hash, comparing the password it was made from succeeds. If its salt is malformed, `compare` throws. `Users.PatchedPasswordLocksOut` therefore covers only stored passwords of another length.
- JsStrings.ParseInt10: returns the exact integer. `parseInt` returns a double, so from 2^53 up the count is rounded (9007199254740993 reads as 9007199254740992), and past about 309 digits it is Infinity. `JsStrings.ParseIntOfNatToString` and `Controllers.TakeReadsBackCounts` are stated only below 2^53 for that reason.
- Users.CreateStep: treats `isActive: null` as absent. The pipe lets null through, and Prisma would refuse the NULL with a 500.
- **Reset link navigation.** The reply's link is the absolute URL `http://localhost:5176/reset-password?token=…`, and the page hands it to react-router's `navigate`. Neither that navigation nor the port are modelled. The front end is served from `http://localhost:5173`: that is the CORS default in back-end/src/main.ts:9 and the mail default in back-end/src/mail/mail.service.ts:33-34. The lemmas about the link state only which token the reset page reads at that URL.
- SignupPage.Page.ValidateForm: evaluates all the field tests before it fills the errors object, instead of between the assignments. The tests are pure, so the resulting object is the same.

=== FILE: access_policy.dfy ===
/** The route table the controllers' `@UseGuards` and `@Roles` decorators
    define. The guard sources are not part of this model; the table rests on
    two stated assumptions about them:
    - JwtAuthGuard refuses a request without a valid token with 401 and runs
      before RolesGuard;
    - RolesGuard admits exactly the roles listed by `@Roles` (403 for any
      other role) and admits every authenticated caller on a route without
      `@Roles`. */
module AccessPolicy {
  import opened Domain

  /** Who is calling: no valid token, or the `req.user` a token yields. */
  datatype Caller = Anonymous | Authenticated(id: string, role: Role)

  datatype Route =
    // entry-logs.controller.ts
    | ScanEntry | LookupByQr | RecentEntries | MyEntries | ListEntries
    // sos.controller.ts
    | ActiveSos | ListSos | RaiseSos | CloseSos
    // users.controller.ts
    | CreateUser | ListUsers | GetUser | UpdateUser | ToggleActive | RemoveUser
    // incidents.controller.ts
    | ReportIncident | MyIncidents | ListIncidents | ResolveIncident
    // visitor-pass.controller.ts
    | ApplyForPass | ListPasses | GetPass | ApprovePass | RejectPass
    // analytics.controller.ts
    | Overview

  /** The guards on a route: none; JwtAuthGuard alone; or JwtAuthGuard then
      RolesGuard with the `@Roles` list (None when the route has none). */
  datatype Gate = Public | JwtOnly | JwtAndRoles(listed: Option<set<Role>>)

  datatype Admission = Admitted | Refused(kind: ErrorKind)

  function GateOf(route: Route): Gate {
    match route
    case ScanEntry => JwtAndRoles(Some({GUARD}))
    case LookupByQr => JwtAndRoles(Some({GUARD}))
    case RecentEntries => JwtAndRoles(Some({GUARD}))
    case MyEntries => JwtAndRoles(None)
    case ListEntries => JwtAndRoles(Some({ADMIN, GUARD}))
    case ActiveSos => JwtAndRoles(None)
    case ListSos => JwtAndRoles(Some({ADMIN}))
    case RaiseSos => JwtAndRoles(Some({ADMIN, GUARD}))
    case CloseSos => JwtAndRoles(Some({ADMIN, GUARD}))
    case CreateUser => JwtAndRoles(Some({ADMIN}))
    case ListUsers => JwtAndRoles(Some({ADMIN}))
    case GetUser => JwtAndRoles(None)
    case UpdateUser => JwtAndRoles(Some({ADMIN}))
    case ToggleActive => JwtAndRoles(Some({ADMIN}))
    case RemoveUser => JwtAndRoles(Some({ADMIN}))
    case ReportIncident => JwtOnly
    case MyIncidents => JwtOnly
    case ListIncidents => JwtOnly
    case ResolveIncident => JwtOnly
    case ApplyForPass => Public
    case ListPasses => JwtOnly
    case GetPass => JwtOnly
    case ApprovePass => JwtOnly
    case RejectPass => JwtOnly
    case Overview => JwtOnly
  }

  /** The guards in order: the token first (401), then the role list (403). */
  function Admit(gate: Gate, caller: Caller): (a: Admission)
    ensures a.Refused? ==> a.kind == Unauthorized || a.kind == Forbidden
    ensures a == Refused(Unauthorized) <==> gate != Public && caller.Anonymous?
    ensures a == Refused(Forbidden) <==>
      gate.JwtAndRoles? && gate.listed.Some? && caller.Authenticated? && caller.role !in gate.listed.value
  {
    match gate
    case Public => Admitted
    case JwtOnly => if caller.Anonymous? then Refused(Unauthorized) else Admitted
    case JwtAndRoles(listed) =>
      if caller.Anonymous? then Refused(Unauthorized)
      else if listed.Some? && caller.role !in listed.value then Refused(Forbidden)
      else Admitted
  }

  function Access(route: Route, caller: Caller): (a: Admission)
    ensures a.Admitted? && caller.Anonymous? ==> route == ApplyForPass
  {
    Admit(GateOf(route), caller)
  }

  /** The roles admitted on a route. */
  ghost function AdmittedRoles(route: Route): (s: set<Role>)
    ensures forall r: Role :: r in s <==> Access(route, Authenticated("", r)).Admitted?
  {
    set r: Role | Access(route, Authenticated("", r)).Admitted?
  }

  const AllRoles: set<Role> := {ADMIN, GUARD, STUDENT, FACULTY, STAFF}

  lemma EveryRoleListed(r: Role)
    ensures r in AllRoles
  {
    match r
    case ADMIN => case GUARD => case STUDENT => case FACULTY => case STAFF =>
  }

  /** The caller's id never matters to the gate, only the role. */
  lemma GateIgnoresCallerId(route: Route, id1: string, id2: string, role: Role)
    ensures Access(route, Authenticated(id1, role)) == Access(route, Authenticated(id2, role))
  {
  }

  /** Applying for a visitor pass is the one route open without a token;
      every other route answers an anonymous caller with 401. */
  lemma OnlyPassApplicationIsPublic(route: Route)
    ensures Access(route, Anonymous).Admitted? <==> route == ApplyForPass
    ensures route != ApplyForPass ==> Access(route, Anonymous) == Refused(Unauthorized)
  {
  }

  /** SOS listing and every user-management route except `GET /users/:id`
      admit ADMIN only. */
  lemma AdminOnlyRoutes(route: Route, id: string, role: Role)
    requires route in {ListSos, CreateUser, ListUsers, UpdateUser, ToggleActive, RemoveUser}
    ensures Access(route, Authenticated(id, role)).Admitted? <==> role == ADMIN
    ensures role != ADMIN ==> Access(route, Authenticated(id, role)) == Refused(Forbidden)
  {
  }

  /** Scanning, QR lookup and the recent list admit GUARD only: an ADMIN is
      refused with 403. */
  lemma GuardOnlyRoutes(route: Route, id: string, role: Role)
    requires route in {ScanEntry, LookupByQr, RecentEntries}
    ensures Access(route, Authenticated(id, role)).Admitted? <==> role == GUARD
    ensures Access(route, Authenticated(id, ADMIN)) == Refused(Forbidden)
  {
  }

  /** The full entry-log list and raising or closing an SOS admit ADMIN and
      GUARD. */
  lemma AdminOrGuardRoutes(route: Route, id: string, role: Role)
    requires route in {ListEntries, RaiseSos, CloseSos}
    ensures Access(route, Authenticated(id, role)).Admitted? <==> role == ADMIN || role == GUARD
  {
  }

  /** Every other route admits any authenticated caller. */
  lemma AnyAuthenticatedRoutes(route: Route, id: string, role: Role)
    requires route in {MyEntries, ActiveSos, GetUser, ReportIncident, MyIncidents, ListIncidents,
                       ResolveIncident, ListPasses, GetPass, ApprovePass, RejectPass, Overview}
    ensures Access(route, Authenticated(id, role)).Admitted?
  {
  }

  /** The four classes above cover every route. */
  lemma {:induction false} EveryRouteClassified(route: Route)
    ensures AdmittedRoles(route) == AllRoles || AdmittedRoles(route) == {ADMIN}
         || AdmittedRoles(route) == {GUARD} || AdmittedRoles(route) == {ADMIN, GUARD}
  {
    var s := AdmittedRoles(route);
    assert ADMIN in s || GUARD in s;
    match GateOf(route)
    case Public =>
      assert s == AllRoles by {
        forall r: Role ensures r in s <==> r in AllRoles { EveryRoleListed(r); }
      }
    case JwtOnly =>
      assert s == AllRoles by {
        forall r: Role ensures r in s <==> r in AllRoles { EveryRoleListed(r); }
      }
    case JwtAndRoles(listed) =>
      if listed.None? {
        assert s == AllRoles by {
          forall r: Role ensures r in s <==> r in AllRoles { EveryRoleListed(r); }
        }
      } else {
        assert s == listed.value by {
          forall r: Role ensures r in s <==> r in listed.value { }
        }
        assert listed.value in {{ADMIN}, {GUARD}, {ADMIN, GUARD}};
      }
  }

  /** The roles the route's doc comment names, where one names them. */
  function CommentedRoles(route: Route): Option<set<Role>> {
    match route
    case RecentEntries => Some({GUARD})
    case ListEntries => Some({ADMIN, GUARD})
    case ListSos => Some({ADMIN})
    case RaiseSos => Some({ADMIN, GUARD})
    case CloseSos => Some({ADMIN, GUARD})
    case ListIncidents => Some({ADMIN})
    case ResolveIncident => Some({ADMIN, GUARD})
    case ListPasses => Some({ADMIN, GUARD})
    case _ => None
  }

  /** Where the decorators and the comments disagree: the incident list,
      incident resolution and the pass list admit every role the comments
      leave out. Everywhere else a comment names exactly the admitted roles. */
  lemma CommentsVersusDecorators(route: Route)
    ensures CommentedRoles(route).Some? && AdmittedRoles(route) != CommentedRoles(route).value <==>
      route in {ListIncidents, ResolveIncident, ListPasses}
    ensures route in {ListIncidents, ResolveIncident, ListPasses} ==>
      Access(route, Authenticated("", STUDENT)).Admitted?
  {
    var s := AdmittedRoles(route);
    var c := CommentedRoles(route);
    if c.Some? {
      if route in {ListIncidents, ResolveIncident, ListPasses} {
        assert STUDENT in s && STUDENT !in c.value;
      } else {
        assert s == c.value by {
          forall r: Role ensures r in s <==> r in c.value { }
        }
      }
    }
  }

  /** Approving and rejecting a visitor pass need only a token: any role may
      decide any pass. */
  lemma AnyRoleDecidesPasses(id: string, role: Role)
    ensures Access(ApprovePass, Authenticated(id, role)).Admitted?
    ensures Access(RejectPass, Authenticated(id, role)).Admitted?
    ensures AdmittedRoles(ApprovePass) == AllRoles && AdmittedRoles(RejectPass) == AllRoles
  {
    forall r: Role ensures r in AdmittedRoles(ApprovePass) <==> r in AllRoles { EveryRoleListed(r); }
    forall r: Role ensures r in AdmittedRoles(RejectPass) <==> r in AllRoles { EveryRoleListed(r); }
  }

  /** `GET /users/:id` has no `@Roles` while its siblings are ADMIN-only: a
      STUDENT may read any user's row and may not list them. */
  lemma UserRowReadableByAnyone(id: string)
    ensures Access(GetUser, Authenticated(id, STUDENT)).Admitted?
    ensures Access(ListUsers, Authenticated(id, STUDENT)) == Refused(Forbidden)
  {
  }
}

=== FILE: analytics.dfy ===
/** AnalyticsService.getOverview: twelve counts over the five tables. The
    tables and the local midnight `todayStart` (milliseconds) are arguments;
    nothing is written. */
module Analytics {
  import opened Domain
  import opened Ordering
  import opened Users
  import opened EntryLogs
  import opened Incidents
  import opened VisitorPasses
  import opened Sos

  datatype Overview = Overview(
    totalUsers: nat, totalStudents: nat, totalFaculty: nat, totalStaff: nat, totalGuards: nat,
    entriesToday: nat, totalEntryLogs: nat,
    pendingIncidents: nat, resolvedIncidents: nat,
    pendingVisitors: nat, approvedVisitors: nat,
    activeSos: nat)

  function HasRole(r: Role): User -> bool {
    (u: User) => u.role == r
  }

  function Since(todayStart: int): EntryLog -> bool {
    (l: EntryLog) => l.timestamp >= todayStart
  }

  function IncidentIs(s: IncidentStatus): Incident -> bool {
    (x: Incident) => x.status == s
  }

  function PassIs(s: PassStatus): VisitorPass -> bool {
    (p: VisitorPass) => p.status == s
  }

  function GetOverview(users: seq<User>, logs: seq<EntryLog>, incidents: seq<Incident>,
                       passes: seq<VisitorPass>, broadcasts: seq<SosBroadcast>, todayStart: int): (o: Overview)
    ensures o.totalUsers == |users| && o.totalEntryLogs == |logs|
    ensures o.totalStudents == Count(users, HasRole(STUDENT)) && o.totalFaculty == Count(users, HasRole(FACULTY))
    ensures o.totalStaff == Count(users, HasRole(STAFF)) && o.totalGuards == Count(users, HasRole(GUARD))
    ensures o.entriesToday == Count(logs, Since(todayStart))
    ensures o.pendingIncidents == Count(incidents, IncidentIs(IncidentStatus.PENDING))
    ensures o.resolvedIncidents == Count(incidents, IncidentIs(RESOLVED))
    ensures o.pendingVisitors == Count(passes, PassIs(PassStatus.PENDING))
    ensures o.approvedVisitors == Count(passes, PassIs(APPROVED))
    ensures o.totalStudents + o.totalFaculty + o.totalStaff + o.totalGuards
         == o.totalUsers - Count(users, HasRole(ADMIN))
    ensures o.totalStudents + o.totalFaculty + o.totalStaff + o.totalGuards <= o.totalUsers
    ensures o.entriesToday <= o.totalEntryLogs
    ensures o.pendingIncidents + o.resolvedIncidents == |incidents|
    ensures o.pendingVisitors + o.approvedVisitors
         == |passes| - Count(passes, PassIs(REJECTED)) - Count(passes, PassIs(EXPIRED))
    ensures o.activeSos == |GetActive(broadcasts)|
  {
    RoleCountsSum(users);
    IncidentCountsSum(incidents);
    PassCountsSum(passes);
    Overview(
      |users|,
      Count(users, HasRole(STUDENT)),
      Count(users, HasRole(FACULTY)),
      Count(users, HasRole(STAFF)),
      Count(users, HasRole(GUARD)),
      Count(logs, Since(todayStart)),
      |logs|,
      Count(incidents, IncidentIs(IncidentStatus.PENDING)),
      Count(incidents, IncidentIs(RESOLVED)),
      Count(passes, PassIs(PassStatus.PENDING)),
      Count(passes, PassIs(APPROVED)),
      Count(broadcasts, IsOpen()))
  }

  /** The five role counts partition the users; ADMIN is the one the
      overview leaves out. */
  lemma {:induction false} RoleCountsSum(users: seq<User>)
    ensures Count(users, HasRole(STUDENT)) + Count(users, HasRole(FACULTY)) + Count(users, HasRole(STAFF))
          + Count(users, HasRole(GUARD)) + Count(users, HasRole(ADMIN)) == |users|
  {
    if users != [] {
      RoleCountsSum(users[1..]);
      CountCons(users, HasRole(STUDENT));
      CountCons(users, HasRole(FACULTY));
      CountCons(users, HasRole(STAFF));
      CountCons(users, HasRole(GUARD));
      CountCons(users, HasRole(ADMIN));
    }
  }

  lemma {:induction false} IncidentCountsSum(incidents: seq<Incident>)
    ensures Count(incidents, IncidentIs(IncidentStatus.PENDING)) + Count(incidents, IncidentIs(RESOLVED)) == |incidents|
  {
    if incidents != [] {
      IncidentCountsSum(incidents[1..]);
      CountCons(incidents, IncidentIs(IncidentStatus.PENDING));
      CountCons(incidents, IncidentIs(RESOLVED));
    }
  }

  /** PENDING, APPROVED, REJECTED and EXPIRED partition the passes, so a
      rejected or expired pass is in neither visitor count. */
  lemma {:induction false} PassCountsSum(passes: seq<VisitorPass>)
    ensures Count(passes, PassIs(PassStatus.PENDING)) + Count(passes, PassIs(APPROVED))
          + Count(passes, PassIs(REJECTED)) + Count(passes, PassIs(EXPIRED)) == |passes|
  {
    if passes != [] {
      PassCountsSum(passes[1..]);
      CountCons(passes, PassIs(PassStatus.PENDING));
      CountCons(passes, PassIs(APPROVED));
      CountCons(passes, PassIs(REJECTED));
      CountCons(passes, PassIs(EXPIRED));
    }
  }
}

=== FILE: api_errors.dfy ===
/** The front end's reading of a failed API call: `parseApiError` and the
    auth pages' own message selection. */
module ApiErrors {
  import opened Domain
  import opened JsStrings

  /** `response.data.message`: absent, one string, or the list of
      messages the ValidationPipe sends. */
  datatype ServerMessage = Absent | Text(s: string) | Lines(items: seq<string>)

  /** What axios rejects with: either no response (with or without a request
      having gone out, and the error's own message), or a response with its
      HTTP status (possibly missing) and body message. */
  datatype Failure =
    | NoResponse(requestSent: bool, errorMessage: Option<string>)
    | HttpError(status: Option<int>, message: ServerMessage)

  /** `Array.isArray(msg) ? msg.join(', ') : msg`. */
  function Joined(m: ServerMessage): (r: Option<string>)
    ensures m.Absent? <==> r.None?
    ensures m.Text? ==> r == Some(m.s)
    ensures m.Lines? ==> r == Some(Join(m.items, ", "))
  {
    match m
    case Absent => None
    case Text(s) => Some(s)
    case Lines(items) => Some(Join(items, ", "))
  }

  /** `joined || fallback`: undefined and "" are falsy. */
  function OrElse(joined: Option<string>, fallback: string): (r: string)
    ensures joined.Some? && joined.value != "" ==> r == joined.value
    ensures joined.None? || joined.value == "" ==> r == fallback
  {
    if joined.Some? && joined.value != "" then joined.value else fallback
  }

  const Unreachable := "Cannot reach the server. Please make sure the backend is running and try again."
  const UnexpectedPrefix := "Unexpected error: "
  const Default401 := "Invalid email or password."
  const Default403 := "You do not have permission to perform this action."
  const Default400 := "Validation failed. Please check your inputs."
  const Fixed500 := "Internal server error. The database may be unreachable — please try again later."

  /** `${status}` for a number or `undefined`. */
  function StatusText(status: Option<int>): string {
    if status.Some? then IntToString(status.value) else "undefined"
  }

  function RequestFailed(status: Option<int>): string {
    "Request failed (HTTP " + StatusText(status) + "). Please try again."
  }

  /** The message for a response with this status and joined body message. */
  function ResponseMessage(status: Option<int>, joined: Option<string>): string {
    if status == Some(401) then OrElse(joined, Default401)
    else if status == Some(403) then OrElse(joined, Default403)
    else if status == Some(400) then OrElse(joined, Default400)
    else if status == Some(500) then Fixed500
    else OrElse(joined, RequestFailed(status))
  }

  /** The branch `ResponseMessage` takes for each status. */
  lemma ResponseBranches(status: Option<int>, joined: Option<string>)
    ensures status == Some(401) ==> ResponseMessage(status, joined) == OrElse(joined, Default401)
    ensures status == Some(403) ==> ResponseMessage(status, joined) == OrElse(joined, Default403)
    ensures status == Some(400) ==> ResponseMessage(status, joined) == OrElse(joined, Default400)
    ensures status == Some(500) ==> ResponseMessage(status, joined) == Fixed500
    ensures status !in {Some(400), Some(401), Some(403), Some(500)} ==>
      ResponseMessage(status, joined) == OrElse(joined, RequestFailed(status))
  {
  }

  function ParseApiError(err: Failure): (r: string)
    ensures r != ""
    ensures err.NoResponse? && err.requestSent ==> r == Unreachable
    ensures err.NoResponse? && !err.requestSent ==>
      r == UnexpectedPrefix + (if err.errorMessage.Some? then err.errorMessage.value else "unknown")
    ensures err.HttpError? && err.status == Some(500) ==> r == Fixed500
    ensures err.HttpError? && err.status != Some(500) && Joined(err.message).Some? && Joined(err.message).value != "" ==>
      r == Joined(err.message).value
  {
    assert Unreachable == "Cannot reach the server. Please make sure the backend is running and try again.";
    assert UnexpectedPrefix == "Unexpected error: ";
    assert Default401 == "Invalid email or password.";
    assert Default403 == "You do not have permission to perform this action.";
    assert Default400 == "Validation failed. Please check your inputs.";
    assert Fixed500 == "Internal server error. The database may be unreachable — please try again later.";
    match err
    case NoResponse(sent, message) =>
      if sent then Unreachable
      else UnexpectedPrefix + (if message.Some? then message.value else "unknown")
    case HttpError(status, message) => ResponseMessage(status, Joined(message))
  }

  /** Without a usable server message, each status gets its own fixed text;
      a 500 gets the database text even when the server explains itself. */
  lemma StatusDefaults(m: ServerMessage, msg: string)
    requires Joined(m).None? || Joined(m).value == ""
    ensures ParseApiError(HttpError(Some(401), m)) == Default401
    ensures ParseApiError(HttpError(Some(403), m)) == Default403
    ensures ParseApiError(HttpError(Some(400), m)) == Default400
    ensures ParseApiError(HttpError(Some(500), Text(msg))) == Fixed500
  {
    ResponseBranches(Some(401), Joined(m));
    ResponseBranches(Some(403), Joined(m));
    ResponseBranches(Some(400), Joined(m));
    ResponseBranches(Some(500), Joined(Text(msg)));
  }

  /** Any other status, or none, names the status in the fallback. */
  lemma OtherStatusDefault(status: Option<int>, m: ServerMessage)
    requires Joined(m).None? || Joined(m).value == ""
    requires status !in {Some(400), Some(401), Some(403), Some(500)}
    ensures ParseApiError(HttpError(status, m)) == RequestFailed(status)
  {
    ResponseBranches(status, Joined(m));
  }

  /** The pipe's message list is shown joined with ", "; only an empty list
      or a list of one empty string counts as no message. */
  lemma ValidationListJoined(items: seq<string>)
    ensures ParseApiError(HttpError(Some(400), Lines(items))) ==
      if |items| == 0 || (|items| == 1 && items[0] == "") then Default400 else Join(items, ", ")
  {
    JoinEmptyOnlyForEmptyParts(items, ", ");
    ResponseBranches(Some(400), Some(Join(items, ", ")));
  }

  // ---------------------------------------------------------- page messages

  /** The message the auth pages pick from a failure:
      `Array.isArray(msg) ? msg.join(', ') : msg || fallback`. The `||` binds
      inside the else branch, so a list is shown joined even when that is "". */
  function PageMessage(err: Failure, fallback: string): (r: string)
    ensures err.NoResponse? ==> r == fallback
    ensures err.HttpError? && err.message.Lines? ==> r == Join(err.message.items, ", ")
    ensures err.HttpError? && err.message.Text? && err.message.s != "" ==> r == err.message.s
    ensures err.HttpError? && (err.message.Absent? || err.message == Text("")) ==> r == fallback
  {
    match err
    case NoResponse(_, _) => fallback
    case HttpError(_, message) =>
      match message
      case Lines(items) => Join(items, ", ")
      case Text(s) => if s != "" then s else fallback
      case Absent => fallback
  }

  /** Where the pages and `parseApiError` part ways: the pages show the
      server's text for a 500 and show nothing for an empty list. */
  lemma PageMessageDiffers(msg: string, fallback: string)
    requires msg != ""
    ensures PageMessage(HttpError(Some(500), Text(msg)), fallback) == msg
    ensures ParseApiError(HttpError(Some(500), Text(msg))) == Fixed500
    ensures PageMessage(HttpError(Some(400), Lines([])), fallback) == ""
    ensures ParseApiError(HttpError(Some(400), Lines([]))) == Default400
  {
  }
}

=== FILE: auth.dfy ===
/** AuthService: registration, login, profile lookup and the password-reset
    flow over the user table. bcrypt, JWT signing, `crypto.randomBytes`, the
    clock and the mailer are parameters: the hash is `Users.Hash`, a token is
    its signed payload, the random bytes, `now` (milliseconds) and whether the
    mail went out are supplied by the caller. */
module Auth {
  import opened Domain
  import opened Ordering
  import opened Users

  // ---------------------------------------------------------------- tokens

  /** The claims `signToken` puts in the JWT. */
  datatype JwtPayload = JwtPayload(sub: string, email: string, role: string)

  /** A signed JWT, identified by its payload. */
  datatype AccessToken = Signed(payload: JwtPayload)

  function SignToken(userId: string, email: string, role: Role): AccessToken {
    Signed(JwtPayload(userId, email, RoleName(role)))
  }

  /** The lower-case hex digit of a value below 16. */
  function HexDigit(d: nat): char
    requires d < 16
  {
    if d < 10 then ('0' as int + d) as char else ('a' as int + d - 10) as char
  }

  predicate IsHexDigit(c: char) {
    '0' <= c <= '9' || 'a' <= c <= 'f'
  }

  /** `Buffer.toString('hex')`: two lower-case hex digits per byte. */
  function ToHex(bytes: seq<Byte>): (s: string)
    ensures |s| == 2 * |bytes|
    ensures forall i | 0 <= i < |s| :: IsHexDigit(s[i])
  {
    if bytes == [] then ""
    else
      var n := bytes[0];
      [HexDigit(n / 16), HexDigit(n % 16)] + ToHex(bytes[1..])
  }

  function HexValue(c: char): (r: Option<nat>)
    ensures r.Some? <==> IsHexDigit(c)
    ensures r.Some? ==> r.value < 16 && HexDigit(r.value) == c
  {
    if '0' <= c <= '9' then Some(c as int - '0' as int)
    else if 'a' <= c <= 'f' then Some(c as int - 'a' as int + 10)
    else None
  }

  lemma HexValueOfDigit(d: nat)
    requires d < 16
    ensures HexValue(HexDigit(d)) == Some(d)
  {
  }

  /** Reading a hex string back into bytes. */
  function FromHex(s: string): (r: Option<seq<Byte>>)
    ensures r.Some? ==> 2 * |r.value| == |s|
  {
    if s == [] then Some([])
    else if |s| == 1 then None
    else match (HexValue(s[0]), HexValue(s[1]), FromHex(s[2..]))
      case (Some(hi), Some(lo), Some(rest)) => Some([hi * 16 + lo] + rest)
      case _ => None
  }

  lemma FromHexPair(hi: nat, lo: nat, rest: string)
    requires hi < 16 && lo < 16
    ensures FromHex([HexDigit(hi), HexDigit(lo)] + rest)
         == if FromHex(rest).Some? then Some([hi * 16 + lo] + FromHex(rest).value) else None
  {
    var s := [HexDigit(hi), HexDigit(lo)] + rest;
    assert s[0] == HexDigit(hi) && s[1] == HexDigit(lo) && s[2..] == rest;
    HexValueOfDigit(hi);
    HexValueOfDigit(lo);
  }

  /** The hex encoding loses nothing: distinct random bytes give distinct tokens. */
  lemma {:induction false} FromHexToHex(bytes: seq<Byte>)
    ensures FromHex(ToHex(bytes)) == Some(bytes)
  {
    if bytes != [] {
      var n := bytes[0];
      var rest := ToHex(bytes[1..]);
      assert ToHex(bytes) == [HexDigit(n / 16), HexDigit(n % 16)] + rest;
      FromHexToHex(bytes[1..]);
      FromHexPair(n / 16, n % 16, rest);
      assert bytes == [bytes[0]] + bytes[1..];
    }
  }

  lemma ToHexInjective(a: seq<Byte>, b: seq<Byte>)
    requires ToHex(a) == ToHex(b)
    ensures a == b
  {
    FromHexToHex(a);
    FromHexToHex(b);
  }

  // ---------------------------------------------------------- responses

  /** A user as auth responses expose it: `password`, `passwordResetToken`
      and `passwordResetExpiry` are gone. */
  datatype PublicUser = PublicUser(
    id: string, email: string, firstName: string, lastName: string, role: Role,
    contactNumber: Option<string>, qrToken: string, isActive: bool, createdAt: int)

  function StripPassword(u: User): (p: PublicUser)
    ensures p.id == u.id && p.email == u.email && p.role == u.role && p.isActive == u.isActive
  {
    PublicUser(u.id, u.email, u.firstName, u.lastName, u.role, u.contactNumber,
               u.qrToken, u.isActive, u.createdAt)
  }

  /** Puts the three secret columns back on a public user. */
  function WithSecrets(p: PublicUser, password: PasswordHash, token: Option<string>, expiry: Option<int>): User {
    User(p.id, p.email, password, p.firstName, p.lastName, p.role, p.contactNumber,
         p.qrToken, p.isActive, token, expiry, p.createdAt)
  }

  /** Stripping removes the three secret columns and nothing else. */
  lemma StripThenRestore(u: User)
    ensures WithSecrets(StripPassword(u), u.password, u.passwordResetToken, u.passwordResetExpiry) == u
  {
  }

  /** The public view cannot reveal the secrets: two users that differ only
      in them look the same. */
  lemma StripHidesSecrets(u: User, password: PasswordHash, token: Option<string>, expiry: Option<int>)
    ensures StripPassword(u.(password := password, passwordResetToken := token, passwordResetExpiry := expiry))
         == StripPassword(u)
  {
  }

  datatype AuthResponse = AuthResponse(accessToken: AccessToken, user: PublicUser)

  /** `{ accessToken: signToken(user.id, user.email, user.role), user: stripPassword(user) }`. */
  function Session(u: User): AuthResponse {
    AuthResponse(SignToken(u.id, u.email, u.role), StripPassword(u))
  }

  datatype ForgotResponse = ForgotResponse(message: string, resetToken: Option<string>, resetLink: Option<string>)

  const EmailRegistered := "Email is already registered"
  const DbUnreachable := "Unable to connect to the database. Please try again later."
  const CreateFailed := "Could not create account. The database may be unavailable — please try again later."
  const InvalidCredentials := "Invalid email or password"
  const Deactivated := "Account is deactivated"
  const ProfileMissing := "User not found"
  const UnknownEmailReply := "If that email is registered, a reset link has been sent."
  const MailSentReply := "A password reset link has been sent to your email."
  const MailFailedReply := "Email delivery unavailable. Use the link below to reset your password."
  const InvalidResetToken := "Invalid or expired reset token"
  const ResetDone := "Password has been reset successfully."

  /** 15 minutes in milliseconds. */
  const ResetWindowMs := 15 * 60 * 1000

  const ResetLinkPrefix := "http://localhost:5176/reset-password?token="

  // ---------------------------------------------------------- register

  /** The fields of a RegisterDto that passed validation. */
  datatype RegisterInput = RegisterInput(
    email: string, password: string, firstName: string, lastName: string,
    role: Role, contactNumber: Option<string>)

  /** How the store misbehaves during `register`: the lookup throws, or the
      insert throws with an optional Prisma error code. */
  datatype DbFault = NoFault | LookupFails | InsertFails(code: Option<string>)

  function RegisteredRow(dto: RegisterInput, d: RowDefaults): User {
    User(d.id, dto.email, Hash(dto.password), dto.firstName, dto.lastName, dto.role,
         dto.contactNumber, d.qrToken, d.isActive, None, None, d.createdAt)
  }

  /** The error `register` reports when the insert throws with this code. */
  function InsertError(code: Option<string>): (r: Result<AuthResponse>)
    ensures r.Err?
    ensures r.kind == Conflict <==> code == Some("P2002")
  {
    if code == Some("P2002") then Err(Conflict, EmailRegistered) else Err(InternalError, CreateFailed)
  }

  function RegisterStep(rows: seq<User>, dto: RegisterInput, fault: DbFault, d: RowDefaults): (o: Outcome<AuthResponse, User>)
    ensures o.result.Ok? <==> fault == NoFault && !EmailTaken(rows, dto.email) && !IdTaken(rows, d.id)
    ensures o.result.Err? ==> o.rows == rows
    ensures o.result.Ok? ==>
      && o.rows == rows + [RegisteredRow(dto, d)]
      && o.result.value == Session(RegisteredRow(dto, d))
  {
    if fault == LookupFails then Outcome(Err(InternalError, DbUnreachable), rows)
    else if FindByEmail(rows, dto.email).Some? then Outcome(Err(Conflict, EmailRegistered), rows)
    else
      var u := RegisteredRow(dto, d);
      if fault.InsertFails? then Outcome(InsertError(fault.code), rows)
      else
        var ins := InsertStep(rows, u);
        // the id clash Prisma reports as P2002
        if ins.result.Err? then Outcome(Err(Conflict, EmailRegistered), rows)
        else Outcome(Ok(Session(u)), ins.rows)
  }

  /** An email already in the table is rejected with Conflict and no write,
      whenever the lookup itself works. */
  lemma RegisterDuplicateEmail(rows: seq<User>, dto: RegisterInput, fault: DbFault, d: RowDefaults)
    requires fault != LookupFails
    ensures EmailTaken(rows, dto.email) ==>
      RegisterStep(rows, dto, fault, d) == Outcome(Err(Conflict, EmailRegistered), rows)
    ensures RegisterStep(rows, dto, fault, d).result == Err(Conflict, EmailRegistered) ==>
      EmailTaken(rows, dto.email) || fault == InsertFails(Some("P2002")) || IdTaken(rows, d.id)
  {
  }

  /** A failing insert: P2002 (the registration race) gives the same Conflict
      as a known email; any other store error gives InternalError. */
  lemma RegisterInsertFault(rows: seq<User>, dto: RegisterInput, code: Option<string>, d: RowDefaults)
    requires !EmailTaken(rows, dto.email)
    ensures var o := RegisterStep(rows, dto, InsertFails(code), d);
      && o.rows == rows
      && (code == Some("P2002") ==> o.result == Err(Conflict, EmailRegistered))
      && (code != Some("P2002") ==> o.result == Err(InternalError, CreateFailed))
  {
  }

  /** A successful registration adds exactly one user, with the hash of the
      password, and answers with a token over (id, email, role) and the user
      without its secrets. The table's keys stay unique. */
  lemma RegisterAddsOneUser(rows: seq<User>, dto: RegisterInput, fault: DbFault, d: RowDefaults)
    requires UniqueKeys(rows)
    requires RegisterStep(rows, dto, fault, d).result.Ok?
    ensures var o := RegisterStep(rows, dto, fault, d);
      var u := o.rows[|rows|];
      && |o.rows| == |rows| + 1 && o.rows[..|rows|] == rows
      && u.email == dto.email && Compare(dto.password, u.password)
      && u.passwordResetToken.None? && u.passwordResetExpiry.None?
      && o.result.value.accessToken.payload == JwtPayload(u.id, u.email, RoleName(u.role))
      && o.result.value.user == StripPassword(u)
      && UniqueKeys(o.rows)
  {
    var u := RegisteredRow(dto, d);
    assert (rows + [u])[..|rows|] == rows;
    InsertKeepsUnique(rows, u);
  }

  // ---------------------------------------------------------- login / profile

  datatype LoginInput = LoginInput(email: string, password: string)

  function Login(rows: seq<User>, dto: LoginInput): (r: Result<AuthResponse>)
    ensures r.Err? ==> r.kind == Unauthorized
    ensures r.Ok? ==> exists u | u in rows :: r.value == Session(u) && u.email == dto.email
  {
    match FindByEmail(rows, dto.email)
    case None => Err(Unauthorized, InvalidCredentials)
    case Some(u) =>
      if !Compare(dto.password, u.password) then Err(Unauthorized, InvalidCredentials)
      else if !u.isActive then Err(Unauthorized, Deactivated)
      else Ok(Session(u))
  }

  /** An unknown email and a wrong password for a known one produce the very
      same error, so the answer does not reveal which emails exist. */
  lemma LoginErrorsIndistinguishable(rows: seq<User>, unknown: LoginInput, wrong: LoginInput)
    requires !EmailTaken(rows, unknown.email)
    requires EmailTaken(rows, wrong.email)
    requires !Compare(wrong.password, FindByEmail(rows, wrong.email).value.password)
    ensures Login(rows, unknown) == Login(rows, wrong) == Err(Unauthorized, InvalidCredentials)
  {
  }

  /** With unique emails, login outcomes by the stored user: "Account is
      deactivated" (a different message) appears only after the password
      matched, and success needs the right password and an active account. */
  lemma LoginOutcomes(rows: seq<User>, i: nat, password: string)
    requires UniqueKeys(rows) && i < |rows|
    ensures var r := Login(rows, LoginInput(rows[i].email, password));
      && (r == Err(Unauthorized, Deactivated) <==> Compare(password, rows[i].password) && !rows[i].isActive)
      && (r == Err(Unauthorized, InvalidCredentials) <==> !Compare(password, rows[i].password))
      && (r.Ok? <==> Compare(password, rows[i].password) && rows[i].isActive)
      && (r.Ok? ==> r.value == Session(rows[i]))
  {
    IndexOfMember(rows, i);
    assert Deactivated != InvalidCredentials;
  }

  /** `getProfile`: the user without its secrets, or 401 "User not found". */
  function GetProfile(rows: seq<User>, userId: string): (r: Result<PublicUser>)
    ensures r.Err? <==> !IdTaken(rows, userId)
    ensures r.Err? ==> r == Err(Unauthorized, ProfileMissing)
    ensures r.Ok? ==> exists u | u in rows :: u.id == userId && r.value == StripPassword(u)
  {
    match IdIndex(rows, userId)
    case None => Err(Unauthorized, ProfileMissing)
    case Some(i) => Ok(StripPassword(rows[i]))
  }

  /** Registering and then logging in with the same credentials opens a
      session for the new user, unless the schema creates it inactive. */
  lemma RegisterThenLogin(rows: seq<User>, dto: RegisterInput, fault: DbFault, d: RowDefaults)
    requires UniqueKeys(rows)
    requires RegisterStep(rows, dto, fault, d).result.Ok?
    ensures var o := RegisterStep(rows, dto, fault, d);
      Login(o.rows, LoginInput(dto.email, dto.password))
        == if d.isActive then o.result else Err(Unauthorized, Deactivated)
  {
    RegisterAddsOneUser(rows, dto, fault, d);
    var o := RegisterStep(rows, dto, fault, d);
    LoginOutcomes(o.rows, |rows|, dto.password);
  }

  // ---------------------------------------------------------- password reset

  /** Every minted reset token is held by at most one user. */
  ghost predicate ResetTokensUnique(rows: seq<User>) {
    forall i, j | 0 <= i < j < |rows| && rows[i].passwordResetToken.Some? ::
      rows[i].passwordResetToken != rows[j].passwordResetToken
  }

  predicate HoldsToken(rows: seq<User>, token: string) {
    exists i | 0 <= i < |rows| :: rows[i].passwordResetToken == Some(token)
  }

  /** The reset row `forgotPassword` writes for a token minted at `now`. */
  function WithResetToken(u: User, token: string, now: int): User {
    u.(passwordResetToken := Some(token), passwordResetExpiry := Some(now + ResetWindowMs))
  }

  function ForgotStep(rows: seq<User>, email: string, bytes: seq<Byte>, now: int, mailSent: bool): (o: Outcome<ForgotResponse, User>)
    ensures o.result.Ok?
    ensures |o.rows| == |rows|
    ensures !EmailTaken(rows, email) <==> o.result.value.message == UnknownEmailReply
    ensures !EmailTaken(rows, email) ==> o.rows == rows
    ensures o.result.value.resetToken.Some? <==> EmailTaken(rows, email) && !mailSent
    ensures o.result.value.resetToken.Some? ==>
      o.result.value.resetLink == Some(ResetLinkPrefix + o.result.value.resetToken.value)
  {
    match EmailIndex(rows, email)
    case None => Outcome(Ok(ForgotResponse(UnknownEmailReply, None, None)), rows)
    case Some(i) =>
      var token := ToHex(bytes);
      var reply :=
        if mailSent then ForgotResponse(MailSentReply, None, None)
        else ForgotResponse(MailFailedReply, Some(token), Some(ResetLinkPrefix + token));
      Outcome(Ok(reply), rows[i := WithResetToken(rows[i], token, now)])
  }

  /** For a known email, `forgotPassword` overwrites that user's token with
      the hex of the random bytes, expiring 15 minutes from now, and touches
      no other row or column. */
  lemma ForgotWritesOnlyThatUser(rows: seq<User>, i: nat, bytes: seq<Byte>, now: int, mailSent: bool)
    requires UniqueKeys(rows) && i < |rows|
    ensures var o := ForgotStep(rows, rows[i].email, bytes, now, mailSent);
      && o.rows == rows[i := WithResetToken(rows[i], ToHex(bytes), now)]
      && |ToHex(bytes)| == 2 * |bytes|
      && UniqueKeys(o.rows)
  {
    IndexOfMember(rows, i);
    var r := rows[i := WithResetToken(rows[i], ToHex(bytes), now)];
    forall a, b | 0 <= a < b < |r| ensures r[a].id != r[b].id && r[a].email != r[b].email {
      assert r[a].id == rows[a].id && r[a].email == rows[a].email;
      assert r[b].id == rows[b].id && r[b].email == rows[b].email;
    }
  }

  /** The three replies differ, so the unknown-email reply is a message of
      its own. */
  lemma ForgotRepliesDistinct()
    ensures UnknownEmailReply != MailSentReply && UnknownEmailReply != MailFailedReply
    ensures MailSentReply != MailFailedReply
  {
    assert UnknownEmailReply == "If that email is registered, a reset link has been sent.";
    assert MailSentReply == "A password reset link has been sent to your email.";
    assert MailFailedReply == "Email delivery unavailable. Use the link below to reset your password.";
  }

  /** A freshly minted token keeps reset tokens unique. */
  lemma ForgotKeepsTokensUnique(rows: seq<User>, email: string, bytes: seq<Byte>, now: int, mailSent: bool)
    requires ResetTokensUnique(rows)
    requires !HoldsToken(rows, ToHex(bytes))
    ensures ResetTokensUnique(ForgotStep(rows, email, bytes, now, mailSent).rows)
  {
    var o := ForgotStep(rows, email, bytes, now, mailSent);
    if EmailTaken(rows, email) {
      var i := EmailIndex(rows, email).value;
      var r := o.rows;
      forall a, b | 0 <= a < b < |r| && r[a].passwordResetToken.Some?
        ensures r[a].passwordResetToken != r[b].passwordResetToken
      {
        if a != i && b != i {
          assert r[a] == rows[a] && r[b] == rows[b];
        }
      }
    }
  }

  /** The `findFirst` filter of `resetPassword`: that token, not yet expired
      (`gte`, so the last millisecond still counts). */
  function ResetHolder(token: string, now: int): User -> bool {
    (u: User) => u.passwordResetToken == Some(token)
                 && u.passwordResetExpiry.Some? && u.passwordResetExpiry.value >= now
  }

  /** The row `resetPassword` writes: the new hash, both reset columns null. */
  function AfterReset(u: User, newPassword: string): User {
    u.(password := Hash(newPassword), passwordResetToken := None, passwordResetExpiry := None)
  }

  function ResetStep(rows: seq<User>, token: string, newPassword: string, now: int): (o: Outcome<string, User>)
    ensures |o.rows| == |rows|
    ensures o.result.Err? ==> o == Outcome(Err(BadRequest, InvalidResetToken), rows)
    ensures o.result.Ok? <==> exists i | 0 <= i < |rows| :: ResetHolder(token, now)(rows[i])
    ensures o.result.Ok? ==> o.result.value == ResetDone
  {
    match FirstIndex(rows, ResetHolder(token, now))
    case None => Outcome(Err(BadRequest, InvalidResetToken), rows)
    case Some(i) =>
      Outcome(Ok(ResetDone), rows[i := AfterReset(rows[i], newPassword)])
  }

  /** A token minted by `forgotPassword` at time `now` resets the password at
      time t exactly when t ≤ now + 15 minutes. */
  lemma ResetWindow(rows: seq<User>, i: nat, bytes: seq<Byte>, now: int, mailSent: bool, newPassword: string, t: int)
    requires UniqueKeys(rows) && i < |rows|
    requires !HoldsToken(rows, ToHex(bytes))
    ensures var o := ForgotStep(rows, rows[i].email, bytes, now, mailSent);
      ResetStep(o.rows, ToHex(bytes), newPassword, t).result.Ok? <==> t <= now + ResetWindowMs
  {
    ForgotWritesOnlyThatUser(rows, i, bytes, now, mailSent);
    var r := rows[i := WithResetToken(rows[i], ToHex(bytes), now)];
    var p := ResetHolder(ToHex(bytes), t);
    assert p(r[i]) <==> t <= now + ResetWindowMs;
    forall j | 0 <= j < |r| && j != i ensures !p(r[j]) {
      assert r[j] == rows[j];
    }
  }

  /** A successful reset stores the hash of the new password in the holder's
      row and clears its token; no other row changes. */
  lemma ResetWritesHolder(rows: seq<User>, token: string, newPassword: string, now: int)
    requires ResetStep(rows, token, newPassword, now).result.Ok?
    ensures var i := FirstIndex(rows, ResetHolder(token, now)).value;
      var o := ResetStep(rows, token, newPassword, now);
      && o.rows == rows[i := AfterReset(rows[i], newPassword)]
      && Compare(newPassword, o.rows[i].password)
      && o.rows[i].passwordResetToken.None? && o.rows[i].passwordResetExpiry.None?
      && StripPassword(o.rows[i]) == StripPassword(rows[i])
  {
  }

  /** While reset tokens are unique, a token works at most once: after a
      successful reset the same token is rejected at any later time. */
  lemma ResetSingleUse(rows: seq<User>, token: string, p1: string, now: int, p2: string, later: int)
    requires ResetTokensUnique(rows)
    requires ResetStep(rows, token, p1, now).result.Ok?
    ensures var o := ResetStep(rows, token, p1, now);
      ResetStep(o.rows, token, p2, later) == Outcome(Err(BadRequest, InvalidResetToken), o.rows)
  {
    var i := FirstIndex(rows, ResetHolder(token, now)).value;
    var r := rows[i := AfterReset(rows[i], p1)];
    forall j | 0 <= j < |r| && j != i ensures r[j].passwordResetToken != Some(token) {
      assert r[j] == rows[j];
    }
    assert r[i].passwordResetToken.None?;
    assert !(exists j | 0 <= j < |r| :: ResetHolder(token, later)(r[j]));
  }

  /** A reset keeps reset tokens unique (it only clears one). */
  lemma ResetKeepsTokensUnique(rows: seq<User>, token: string, newPassword: string, now: int)
    requires ResetTokensUnique(rows)
    ensures ResetTokensUnique(ResetStep(rows, token, newPassword, now).rows)
  {
    var o := ResetStep(rows, token, newPassword, now);
    if o.result.Ok? {
      var i := FirstIndex(rows, ResetHolder(token, now)).value;
      var r := o.rows;
      forall a, b | 0 <= a < b < |r| && r[a].passwordResetToken.Some?
        ensures r[a].passwordResetToken != r[b].passwordResetToken
      {
        if a != i && b != i {
          assert r[a] == rows[a] && r[b] == rows[b];
        }
      }
    }
  }

  // ---------------------------------------------------------- the service

  class AuthService {
    const users: UserTable

    constructor (users: UserTable)
      ensures this.users == users
    {
      this.users := users;
    }

    method Register(dto: RegisterInput, fault: DbFault, d: RowDefaults) returns (r: Result<AuthResponse>)
      requires users.Valid()
      modifies users
      ensures users.Valid()
      ensures r == RegisterStep(old(users.rows), dto, fault, d).result
      ensures users.rows == RegisterStep(old(users.rows), dto, fault, d).rows
    {
      if fault == LookupFails {
        return Err(InternalError, DbUnreachable);
      }
      var existing := FindByEmail(users.rows, dto.email);
      if existing.Some? {
        return Err(Conflict, EmailRegistered);
      }
      var hashed := Hash(dto.password);
      var row := User(d.id, dto.email, hashed, dto.firstName, dto.lastName, dto.role,
                      dto.contactNumber, d.qrToken, d.isActive, None, None, d.createdAt);
      if fault.InsertFails? {
        return InsertError(fault.code);
      }
      var created := users.Insert(row);
      if created.Err? {
        return Err(Conflict, EmailRegistered);
      }
      r := Ok(Session(created.value));
    }

    method ForgotPassword(email: string, bytes: seq<Byte>, now: int, mailSent: bool) returns (r: ForgotResponse)
      requires users.Valid()
      modifies users
      ensures users.Valid()
      ensures Ok(r) == ForgotStep(old(users.rows), email, bytes, now, mailSent).result
      ensures users.rows == ForgotStep(old(users.rows), email, bytes, now, mailSent).rows
    {
      var i := EmailIndex(users.rows, email);
      if i.None? {
        return ForgotResponse(UnknownEmailReply, None, None);
      }
      var token := ToHex(bytes);
      var u := users.rows[i.value];
      users.Overwrite(i.value, WithResetToken(u, token, now));
      if mailSent {
        r := ForgotResponse(MailSentReply, None, None);
      } else {
        r := ForgotResponse(MailFailedReply, Some(token), Some(ResetLinkPrefix + token));
      }
    }

    method ResetPassword(token: string, newPassword: string, now: int) returns (r: Result<string>)
      requires users.Valid()
      modifies users
      ensures users.Valid()
      ensures r == ResetStep(old(users.rows), token, newPassword, now).result
      ensures users.rows == ResetStep(old(users.rows), token, newPassword, now).rows
    {
      var i := FirstIndex(users.rows, ResetHolder(token, now));
      if i.None? {
        return Err(BadRequest, InvalidResetToken);
      }
      var u := users.rows[i.value];
      users.Overwrite(i.value, AfterReset(u, newPassword));
      r := Ok(ResetDone);
    }
  }
}

=== FILE: controllers.dfy ===
/** The controllers of the five feature modules and analytics: for each
    request, the guards of `AccessPolicy` run first, then the ValidationPipe
    checks the body, then the handler forwards the caller's id and the
    validated input to one service method. What that method does is modelled
    in the service modules; several of the methods called here do not exist
    in the services and are named only. */
module Controllers {
  import opened Domain
  import opened JsStrings
  import opened AccessPolicy
  import opened Dtos
  import Users
  import VisitorPasses
  import Incidents
  import EntryLogs

  /** A request: its route, path parameters, query and JSON body. */
  datatype Request =
    | ScanReq(body: Body)
    | LookupReq(qrToken: string)
    | RecentReq
    | MyEntriesReq
    | ListEntriesReq(take: Option<string>)
    | ActiveSosReq
    | ListSosReq
    | RaiseSosReq(body: Body)
    | CloseSosReq(id: string)
    | CreateUserReq(body: Body)
    | ListUsersReq
    | GetUserReq(id: string)
    | UpdateUserReq(id: string, body: Body)
    | ToggleActiveReq(id: string)
    | RemoveUserReq(id: string)
    | ReportIncidentReq(body: Body)
    | MyIncidentsReq
    | ListIncidentsReq
    | ResolveIncidentReq(id: string, body: Body)
    | ApplyReq(body: Body)
    | ListPassesReq
    | GetPassReq(id: string)
    | ApproveReq(id: string)
    | RejectReq(id: string)
    | OverviewReq

  function RouteOf(req: Request): Route {
    match req
    case ScanReq(_) => ScanEntry
    case LookupReq(_) => LookupByQr
    case RecentReq => RecentEntries
    case MyEntriesReq => MyEntries
    case ListEntriesReq(_) => ListEntries
    case ActiveSosReq => ActiveSos
    case ListSosReq => ListSos
    case RaiseSosReq(_) => RaiseSos
    case CloseSosReq(_) => CloseSos
    case CreateUserReq(_) => CreateUser
    case ListUsersReq => ListUsers
    case GetUserReq(_) => GetUser
    case UpdateUserReq(_, _) => UpdateUser
    case ToggleActiveReq(_) => ToggleActive
    case RemoveUserReq(_) => RemoveUser
    case ReportIncidentReq(_) => ReportIncident
    case MyIncidentsReq => MyIncidents
    case ListIncidentsReq => ListIncidents
    case ResolveIncidentReq(_, _) => ResolveIncident
    case ApplyReq(_) => ApplyForPass
    case ListPassesReq => ListPasses
    case GetPassReq(_) => GetPass
    case ApproveReq(_) => ApprovePass
    case RejectReq(_) => RejectPass
    case OverviewReq => Overview
  }

  /** The number `parseInt` yields, or NaN. */
  datatype TakeArg = Count(n: int) | NotANumber

  /** `take ? parseInt(take, 10) : 50`: an absent or empty query gives 50;
      anything else is parsed with no range check. */
  function TakeArgument(take: Option<string>): (t: TakeArg)
    ensures take.None? || take == Some("") ==> t == Count(50)
    ensures take.Some? && take.value != "" ==>
      (t == NotANumber <==> ParseInt10(take.value).None?)
      && (t.Count? ==> Some(t.n) == ParseInt10(take.value))
  {
    if take.None? || take.value == "" then Count(50)
    else match ParseInt10(take.value)
      case None => NotANumber
      case Some(n) => Count(n)
  }

  /** Every count below 2^53 that a client writes is passed on as written,
      0 included. */
  lemma TakeReadsBackCounts(n: nat)
    requires n < SafeIntegerBound
    ensures TakeArgument(Some(NatToString(n))) == Count(n)
  {
    ParseIntOfNatToString(n);
  }

  /** The service method a handler calls, with its arguments. */
  datatype ServiceCall =
    | CreateFromScan(guardId: string, scan: ScanInput)
    | FindUserByQrToken(qrToken: string)
    | FindRecent
    | FindEntriesByUser(userId: string)
    | FindAllEntries(take: TakeArg)
    | GetActiveSos
    | FindAllSos
    // the inline body type `{ type, message }` is not validated: both are passed as sent
    | CreateSos(triggeredById: string, kind: Option<Json>, message: Option<Json>)
    | CloseSosById(id: string)
    | CreateUserRow(user: Users.CreateUserInput)
    | FindAllUsers
    | FindUser(id: string)
    | UpdateUserRow(id: string, patch: Users.UserPatch)
    | ToggleUserActive(id: string)
    | RemoveUserRow(id: string)
    | CreateIncident(reporterId: string, report: Incidents.IncidentReport)
    | FindIncidentsByUser(userId: string)
    | FindAllIncidents
    // the inline body type `{ actionTaken }` is not validated
    | ResolveIncidentById(id: string, actionTaken: Option<Json>)
    | CreatePass(application: VisitorPasses.PassApplication)
    | FindAllPasses
    | FindPass(id: string)
    | UpdatePassStatus(id: string, decision: VisitorPasses.Decision, approverId: Option<string>)
    | GetOverview

  datatype Response = Forward(call: ServiceCall) | Rejected(kind: ErrorKind)

  /** One request through guards, pipe and handler. */
  function Dispatch(req: Request, caller: Caller, isEmail: string -> bool, isIsoDate: string -> bool): (r: Response)
    ensures Access(RouteOf(req), caller).Refused? ==> r == Rejected(Access(RouteOf(req), caller).kind)
    ensures Access(RouteOf(req), caller).Admitted? ==> r.Forward? || r == Rejected(BadRequest)
  {
    var a := Access(RouteOf(req), caller);
    if a.Refused? then Rejected(a.kind)
    else match req
      case ScanReq(body) =>
        (match ValidateScan(body)
         case None => Rejected(BadRequest)
         case Some(dto) => Forward(CreateFromScan(caller.id, dto)))
      case LookupReq(token) => Forward(FindUserByQrToken(token))
      case RecentReq => Forward(FindRecent)
      case MyEntriesReq => Forward(FindEntriesByUser(caller.id))
      case ListEntriesReq(take) => Forward(FindAllEntries(TakeArgument(take)))
      case ActiveSosReq => Forward(GetActiveSos)
      case ListSosReq => Forward(FindAllSos)
      case RaiseSosReq(body) => Forward(CreateSos(caller.id, Field(body, "type"), Field(body, "message")))
      case CloseSosReq(id) => Forward(CloseSosById(id))
      case CreateUserReq(body) =>
        (match ValidateCreateUser(body, isEmail)
         case None => Rejected(BadRequest)
         case Some(dto) => Forward(CreateUserRow(dto)))
      case ListUsersReq => Forward(FindAllUsers)
      case GetUserReq(id) => Forward(FindUser(id))
      case UpdateUserReq(id, body) =>
        (match ValidateUpdateUser(body, isEmail)
         case None => Rejected(BadRequest)
         case Some(patch) => Forward(UpdateUserRow(id, patch)))
      case ToggleActiveReq(id) => Forward(ToggleUserActive(id))
      case RemoveUserReq(id) => Forward(RemoveUserRow(id))
      case ReportIncidentReq(body) =>
        (match ValidateIncident(body)
         case None => Rejected(BadRequest)
         case Some(dto) => Forward(CreateIncident(caller.id, dto)))
      case MyIncidentsReq => Forward(FindIncidentsByUser(caller.id))
      case ListIncidentsReq => Forward(FindAllIncidents)
      case ResolveIncidentReq(id, body) => Forward(ResolveIncidentById(id, Field(body, "actionTaken")))
      case ApplyReq(body) =>
        (match ValidatePassApplication(body, isIsoDate)
         case None => Rejected(BadRequest)
         case Some(dto) => Forward(CreatePass(dto)))
      case ListPassesReq => Forward(FindAllPasses)
      case GetPassReq(id) => Forward(FindPass(id))
      case ApproveReq(id) => Forward(UpdatePassStatus(id, VisitorPasses.Approve, Some(caller.id)))
      case RejectReq(id) => Forward(UpdatePassStatus(id, VisitorPasses.Reject, None))
      case OverviewReq => Forward(GetOverview)
  }

  /** The guards run before the pipe: a refused caller gets 401 or 403
      whatever the body holds, never 400. */
  lemma GuardsBeforeValidation(req: Request, caller: Caller, isEmail: string -> bool, isIsoDate: string -> bool)
    requires Access(RouteOf(req), caller).Refused?
    ensures Dispatch(req, caller, isEmail, isIsoDate) == Rejected(Unauthorized)
         || Dispatch(req, caller, isEmail, isIsoDate) == Rejected(Forbidden)
  {
  }

  /** A scan is recorded only for a GUARD caller, with the caller's id as the
      guard id and the validated body. */
  lemma ScanRecordsCallerAsGuard(body: Body, caller: Caller, isEmail: string -> bool, isIsoDate: string -> bool,
                                 guardId: string, dto: ScanInput)
    ensures Dispatch(ScanReq(body), caller, isEmail, isIsoDate) == Forward(CreateFromScan(guardId, dto)) <==>
      caller == Authenticated(guardId, GUARD) && ValidateScan(body) == Some(dto)
  {
  }

  /** `GET /entry-logs/me` lists the caller's own logs, whatever the role. */
  lemma MyEntriesAreCallers(caller: Caller, isEmail: string -> bool, isIsoDate: string -> bool)
    ensures caller.Authenticated? ==>
      Dispatch(MyEntriesReq, caller, isEmail, isIsoDate) == Forward(FindEntriesByUser(caller.id))
    ensures caller.Anonymous? ==> Dispatch(MyEntriesReq, caller, isEmail, isIsoDate) == Rejected(Unauthorized)
  {
  }

  /** With no `take` the full list holds the 50 newest logs: 50 distinct
      stored logs, or all when fewer, and none left out is newer. */
  lemma ListEntriesDefault(caller: Caller, isEmail: string -> bool, isIsoDate: string -> bool,
                           logs: seq<EntryLogs.EntryLog>)
    requires caller.Authenticated? && (caller.role == ADMIN || caller.role == GUARD)
    ensures Dispatch(ListEntriesReq(None), caller, isEmail, isIsoDate) == Forward(FindAllEntries(Count(50)))
    ensures |EntryLogs.FindAll(logs, 50)| == if |logs| < 50 then |logs| else 50
    ensures multiset(EntryLogs.FindAll(logs, 50)) <= multiset(logs)
    ensures forall l | l in logs && l !in EntryLogs.FindAll(logs, 50) ::
      forall i | 0 <= i < |EntryLogs.FindAll(logs, 50)| :: EntryLogs.FindAll(logs, 50)[i].timestamp >= l.timestamp
  {
    ListEntriesForwardsDefault(caller, isEmail, isIsoDate);
    EntryLogs.FindAllDefault(logs);
  }

  lemma ListEntriesForwardsDefault(caller: Caller, isEmail: string -> bool, isIsoDate: string -> bool)
    requires caller.Authenticated? && (caller.role == ADMIN || caller.role == GUARD)
    ensures Dispatch(ListEntriesReq(None), caller, isEmail, isIsoDate) == Forward(FindAllEntries(Count(50)))
  {
  }

  /** An SOS is raised in the caller's name with `type` and `message`
      forwarded unchecked: an unknown type or a missing message is not a 400. */
  lemma RaiseSosUnchecked(body: Body, id: string, role: Role, isEmail: string -> bool, isIsoDate: string -> bool)
    requires role == ADMIN || role == GUARD
    ensures Dispatch(RaiseSosReq(body), Authenticated(id, role), isEmail, isIsoDate)
         == Forward(CreateSos(id, Field(body, "type"), Field(body, "message")))
  {
  }

  /** An incident is filed in the caller's name, anonymous or not. */
  lemma ReportRecordsCaller(body: Body, id: string, role: Role, isEmail: string -> bool, isIsoDate: string -> bool,
                            report: Incidents.IncidentReport)
    requires ValidateIncident(body) == Some(report)
    ensures Dispatch(ReportIncidentReq(body), Authenticated(id, role), isEmail, isIsoDate)
         == Forward(CreateIncident(id, report))
    ensures Dispatch(ReportIncidentReq(body), Anonymous, isEmail, isIsoDate) == Rejected(Unauthorized)
  {
  }

  /** Resolving reads `actionTaken` from the body unvalidated, for any role. */
  lemma ResolveUnchecked(id: string, body: Body, caller: string, role: Role,
                         isEmail: string -> bool, isIsoDate: string -> bool)
    ensures Dispatch(ResolveIncidentReq(id, body), Authenticated(caller, role), isEmail, isIsoDate)
         == Forward(ResolveIncidentById(id, Field(body, "actionTaken")))
  {
  }

  /** Approval records the caller as approver; rejection passes no approver.
      Both are open to every role. */
  lemma DecisionsPlumbing(pass: string, caller: string, role: Role, isEmail: string -> bool, isIsoDate: string -> bool)
    ensures Dispatch(ApproveReq(pass), Authenticated(caller, role), isEmail, isIsoDate)
         == Forward(UpdatePassStatus(pass, VisitorPasses.Approve, Some(caller)))
    ensures Dispatch(RejectReq(pass), Authenticated(caller, role), isEmail, isIsoDate)
         == Forward(UpdatePassStatus(pass, VisitorPasses.Reject, None))
  {
  }

  /** Anyone, with or without a token, can apply for a pass: the pipe alone
      decides, and a valid application is forwarded as validated. */
  lemma ApplyIsPublic(body: Body, caller: Caller, isEmail: string -> bool, isIsoDate: string -> bool)
    ensures Dispatch(ApplyReq(body), caller, isEmail, isIsoDate) ==
      match ValidatePassApplication(body, isIsoDate)
      case None => Rejected(BadRequest)
      case Some(dto) => Forward(CreatePass(dto))
  {
    assert Access(ApplyForPass, caller) == Admitted;
  }

  /** Any authenticated caller can fetch any user's row by id, and the row
      is returned as stored: password hash and reset token included. */
  lemma GetUserReturnsRawRow(rows: seq<Users.User>, id: string, caller: string, role: Role,
                             isEmail: string -> bool, isIsoDate: string -> bool)
    requires Users.IdTaken(rows, id)
    ensures Dispatch(GetUserReq(id), Authenticated(caller, role), isEmail, isIsoDate) == Forward(FindUser(id))
    ensures exists i | 0 <= i < |rows| :: Users.FindOne(rows, id) == Ok(rows[i])
  {
    var u := Users.FindOne(rows, id);
    var i :| 0 <= i < |rows| && rows[i] == u.value;
  }

  /** An ADMIN creating a user is not limited in the role given: a new ADMIN
      passes the pipe. */
  lemma AdminCreatesAdmins(dto: Users.CreateUserInput, id: string, isEmail: string -> bool, isIsoDate: string -> bool)
    requires isEmail(dto.email) && ValidatorLength(dto.password) >= 8
    ensures Dispatch(CreateUserReq(CreateUserBody(dto.(role := ADMIN))), Authenticated(id, ADMIN), isEmail, isIsoDate)
         == Forward(CreateUserRow(dto.(role := ADMIN)))
  {
    CreateUserRoundTrip(dto.(role := ADMIN), isEmail);
  }

  /** An ADMIN may move a user to another user's email: the body passes the
      pipe and reaches `update`, whose write fails with an unhandled 500 and
      leaves the table as it was. */
  lemma UpdateToTakenEmailFails(rows: seq<Users.User>, i: nat, j: nat, admin: string, password: string,
                                isEmail: string -> bool, isIsoDate: string -> bool)
    requires Users.UniqueKeys(rows) && i < |rows| && j < |rows| && i != j
    requires isEmail(rows[j].email) && ValidatorLength(password) >= 8
    ensures var body := map["email" := JString(rows[j].email), "password" := JString(password)];
      var patch := Users.UserPatch(Users.Put(rows[j].email), Users.Put(password),
                                   Users.Keep, Users.Keep, Users.Keep, Users.Keep, Users.Keep);
      && Dispatch(UpdateUserReq(rows[i].id, body), Authenticated(admin, ADMIN), isEmail, isIsoDate)
         == Forward(UpdateUserRow(rows[i].id, patch))
      && Users.UpdateStep(rows, rows[i].id, patch) == Outcome(Err(InternalError, Users.UnhandledError), rows)
  {
    var body := map["email" := JString(rows[j].email), "password" := JString(password)];
    var patch := Users.UserPatch(Users.Put(rows[j].email), Users.Put(password),
                                 Users.Keep, Users.Keep, Users.Keep, Users.Keep, Users.Keep);
    UpdateCarriesEmailAndPassword(rows[j].email, password, isEmail);
    AdminUpdateForwards(rows[i].id, body, patch, admin, isEmail, isIsoDate);
    assert Users.IdTaken(rows, rows[i].id);
    assert rows[j].id != rows[i].id;
    assert Users.EmailHeldByOther(rows, rows[i].id, rows[j].email);
  }

  /** An ADMIN's update body that passes the pipe is forwarded as its patch. */
  lemma AdminUpdateForwards(id: string, body: Body, patch: Users.UserPatch, admin: string,
                            isEmail: string -> bool, isIsoDate: string -> bool)
    requires ValidateUpdateUser(body, isEmail) == Some(patch)
    ensures Dispatch(UpdateUserReq(id, body), Authenticated(admin, ADMIN), isEmail, isIsoDate)
         == Forward(UpdateUserRow(id, patch))
  {
  }
}

=== FILE: domain.dfy ===
/** Shared vocabulary of the GateFlow back end and front end: the enums of the
    data model, an Option type, and the result type that stands in for the
    framework's HTTP exceptions (ConflictException, UnauthorizedException, ...). */
module Domain {

  datatype Option<+T> = None | Some(value: T)

  /** The HTTP exception classes the services and guards throw. */
  datatype ErrorKind =
    | Conflict        // 409
    | Unauthorized    // 401
    | Forbidden       // 403 (RolesGuard)
    | NotFound        // 404
    | BadRequest      // 400 (validation, bad reset token)
    | InternalError   // 500

  datatype Result<+T> = Ok(value: T) | Err(kind: ErrorKind, message: string)

  /** What a write to a table yields: the response or exception, and the rows
      the table holds afterwards. */
  datatype Outcome<+T, +R> = Outcome(result: Result<T>, rows: seq<R>)

  /** An octet. */
  type Byte = b: int | 0 <= b < 256

  datatype Role = ADMIN | GUARD | STUDENT | FACULTY | STAFF

  datatype Severity = LOW | MEDIUM | HIGH | CRITICAL

  datatype IncidentStatus = PENDING | RESOLVED

  datatype PassStatus = PENDING | APPROVED | REJECTED | EXPIRED

  datatype EntryType = ENTRY | EXIT

  datatype EmergencyType = EARTHQUAKE | FIRE | SECURITY_THREAT | WEATHER_WARNING | CUSTOM

  /** The string value of each enum member, as it travels in JSON. */
  function RoleName(r: Role): string {
    match r
    case ADMIN => "ADMIN"
    case GUARD => "GUARD"
    case STUDENT => "STUDENT"
    case FACULTY => "FACULTY"
    case STAFF => "STAFF"
  }

  /** class-validator's IsEnum(Role): the value is one of the enum's string values. */
  function RoleFromName(s: string): (r: Option<Role>)
    ensures r.Some? ==> RoleName(r.value) == s
    ensures forall x: Role :: RoleName(x) == s ==> r == Some(x)
  {
    if s == "ADMIN" then Some(ADMIN)
    else if s == "GUARD" then Some(GUARD)
    else if s == "STUDENT" then Some(STUDENT)
    else if s == "FACULTY" then Some(FACULTY)
    else if s == "STAFF" then Some(STAFF)
    else None
  }

  function SeverityName(s: Severity): string {
    match s
    case LOW => "LOW"
    case MEDIUM => "MEDIUM"
    case HIGH => "HIGH"
    case CRITICAL => "CRITICAL"
  }

  function SeverityFromName(s: string): (r: Option<Severity>)
    ensures r.Some? ==> SeverityName(r.value) == s
    ensures forall x: Severity :: SeverityName(x) == s ==> r == Some(x)
  {
    if s == "LOW" then Some(LOW)
    else if s == "MEDIUM" then Some(MEDIUM)
    else if s == "HIGH" then Some(HIGH)
    else if s == "CRITICAL" then Some(CRITICAL)
    else None
  }

  function EntryTypeName(t: EntryType): string {
    match t
    case ENTRY => "ENTRY"
    case EXIT => "EXIT"
  }

  function EntryTypeFromName(s: string): (r: Option<EntryType>)
    ensures r.Some? ==> EntryTypeName(r.value) == s
    ensures forall x: EntryType :: EntryTypeName(x) == s ==> r == Some(x)
  {
    if s == "ENTRY" then Some(ENTRY)
    else if s == "EXIT" then Some(EXIT)
    else None
  }
}

=== FILE: dtos.dfy ===
/** The class-validator constraints of the request bodies, as the global
    ValidationPipe applies them. A body is the JSON object after the pipe's
    implicit conversion; a field the body does not carry is absent from the
    map. `IsEmail` and `IsDateString` delegate to validator.js, which is not
    part of this model: they are the parameters `isEmail` and `isIsoDate`. */
module Dtos {
  import opened Domain
  import opened JsStrings
  import Users
  import Auth
  import VisitorPasses
  import Incidents

  datatype Json = JString(str: string) | JBool(b: bool) | JNumber(n: int) | JNull | JOther

  type Body = map<string, Json>

  function Field(body: Body, name: string): Option<Json> {
    if name in body then Some(body[name]) else None
  }

  /** `@IsOptional()`: null and undefined skip the other checks. */
  predicate Omitted(v: Option<Json>) {
    v == None || v == Some(JNull)
  }

  /** `@IsString()`. */
  function StringOf(v: Option<Json>): (r: Option<string>)
    ensures r.Some? <==> v.Some? && v.value.JString?
    ensures r.Some? ==> v == Some(JString(r.value))
  {
    if v.Some? && v.value.JString? then Some(v.value.str) else None
  }

  /** `@IsBoolean()`. */
  function BoolOf(v: Option<Json>): (r: Option<bool>)
    ensures r.Some? <==> v.Some? && v.value.JBool?
    ensures r.Some? ==> v == Some(JBool(r.value))
  {
    if v.Some? && v.value.JBool? then Some(v.value.b) else None
  }

  /** `@IsNotEmpty() @IsString()`: a string other than "" (whitespace passes). */
  function NonEmptyStringOf(v: Option<Json>): (r: Option<string>)
    ensures r.Some? <==> v.Some? && v.value.JString? && v.value.str != ""
    ensures r.Some? ==> v == Some(JString(r.value))
  {
    if v.Some? && v.value.JString? && v.value.str != "" then Some(v.value.str) else None
  }

  /** `@IsOptional() @IsString()`: Some(None) when omitted, None when invalid. */
  function OptionalStringOf(v: Option<Json>): (r: Option<Option<string>>)
    ensures r == Some(None) <==> Omitted(v)
    ensures r.Some? && r.value.Some? ==> v == Some(JString(r.value.value))
    ensures r.None? <==> !Omitted(v) && StringOf(v).None?
  {
    if Omitted(v) then Some(None)
    else if StringOf(v).Some? then Some(StringOf(v))
    else None
  }

  /** `@IsOptional() @IsBoolean()`. */
  function OptionalBoolOf(v: Option<Json>): (r: Option<Option<bool>>)
    ensures r == Some(None) <==> Omitted(v)
    ensures r.Some? && r.value.Some? ==> v == Some(JBool(r.value.value))
    ensures r.None? <==> !Omitted(v) && BoolOf(v).None?
  {
    if Omitted(v) then Some(None)
    else if BoolOf(v).Some? then Some(BoolOf(v))
    else None
  }

  /** A string that a validator.js check accepts: `@IsEmail()` with the
      check `isEmail`, `@IsDateString()` with `isIsoDate`. */
  function CheckedStringOf(v: Option<Json>, accepts: string -> bool): (r: Option<string>)
    ensures r.Some? <==> StringOf(v).Some? && accepts(StringOf(v).value)
    ensures r.Some? ==> v == Some(JString(r.value))
  {
    var s := StringOf(v);
    if s.Some? && accepts(s.value) then s else None
  }

  /** `@IsString() @MinLength(8)`: a string that validator.js `isLength`
      counts at least 8 characters long. */
  function PasswordOf(v: Option<Json>): (r: Option<string>)
    ensures r.Some? <==> StringOf(v).Some? && ValidatorLength(StringOf(v).value) >= 8
    ensures r.Some? ==> v == Some(JString(r.value))
  {
    var s := StringOf(v);
    if s.Some? && ValidatorLength(s.value) >= 8 then s else None
  }

  /** Four emoji are eight UTF-16 code units, so the pages' `length < 8`
      test lets them through, but `MinLength(8)` counts four and refuses them. */
  lemma EmojiPasswordTooShort()
    ensures JsLength("\U{1F600}\U{1F600}\U{1F600}\U{1F600}") >= 8
    ensures PasswordOf(Some(JString("\U{1F600}\U{1F600}\U{1F600}\U{1F600}"))).None?
  {
    FourEmojiLengths();
  }

  /** `@IsEnum(E)`: one of the enum's string values. */
  function RoleOf(v: Option<Json>): (r: Option<Role>)
    ensures r.Some? ==> v == Some(JString(RoleName(r.value)))
    ensures forall x: Role :: v == Some(JString(RoleName(x))) ==> r == Some(x)
  {
    var s := StringOf(v);
    if s.Some? then RoleFromName(s.value) else None
  }

  function SeverityOf(v: Option<Json>): (r: Option<Severity>)
    ensures r.Some? ==> v == Some(JString(SeverityName(r.value)))
    ensures forall x: Severity :: v == Some(JString(SeverityName(x))) ==> r == Some(x)
  {
    var s := StringOf(v);
    if s.Some? then SeverityFromName(s.value) else None
  }

  function EntryTypeOf(v: Option<Json>): (r: Option<EntryType>)
    ensures r.Some? ==> v == Some(JString(EntryTypeName(r.value)))
    ensures forall x: EntryType :: v == Some(JString(EntryTypeName(x))) ==> r == Some(x)
  {
    var s := StringOf(v);
    if s.Some? then EntryTypeFromName(s.value) else None
  }

  function OptionalToJson(v: Option<string>): Json {
    if v.Some? then JString(v.value) else JNull
  }

  // ---------------------------------------------------------- RegisterDto

  function ValidateRegister(body: Body, isEmail: string -> bool): (r: Option<Auth.RegisterInput>)
    ensures r.Some? ==>
      && Field(body, "email") == Some(JString(r.value.email)) && isEmail(r.value.email)
      && Field(body, "password") == Some(JString(r.value.password)) && ValidatorLength(r.value.password) >= 8
      && Field(body, "firstName") == Some(JString(r.value.firstName))
      && Field(body, "lastName") == Some(JString(r.value.lastName))
      && Field(body, "role") == Some(JString(RoleName(r.value.role)))
      && (if r.value.contactNumber.Some? then Field(body, "contactNumber") == Some(JString(r.value.contactNumber.value))
          else Omitted(Field(body, "contactNumber")))
  {
    var email := CheckedStringOf(Field(body, "email"), isEmail);
    var password := PasswordOf(Field(body, "password"));
    var firstName := StringOf(Field(body, "firstName"));
    var lastName := StringOf(Field(body, "lastName"));
    var role := RoleOf(Field(body, "role"));
    var contact := OptionalStringOf(Field(body, "contactNumber"));
    if email.Some? && password.Some? && firstName.Some? && lastName.Some? && role.Some? && contact.Some? then
      Some(Auth.RegisterInput(email.value, password.value, firstName.value, lastName.value, role.value, contact.value))
    else None
  }

  function RegisterBody(dto: Auth.RegisterInput): Body {
    map["email" := JString(dto.email), "password" := JString(dto.password),
        "firstName" := JString(dto.firstName), "lastName" := JString(dto.lastName),
        "role" := JString(RoleName(dto.role)), "contactNumber" := OptionalToJson(dto.contactNumber)]
  }

  /** Every registration whose email validator.js accepts and whose password
      `isLength` counts at least 8 characters long passes: any role (ADMIN and GUARD included),
      empty names, no contact number. */
  lemma RegisterRoundTrip(dto: Auth.RegisterInput, isEmail: string -> bool)
    requires isEmail(dto.email) && ValidatorLength(dto.password) >= 8
    ensures ValidateRegister(RegisterBody(dto), isEmail) == Some(dto)
  {
    var body := RegisterBody(dto);
    assert Field(body, "email") == Some(JString(dto.email));
    assert Field(body, "password") == Some(JString(dto.password));
    assert Field(body, "firstName") == Some(JString(dto.firstName));
    assert Field(body, "lastName") == Some(JString(dto.lastName));
    assert Field(body, "role") == Some(JString(RoleName(dto.role)));
    assert Field(body, "contactNumber") == Some(OptionalToJson(dto.contactNumber));
  }

  /** A password `isLength` counts shorter than 8, or a missing email, is a
      400. */
  lemma RegisterRejects(body: Body, isEmail: string -> bool)
    ensures "email" !in body ==> ValidateRegister(body, isEmail).None?
    ensures (exists p :: Field(body, "password") == Some(JString(p)) && ValidatorLength(p) < 8) ==>
      ValidateRegister(body, isEmail).None?
  {
  }

  // ---------------------------------------------------------- LoginDto

  function ValidateLogin(body: Body, isEmail: string -> bool): (r: Option<Auth.LoginInput>)
    ensures r.Some? <==>
      CheckedStringOf(Field(body, "email"), isEmail).Some? && PasswordOf(Field(body, "password")).Some?
    ensures r.Some? ==>
      && Field(body, "email") == Some(JString(r.value.email)) && isEmail(r.value.email)
      && Field(body, "password") == Some(JString(r.value.password)) && ValidatorLength(r.value.password) >= 8
  {
    var email := CheckedStringOf(Field(body, "email"), isEmail);
    var password := PasswordOf(Field(body, "password"));
    if email.Some? && password.Some? then Some(Auth.LoginInput(email.value, password.value)) else None
  }

  function LoginBody(dto: Auth.LoginInput): Body {
    map["email" := JString(dto.email), "password" := JString(dto.password)]
  }

  /** The email reaches the lookup exactly as sent: no trimming, no case
      folding. */
  lemma LoginRoundTrip(dto: Auth.LoginInput, isEmail: string -> bool)
    requires isEmail(dto.email) && ValidatorLength(dto.password) >= 8
    ensures ValidateLogin(LoginBody(dto), isEmail) == Some(dto)
  {
    var body := LoginBody(dto);
    assert Field(body, "email") == Some(JString(dto.email));
    assert Field(body, "password") == Some(JString(dto.password));
  }

  /** Only `email` and `password` are read; any other key is ignored. */
  lemma LoginReadsOnlyItsFields(body: Body, isEmail: string -> bool, k: string, v: Json)
    requires k != "email" && k != "password"
    ensures ValidateLogin(body[k := v], isEmail) == ValidateLogin(body, isEmail)
  {
    assert Field(body[k := v], "email") == Field(body, "email");
    assert Field(body[k := v], "password") == Field(body, "password");
  }

  // ---------------------------------------------------------- CreateUserDto

  function ValidateCreateUser(body: Body, isEmail: string -> bool): (r: Option<Users.CreateUserInput>)
    ensures r.Some? ==>
      && Field(body, "email") == Some(JString(r.value.email)) && isEmail(r.value.email)
      && Field(body, "password") == Some(JString(r.value.password)) && ValidatorLength(r.value.password) >= 8
      && Field(body, "firstName") == Some(JString(r.value.firstName))
      && Field(body, "lastName") == Some(JString(r.value.lastName))
      && Field(body, "role") == Some(JString(RoleName(r.value.role)))
      && (if r.value.contactNumber.Some? then Field(body, "contactNumber") == Some(JString(r.value.contactNumber.value))
          else Omitted(Field(body, "contactNumber")))
      && (if r.value.isActive.Some? then Field(body, "isActive") == Some(JBool(r.value.isActive.value))
          else Omitted(Field(body, "isActive")))
  {
    var email := CheckedStringOf(Field(body, "email"), isEmail);
    var password := PasswordOf(Field(body, "password"));
    var firstName := StringOf(Field(body, "firstName"));
    var lastName := StringOf(Field(body, "lastName"));
    var role := RoleOf(Field(body, "role"));
    var contact := OptionalStringOf(Field(body, "contactNumber"));
    var active := OptionalBoolOf(Field(body, "isActive"));
    if email.Some? && password.Some? && firstName.Some? && lastName.Some? && role.Some?
       && contact.Some? && active.Some? then
      Some(Users.CreateUserInput(email.value, password.value, firstName.value, lastName.value,
                                 role.value, contact.value, active.value))
    else None
  }

  function CreateUserBody(dto: Users.CreateUserInput): Body {
    map["email" := JString(dto.email), "password" := JString(dto.password),
        "firstName" := JString(dto.firstName), "lastName" := JString(dto.lastName),
        "role" := JString(RoleName(dto.role)), "contactNumber" := OptionalToJson(dto.contactNumber),
        "isActive" := if dto.isActive.Some? then JBool(dto.isActive.value) else JNull]
  }

  /** Any role, ADMIN included, and an optional `isActive` pass as given. */
  lemma CreateUserRoundTrip(dto: Users.CreateUserInput, isEmail: string -> bool)
    requires isEmail(dto.email) && ValidatorLength(dto.password) >= 8
    ensures ValidateCreateUser(CreateUserBody(dto), isEmail) == Some(dto)
  {
    var body := CreateUserBody(dto);
    assert Field(body, "email") == Some(JString(dto.email));
    assert Field(body, "password") == Some(JString(dto.password));
    assert Field(body, "firstName") == Some(JString(dto.firstName));
    assert Field(body, "lastName") == Some(JString(dto.lastName));
    assert Field(body, "role") == Some(JString(RoleName(dto.role)));
    assert Field(body, "contactNumber") == Some(OptionalToJson(dto.contactNumber));
    assert Field(body, "isActive") == Some(if dto.isActive.Some? then JBool(dto.isActive.value) else JNull);
  }

  // ---------------------------------------------------------- UpdateUserDto

  /** One field of `PartialType(CreateUserDto)`, which adds `@IsOptional()`
      to each of CreateUserDto's checks: absent leaves the column, null skips
      the check and is sent on as NULL, anything else must pass the check. */
  function ChangeOf<T>(v: Option<Json>, checked: Option<T>): (r: Option<Users.Change<T>>)
    ensures r == Some(Users.Keep) <==> v.None?
    ensures r == Some(Users.Clear) <==> v == Some(JNull)
    ensures r.None? <==> !Omitted(v) && checked.None?
    ensures r.Some? && r.value.Put? ==> checked == Some(r.value.value)
  {
    if v.None? then Some(Users.Keep)
    else if v == Some(JNull) then Some(Users.Clear)
    else if checked.Some? then Some(Users.Put(checked.value))
    else None
  }

  /** How a field's change relates to what the body sent: Keep exactly when
      the key is absent, Clear exactly when it is null. */
  predicate KeptOrCleared<T>(v: Option<Json>, c: Users.Change<T>) {
    (c.Keep? <==> v.None?) && (c.Clear? <==> v == Some(JNull))
  }

  /** The update body: UpdateUserDto is not part of this model and is taken to
      be `PartialType(CreateUserDto)`. */
  function ValidateUpdateUser(body: Body, isEmail: string -> bool): (r: Option<Users.UserPatch>)
    ensures r.Some? ==>
      && KeptOrCleared(Field(body, "email"), r.value.email)
      && KeptOrCleared(Field(body, "password"), r.value.password)
      && KeptOrCleared(Field(body, "firstName"), r.value.firstName)
      && KeptOrCleared(Field(body, "lastName"), r.value.lastName)
      && KeptOrCleared(Field(body, "contactNumber"), r.value.contactNumber)
      && KeptOrCleared(Field(body, "role"), r.value.role)
      && KeptOrCleared(Field(body, "isActive"), r.value.isActive)
      && (r.value.email.Put? ==>
            Field(body, "email") == Some(JString(r.value.email.value)) && isEmail(r.value.email.value))
      && (r.value.password.Put? ==>
            Field(body, "password") == Some(JString(r.value.password.value))
            && ValidatorLength(r.value.password.value) >= 8)
      && (r.value.firstName.Put? ==> Field(body, "firstName") == Some(JString(r.value.firstName.value)))
      && (r.value.lastName.Put? ==> Field(body, "lastName") == Some(JString(r.value.lastName.value)))
      && (r.value.contactNumber.Put? ==>
            Field(body, "contactNumber") == Some(JString(r.value.contactNumber.value)))
      && (r.value.role.Put? ==> Field(body, "role") == Some(JString(RoleName(r.value.role.value))))
      && (r.value.isActive.Put? ==> Field(body, "isActive") == Some(JBool(r.value.isActive.value)))
  {
    var email := ChangeOf(Field(body, "email"), CheckedStringOf(Field(body, "email"), isEmail));
    var password := ChangeOf(Field(body, "password"), PasswordOf(Field(body, "password")));
    var firstName := ChangeOf(Field(body, "firstName"), StringOf(Field(body, "firstName")));
    var lastName := ChangeOf(Field(body, "lastName"), StringOf(Field(body, "lastName")));
    var contact := ChangeOf(Field(body, "contactNumber"), StringOf(Field(body, "contactNumber")));
    var role := ChangeOf(Field(body, "role"), RoleOf(Field(body, "role")));
    var active := ChangeOf(Field(body, "isActive"), BoolOf(Field(body, "isActive")));
    if email.Some? && password.Some? && firstName.Some? && lastName.Some? && contact.Some?
       && role.Some? && active.Some? then
      Some(Users.UserPatch(email.value, password.value, firstName.value, lastName.value,
                           contact.value, role.value, active.value))
    else None
  }

  /** A field that is present, not null, and fails its check. */
  predicate Refused<T>(v: Option<Json>, checked: Option<T>) {
    !Omitted(v) && checked.None?
  }

  /** An update body is refused exactly when some field is present, not null,
      and fails its check; absent and null fields never refuse it. */
  lemma UpdateRefusedIff(body: Body, isEmail: string -> bool)
    ensures ValidateUpdateUser(body, isEmail).None? <==>
      || Refused(Field(body, "email"), CheckedStringOf(Field(body, "email"), isEmail))
      || Refused(Field(body, "password"), PasswordOf(Field(body, "password")))
      || Refused(Field(body, "firstName"), StringOf(Field(body, "firstName")))
      || Refused(Field(body, "lastName"), StringOf(Field(body, "lastName")))
      || Refused(Field(body, "contactNumber"), StringOf(Field(body, "contactNumber")))
      || Refused(Field(body, "role"), RoleOf(Field(body, "role")))
      || Refused(Field(body, "isActive"), BoolOf(Field(body, "isActive")))
  {
    var email := ChangeOf(Field(body, "email"), CheckedStringOf(Field(body, "email"), isEmail));
    var password := ChangeOf(Field(body, "password"), PasswordOf(Field(body, "password")));
    var firstName := ChangeOf(Field(body, "firstName"), StringOf(Field(body, "firstName")));
    var lastName := ChangeOf(Field(body, "lastName"), StringOf(Field(body, "lastName")));
    var contact := ChangeOf(Field(body, "contactNumber"), StringOf(Field(body, "contactNumber")));
    var role := ChangeOf(Field(body, "role"), RoleOf(Field(body, "role")));
    var active := ChangeOf(Field(body, "isActive"), BoolOf(Field(body, "isActive")));
    assert ValidateUpdateUser(body, isEmail).None? <==>
      email.None? || password.None? || firstName.None? || lastName.None? || contact.None?
      || role.None? || active.None?;
  }

  /** What a client sends for one change: nothing, null, or the value. */
  function StringChangeJson(c: Users.Change<string>): Option<Json> {
    match c
    case Keep => None
    case Clear => Some(JNull)
    case Put(x) => Some(JString(x))
  }

  function RoleChangeJson(c: Users.Change<Role>): Option<Json> {
    match c
    case Keep => None
    case Clear => Some(JNull)
    case Put(x) => Some(JString(RoleName(x)))
  }

  function BoolChangeJson(c: Users.Change<bool>): Option<Json> {
    match c
    case Keep => None
    case Clear => Some(JNull)
    case Put(x) => Some(JBool(x))
  }

  function WithField(body: Body, name: string, v: Option<Json>): Body {
    if v.Some? then body[name := v.value] else body
  }

  /** The body a client sends for a patch. */
  function PatchBody(p: Users.UserPatch): Body {
    var b1 := WithField(map[], "email", StringChangeJson(p.email));
    var b2 := WithField(b1, "password", StringChangeJson(p.password));
    var b3 := WithField(b2, "firstName", StringChangeJson(p.firstName));
    var b4 := WithField(b3, "lastName", StringChangeJson(p.lastName));
    var b5 := WithField(b4, "contactNumber", StringChangeJson(p.contactNumber));
    var b6 := WithField(b5, "role", RoleChangeJson(p.role));
    WithField(b6, "isActive", BoolChangeJson(p.isActive))
  }

  lemma PatchBodyFields(p: Users.UserPatch)
    ensures Field(PatchBody(p), "email") == StringChangeJson(p.email)
    ensures Field(PatchBody(p), "password") == StringChangeJson(p.password)
    ensures Field(PatchBody(p), "firstName") == StringChangeJson(p.firstName)
    ensures Field(PatchBody(p), "lastName") == StringChangeJson(p.lastName)
    ensures Field(PatchBody(p), "contactNumber") == StringChangeJson(p.contactNumber)
    ensures Field(PatchBody(p), "role") == RoleChangeJson(p.role)
    ensures Field(PatchBody(p), "isActive") == BoolChangeJson(p.isActive)
  {
  }

  lemma StringChangeRoundTrip(c: Users.Change<string>)
    ensures ChangeOf(StringChangeJson(c), StringOf(StringChangeJson(c))) == Some(c)
  {
  }

  lemma CheckedChangeRoundTrip(c: Users.Change<string>, accepts: string -> bool)
    requires c.Put? ==> accepts(c.value)
    ensures ChangeOf(StringChangeJson(c), CheckedStringOf(StringChangeJson(c), accepts)) == Some(c)
  {
  }

  lemma PasswordChangeRoundTrip(c: Users.Change<string>)
    requires c.Put? ==> ValidatorLength(c.value) >= 8
    ensures ChangeOf(StringChangeJson(c), PasswordOf(StringChangeJson(c))) == Some(c)
  {
  }

  lemma RoleChangeRoundTrip(c: Users.Change<Role>)
    ensures ChangeOf(RoleChangeJson(c), RoleOf(RoleChangeJson(c))) == Some(c)
  {
  }

  lemma BoolChangeRoundTrip(c: Users.Change<bool>)
    ensures ChangeOf(BoolChangeJson(c), BoolOf(BoolChangeJson(c))) == Some(c)
  {
  }

  /** Every patch whose new email passes `isEmail` and whose new password is
      long enough is accepted as sent: keeps, nulls and values alike. */
  lemma {:induction false} UpdateRoundTrip(p: Users.UserPatch, isEmail: string -> bool)
    requires p.email.Put? ==> isEmail(p.email.value)
    requires p.password.Put? ==> ValidatorLength(p.password.value) >= 8
    ensures ValidateUpdateUser(PatchBody(p), isEmail) == Some(p)
  {
    PatchBodyFields(p);
    CheckedChangeRoundTrip(p.email, isEmail);
    PasswordChangeRoundTrip(p.password);
    StringChangeRoundTrip(p.firstName);
    StringChangeRoundTrip(p.lastName);
    StringChangeRoundTrip(p.contactNumber);
    RoleChangeRoundTrip(p.role);
    BoolChangeRoundTrip(p.isActive);
  }

  /** A body carrying only a new email and password passes, and names those two
      columns and no other. */
  lemma UpdateCarriesEmailAndPassword(email: string, password: string, isEmail: string -> bool)
    requires isEmail(email) && ValidatorLength(password) >= 8
    ensures ValidateUpdateUser(map["email" := JString(email), "password" := JString(password)], isEmail)
         == Some(Users.UserPatch(Users.Put(email), Users.Put(password),
                                 Users.Keep, Users.Keep, Users.Keep, Users.Keep, Users.Keep))
  {
    var body := map["email" := JString(email), "password" := JString(password)];
    assert Field(body, "email") == Some(JString(email));
    assert Field(body, "password") == Some(JString(password));
    assert "firstName" !in body && "lastName" !in body && "contactNumber" !in body;
    assert "role" !in body && "isActive" !in body;
  }

  // ---------------------------------------------------------- CreateVisitorPassDto

  function ValidatePassApplication(body: Body, isIsoDate: string -> bool): (r: Option<VisitorPasses.PassApplication>)
    ensures r.Some? ==>
      && Field(body, "fullName") == Some(JString(r.value.fullName))
      && Field(body, "visitDate") == Some(JString(r.value.visitDate)) && isIsoDate(r.value.visitDate)
      && Field(body, "timeWindowStart") == Some(JString(r.value.timeWindowStart)) && isIsoDate(r.value.timeWindowStart)
      && Field(body, "timeWindowEnd") == Some(JString(r.value.timeWindowEnd)) && isIsoDate(r.value.timeWindowEnd)
  {
    var fullName := StringOf(Field(body, "fullName"));
    var contact := StringOf(Field(body, "contactNumber"));
    var purpose := StringOf(Field(body, "purpose"));
    var person := StringOf(Field(body, "personToVisit"));
    var visitDate := CheckedStringOf(Field(body, "visitDate"), isIsoDate);
    var start := CheckedStringOf(Field(body, "timeWindowStart"), isIsoDate);
    var end := CheckedStringOf(Field(body, "timeWindowEnd"), isIsoDate);
    var email := OptionalStringOf(Field(body, "email"));
    var address := OptionalStringOf(Field(body, "address"));
    if fullName.Some? && contact.Some? && purpose.Some? && person.Some? && visitDate.Some?
       && start.Some? && end.Some? && email.Some? && address.Some? then
      Some(VisitorPasses.PassApplication(fullName.value, contact.value, purpose.value, person.value,
                                         visitDate.value, start.value, end.value, email.value, address.value))
    else None
  }

  function PassApplicationBody(dto: VisitorPasses.PassApplication): Body {
    map["fullName" := JString(dto.fullName), "contactNumber" := JString(dto.contactNumber),
        "purpose" := JString(dto.purpose), "personToVisit" := JString(dto.personToVisit),
        "visitDate" := JString(dto.visitDate), "timeWindowStart" := JString(dto.timeWindowStart),
        "timeWindowEnd" := JString(dto.timeWindowEnd),
        "email" := OptionalToJson(dto.email), "address" := OptionalToJson(dto.address)]
  }

  /** Each date is checked on its own: a window that ends before it starts, or
      lies on another day than the visit, passes; so do empty text fields and
      an email that is not an email address. */
  lemma PassApplicationRoundTrip(dto: VisitorPasses.PassApplication, isIsoDate: string -> bool)
    requires isIsoDate(dto.visitDate) && isIsoDate(dto.timeWindowStart) && isIsoDate(dto.timeWindowEnd)
    ensures ValidatePassApplication(PassApplicationBody(dto), isIsoDate) == Some(dto)
  {
    var body := PassApplicationBody(dto);
    assert Field(body, "fullName") == Some(JString(dto.fullName));
    assert Field(body, "contactNumber") == Some(JString(dto.contactNumber));
    assert Field(body, "purpose") == Some(JString(dto.purpose));
    assert Field(body, "personToVisit") == Some(JString(dto.personToVisit));
    assert Field(body, "visitDate") == Some(JString(dto.visitDate));
    assert Field(body, "timeWindowStart") == Some(JString(dto.timeWindowStart));
    assert Field(body, "timeWindowEnd") == Some(JString(dto.timeWindowEnd));
    assert Field(body, "email") == Some(OptionalToJson(dto.email));
    assert Field(body, "address") == Some(OptionalToJson(dto.address));
  }

  // ---------------------------------------------------------- CreateIncidentDto

  function ValidateIncident(body: Body): (r: Option<Incidents.IncidentReport>)
    ensures r.Some? ==>
      && r.value.title != "" && r.value.description != "" && r.value.location != ""
      && Field(body, "title") == Some(JString(r.value.title))
      && Field(body, "description") == Some(JString(r.value.description))
      && Field(body, "location") == Some(JString(r.value.location))
      && Field(body, "severity") == Some(JString(SeverityName(r.value.severity)))
  {
    var title := NonEmptyStringOf(Field(body, "title"));
    var description := NonEmptyStringOf(Field(body, "description"));
    var location := NonEmptyStringOf(Field(body, "location"));
    var severity := SeverityOf(Field(body, "severity"));
    var image := OptionalStringOf(Field(body, "imageUrl"));
    var anonymous := OptionalBoolOf(Field(body, "anonymous"));
    if title.Some? && description.Some? && location.Some? && severity.Some? && image.Some? && anonymous.Some? then
      Some(Incidents.IncidentReport(title.value, description.value, location.value, severity.value,
                                    image.value, anonymous.value))
    else None
  }

  function IncidentBody(dto: Incidents.IncidentReport): Body {
    map["title" := JString(dto.title), "description" := JString(dto.description),
        "location" := JString(dto.location), "severity" := JString(SeverityName(dto.severity)),
        "imageUrl" := OptionalToJson(dto.imageUrl),
        "anonymous" := if dto.anonymous.Some? then JBool(dto.anonymous.value) else JNull]
  }

  /** Any non-empty title, description and location pass, whitespace-only
      ones included; the image URL is not checked beyond being a string. */
  lemma IncidentRoundTrip(dto: Incidents.IncidentReport)
    requires dto.title != "" && dto.description != "" && dto.location != ""
    ensures ValidateIncident(IncidentBody(dto)) == Some(dto)
  {
    var body := IncidentBody(dto);
    assert Field(body, "title") == Some(JString(dto.title));
    assert Field(body, "description") == Some(JString(dto.description));
    assert Field(body, "location") == Some(JString(dto.location));
    assert Field(body, "severity") == Some(JString(SeverityName(dto.severity)));
    assert Field(body, "imageUrl") == Some(OptionalToJson(dto.imageUrl));
    assert Field(body, "anonymous") == Some(if dto.anonymous.Some? then JBool(dto.anonymous.value) else JNull);
  }

  /** An empty title is refused, a title of one space is not. */
  lemma IncidentTitleNonEmptyOnly(dto: Incidents.IncidentReport)
    requires dto.description != "" && dto.location != ""
    ensures ValidateIncident(IncidentBody(dto.(title := ""))).None?
    ensures ValidateIncident(IncidentBody(dto.(title := " "))).Some?
  {
    IncidentRoundTrip(dto.(title := " "));
    var body := IncidentBody(dto.(title := ""));
    assert Field(body, "title") == Some(JString(""));
  }

  // ---------------------------------------------------------- CreateEntryLogDto

  /** The scan body: only the token, direction and location; the guard id
      and the time are not client fields. */
  datatype ScanInput = ScanInput(qrToken: string, kind: EntryType, location: string)

  function ValidateScan(body: Body): (r: Option<ScanInput>)
    ensures r.Some? <==>
      StringOf(Field(body, "qrToken")).Some? && EntryTypeOf(Field(body, "type")).Some?
      && StringOf(Field(body, "location")).Some?
    ensures r.Some? ==>
      && Field(body, "qrToken") == Some(JString(r.value.qrToken))
      && Field(body, "type") == Some(JString(EntryTypeName(r.value.kind)))
      && Field(body, "location") == Some(JString(r.value.location))
  {
    var token := StringOf(Field(body, "qrToken"));
    var kind := EntryTypeOf(Field(body, "type"));
    var location := StringOf(Field(body, "location"));
    if token.Some? && kind.Some? && location.Some? then Some(ScanInput(token.value, kind.value, location.value))
    else None
  }

  function ScanBody(dto: ScanInput): Body {
    map["qrToken" := JString(dto.qrToken), "type" := JString(EntryTypeName(dto.kind)),
        "location" := JString(dto.location)]
  }

  /** Empty token and location strings pass. */
  lemma ScanRoundTrip(dto: ScanInput)
    ensures ValidateScan(ScanBody(dto)) == Some(dto)
  {
    var body := ScanBody(dto);
    assert Field(body, "qrToken") == Some(JString(dto.qrToken));
    assert Field(body, "type") == Some(JString(EntryTypeName(dto.kind)));
    assert Field(body, "location") == Some(JString(dto.location));
  }
}

=== FILE: email_pattern.dfy ===
/** The client-side email test that the sign-up, login, forgot-password and
    visitor-pass pages share: `/^[^\s@]+@[^\s@]+\.[^\s@]+$/.test(email)`. */
module EmailPattern {
  import opened JsStrings

  /** A character of the class `[^\s@]`. */
  predicate Plain(c: char) {
    !IsJsWhitespace(c) && c != '@'
  }

  /** `[^\s@]+`: a non-empty run of plain characters. */
  predicate PlainRun(t: string) {
    t != [] && forall i | 0 <= i < |t| :: Plain(t[i])
  }

  /** What the regular expression matches, read off its structure: the whole
      string splits as run '@' run '.' run, with '@' at k and '.' at j. */
  ghost predicate RegexMatches(s: string) {
    exists k, j | 0 <= k < j < |s| ::
      s[k] == '@' && s[j] == '.'
      && PlainRun(s[..k]) && PlainRun(s[k + 1..j]) && PlainRun(s[j + 1..])
  }

  /** The pattern as a hand-written check: no whitespace, exactly one '@',
      which is not the first character, and a '.' after the '@' that is
      neither the first nor the last character of the domain. */
  predicate LooksLikeEmail(s: string) {
    && (forall i | 0 <= i < |s| :: !IsJsWhitespace(s[i]))
    && exists k | 0 < k < |s| ::
         && s[k] == '@'
         && (forall i | 0 <= i < |s| && s[i] == '@' :: i == k)
         && exists j | k + 1 < j < |s| - 1 :: s[j] == '.'
  }

  /** The hand-written check accepts exactly the strings the pattern matches. */
  lemma LooksLikeEmailIffRegex(s: string)
    ensures LooksLikeEmail(s) <==> RegexMatches(s)
  {
    if LooksLikeEmail(s) { LooksLikeEmailMatches(s); }
    if RegexMatches(s) { MatchesLooksLikeEmail(s); }
  }

  lemma LooksLikeEmailMatches(s: string)
    requires LooksLikeEmail(s)
    ensures RegexMatches(s)
  {
    var k :| 0 < k < |s| && s[k] == '@' && (forall i | 0 <= i < |s| && s[i] == '@' :: i == k)
      && exists j | k + 1 < j < |s| - 1 :: s[j] == '.';
    var j :| k + 1 < j < |s| - 1 && s[j] == '.';
    PlainSlice(s, k, 0, k);
    PlainSlice(s, k, k + 1, j);
    PlainSlice(s, k, j + 1, |s|);
    assert s[..k] == s[0..k];
  }

  lemma MatchesLooksLikeEmail(s: string)
    requires RegexMatches(s)
    ensures LooksLikeEmail(s)
  {
    var k, j :| 0 <= k < j < |s| && s[k] == '@' && s[j] == '.'
      && PlainRun(s[..k]) && PlainRun(s[k + 1..j]) && PlainRun(s[j + 1..]);
    forall i | 0 <= i < |s| ensures !IsJsWhitespace(s[i]) && (s[i] == '@' ==> i == k) {
      if i < k { assert s[i] == s[..k][i]; }
      else if k < i < j { assert s[i] == s[k + 1..j][i - k - 1]; }
      else if i > j { assert s[i] == s[j + 1..][i - j - 1]; }
    }
    assert k + 1 < j < |s| - 1;
  }

  /** A slice avoiding the only '@' of a whitespace-free string is plain. */
  lemma PlainSlice(s: string, k: int, lo: int, hi: int)
    requires 0 <= k < |s| && 0 <= lo < hi <= |s| && !(lo <= k < hi)
    requires forall i | 0 <= i < |s| :: !IsJsWhitespace(s[i])
    requires forall i | 0 <= i < |s| && s[i] == '@' :: i == k
    ensures PlainRun(s[lo..hi])
  {
    forall i | 0 <= i < hi - lo ensures Plain(s[lo..hi][i]) {
      assert s[lo..hi][i] == s[lo + i];
    }
  }
}

=== FILE: entry_logs.dfy ===
/** EntryLogsService's two read queries over the gate log. Both are pure: the
    log is an argument and nothing is written. */
module EntryLogs {
  import opened Domain
  import opened Ordering

  datatype EntryLog = EntryLog(
    id: string, userId: string, guardId: string, kind: EntryType, location: string,
    timestamp: int)   // milliseconds since the epoch

  function Timestamp(l: EntryLog): int { l.timestamp }

  function ForUser(userId: string): EntryLog -> bool {
    (l: EntryLog) => l.userId == userId
  }

  function AnyLog(): EntryLog -> bool {
    (l: EntryLog) => true
  }

  /** The fixed cap of `findByUser`. */
  const ByUserCap: nat := 20

  /** The default of `findAll`'s `take` (and of the controller's). */
  const DefaultTake: nat := 50

  /** `findByUser`: that user's logs, newest first, at most 20; no log of the
      user left out is newer than one returned, and a user with at most 20
      logs gets all of them. */
  function FindByUser(logs: seq<EntryLog>, userId: string): (r: seq<EntryLog>)
    ensures |r| == if Count(logs, ForUser(userId)) <= ByUserCap then Count(logs, ForUser(userId)) else ByUserCap
    ensures multiset(r) <= multiset(Filter(logs, ForUser(userId)))
    ensures SortedDesc(r, Timestamp)
    ensures forall l | l in r :: l.userId == userId && l in logs
    ensures forall l | l in logs && l.userId == userId && l !in r ::
      forall i | 0 <= i < |r| :: r[i].timestamp >= l.timestamp
    ensures Count(logs, ForUser(userId)) <= ByUserCap ==>
      multiset(r) == multiset(Filter(logs, ForUser(userId)))
  {
    var p := ForUser(userId);
    NewestFirstSound(logs, p, Timestamp, ByUserCap);
    var r := NewestFirst(logs, p, Timestamp, ByUserCap);
    assert Count(logs, p) <= ByUserCap ==> multiset(r) == multiset(Filter(logs, p)) by {
      if Count(logs, p) <= ByUserCap { NewestFirstBelowCap(logs, p, Timestamp, ByUserCap); }
    }
    NewestFirstCutoffAll(logs, p, Timestamp, ByUserCap);
    r
  }

  /** `findAll(take)`: a prefix of the newest-first log of length `take`, or
      the whole log when it is shorter. */
  function FindAll(logs: seq<EntryLog>, take: nat): (r: seq<EntryLog>)
    ensures |r| == if |logs| <= take then |logs| else take
    ensures multiset(r) <= multiset(logs)
    ensures SortedDesc(r, Timestamp)
    ensures forall l | l in r :: l in logs
    ensures forall l | l in logs && l !in r :: forall i | 0 <= i < |r| :: r[i].timestamp >= l.timestamp
    ensures |logs| <= take ==> multiset(r) == multiset(logs)
  {
    var p := AnyLog();
    NewestFirstSound(logs, p, Timestamp, take);
    FilterAnyKeepsAll(logs);
    var r := NewestFirst(logs, p, Timestamp, take);
    assert |logs| <= take ==> multiset(r) == multiset(logs) by {
      if |logs| <= take { NewestFirstBelowCap(logs, p, Timestamp, take); }
    }
    NewestFirstCutoffAll(logs, p, Timestamp, take);
    r
  }

  lemma {:induction false} FilterAnyKeepsAll(logs: seq<EntryLog>)
    ensures Filter(logs, AnyLog()) == logs
  {
    if logs != [] {
      FilterAnyKeepsAll(logs[1..]);
      assert logs == [logs[0]] + logs[1..];
    }
  }

  /** With the controller's default, the 50 newest logs: 50 distinct stored
      logs, or all of them when there are fewer, and none left out is newer
      than one returned. */
  lemma FindAllDefault(logs: seq<EntryLog>)
    ensures |FindAll(logs, DefaultTake)| == if |logs| <= 50 then |logs| else 50
    ensures multiset(FindAll(logs, DefaultTake)) <= multiset(logs)
    ensures |logs| <= 50 ==> multiset(FindAll(logs, DefaultTake)) == multiset(logs)
    ensures forall l | l in logs && l !in FindAll(logs, DefaultTake) ::
      forall i | 0 <= i < |FindAll(logs, DefaultTake)| :: FindAll(logs, DefaultTake)[i].timestamp >= l.timestamp
  {
  }
}

=== FILE: forgot_password_page.dfy ===
/** The forgot-password page: its single email check and `handleSubmit`.
    The `forgotPassword` call is a parameter: the response it resolves
    with, or the failure it rejects with. */
module ForgotPasswordPage {
  import opened Domain
  import opened JsStrings
  import opened EmailPattern
  import opened FormErrors
  import opened ApiErrors
  import Users
  import Auth
  import ResetPasswordPage

  const ForgotFallback := "Something went wrong. Please try again."

  /** How the `forgotPassword` request settled. */
  datatype Reply = Resolved(response: Auth.ForgotResponse) | Rejected(failure: Failure)

  /** The message under the email input after a submit: the blank check
      first, then the pattern, and nothing when both pass. */
  function ErrorOf(email: string): (m: string)
    ensures IsBlank(email) ==> m == EmailRequired
    ensures !IsBlank(email) && !LooksLikeEmail(email) ==> m == EmailInvalid
    ensures m == "" <==> LooksLikeEmail(email)
  {
    EmailAcceptedIffPattern(email);
    match EmailProblem(email)
    case None => ""
    case Some(p) => p
  }

  /** The link the page keeps from a response: `if (res.resetLink)` passes
      only a present, non-empty link. */
  function LinkShown(response: Auth.ForgotResponse): (l: Option<string>)
    ensures l.Some? <==> response.resetLink.Some? && response.resetLink.value != ""
    ensures l.Some? ==> l == response.resetLink
  {
    if response.resetLink.Some? && response.resetLink.value != "" then response.resetLink else None
  }

  /** Against the service: the page shows a link exactly when the email is
      registered and the mail failed, and the reset page read at that URL
      takes the token just stored. */
  lemma LinkShownIffMailFailed(rows: seq<Users.User>, email: string, bytes: seq<Byte>, now: int, mailSent: bool)
    ensures var r := Auth.ForgotStep(rows, email, bytes, now, mailSent).result.value;
      && (LinkShown(r).Some? <==> Users.EmailTaken(rows, email) && !mailSent)
      && (LinkShown(r).Some? ==> ResetPasswordPage.TokenOf(LinkShown(r).value) == Auth.ToHex(bytes))
  {
    var r := Auth.ForgotStep(rows, email, bytes, now, mailSent).result.value;
    if r.resetToken.Some? {
      assert |r.resetLink.value| >= |Auth.ResetLinkPrefix|;
      assert r.resetToken.value == Auth.ToHex(bytes);
      ResetPasswordPage.TokenOfLink(bytes);
    }
  }

  class Page {
    var email: string
    var error: string
    var apiError: string
    var isSubmitting: bool
    var isSuccess: bool
    var resetLink: string

    constructor ()
      ensures email == "" && error == "" && apiError == ""
      ensures !isSubmitting && !isSuccess && resetLink == ""
    {
      email := "";
      error := "";
      apiError := "";
      isSubmitting := false;
      isSuccess := false;
      resetLink := "";
    }

    /** The email input's `onChange`: the value, and its message cleared. */
    method ChangeEmail(value: string)
      modifies this
      ensures email == value && error == ""
      ensures apiError == old(apiError) && isSubmitting == old(isSubmitting)
      ensures isSuccess == old(isSuccess) && resetLink == old(resetLink)
    {
      email := value;
      if error != "" {
        error := "";
      }
    }

    /** `handleSubmit`: both messages are cleared; a blank or malformed email
        sets its message and sends nothing; a sent request marks success and
        keeps a returned link when it resolves, and shows the page's reading
        of the failure otherwise; the spinner stops either way. */
    method HandleSubmit(reply: Reply) returns (sent: Option<string>)
      modifies this
      ensures email == old(email) && error == ErrorOf(email)
      ensures sent.Some? <==> LooksLikeEmail(email)
      ensures sent.Some? ==> sent.value == email && !isSubmitting
      ensures sent.None? ==>
        apiError == "" && isSubmitting == old(isSubmitting)
        && isSuccess == old(isSuccess) && resetLink == old(resetLink)
      ensures sent.Some? && reply.Resolved? ==>
        isSuccess && apiError == "" && resetLink == OrElse(LinkShown(reply.response), old(resetLink))
      ensures sent.Some? && reply.Rejected? ==>
        isSuccess == old(isSuccess) && resetLink == old(resetLink)
        && apiError == PageMessage(reply.failure, ForgotFallback)
    {
      apiError := "";
      error := "";
      if IsBlank(email) {
        error := EmailRequired;
        return None;
      }
      if !LooksLikeEmail(email) {
        error := EmailInvalid;
        return None;
      }
      isSubmitting := true;
      sent := Some(email);
      if reply.Resolved? {
        isSuccess := true;
        var link := reply.response.resetLink;
        if link.Some? && link.value != "" {
          resetLink := link.value;
        }
      } else {
        apiError := PageMessage(reply.failure, ForgotFallback);
      }
      isSubmitting := false;
    }
  }
}

=== FILE: form_errors.dfy ===
/** What the auth pages' validators share: the blank and email checks, and
    the clearing of one field's message on edit. Each page's errors object
    holds one message per rejected field, and
    `Object.keys(newErrors).length === 0` means valid. */
module FormErrors {
  import opened Domain
  import opened JsStrings
  import opened EmailPattern

  /** `if (!value.trim()) newErrors.x = message`. */
  function Required(value: string, message: string): (r: Option<string>)
    ensures r.Some? <==> IsBlank(value)
    ensures r.Some? ==> r.value == message
  {
    if IsBlank(value) then Some(message) else None
  }

  const EmailRequired := "Email is required"
  const EmailInvalid := "Enter a valid email address"

  /** The email check: blank first, then the pattern on the untrimmed text. */
  function EmailProblem(email: string): (r: Option<string>)
    ensures IsBlank(email) ==> r == Some(EmailRequired)
    ensures !IsBlank(email) ==> (r == Some(EmailInvalid) <==> !LooksLikeEmail(email))
    ensures r.None? <==> !IsBlank(email) && LooksLikeEmail(email)
  {
    if IsBlank(email) then Some(EmailRequired)
    else if !LooksLikeEmail(email) then Some(EmailInvalid)
    else None
  }

  /** An email the pattern accepts is never blank, so the pattern alone
      decides: the blank check only picks the message. */
  lemma EmailAcceptedIffPattern(email: string)
    ensures EmailProblem(email).None? <==> LooksLikeEmail(email)
  {
    if LooksLikeEmail(email) {
      var k :| 0 < k < |email| && email[k] == '@';
      assert !IsJsWhitespace(email[k]);
    }
  }

  /** `if (errors[id]) setErrors(prev => ({ ...prev, [id]: '' }))`: a set
      message is blanked, the key stays, other keys are untouched. */
  function ClearError<F(==,!new)>(errors: map<F, string>, f: F): (r: map<F, string>)
    ensures r.Keys == errors.Keys
    ensures f in errors && errors[f] != "" ==> r[f] == ""
    ensures forall g | g in errors && g != f :: r[g] == errors[g]
    ensures f in errors && errors[f] == "" ==> r == errors
  {
    if f in errors && errors[f] != "" then errors[f := ""] else errors
  }
}

=== FILE: incidents.dfy ===
/** IncidentsService: filing an incident report and a reporter's own list. */
module Incidents {
  import opened Domain
  import opened Ordering

  datatype Incident = Incident(
    id: string, title: string, description: string, location: string,
    severity: Severity, imageUrl: Option<string>, anonymous: bool,
    reportedById: string, status: IncidentStatus, actionTaken: Option<string>,
    createdAt: int, resolvedAt: Option<int>)

  /** Column values `create` leaves to the schema (not part of this model). */
  datatype IncidentDefaults = IncidentDefaults(id: string, status: IncidentStatus, createdAt: int)

  /** The fields of a CreateIncidentDto that passed validation. */
  datatype IncidentReport = IncidentReport(
    title: string, description: string, location: string, severity: Severity,
    imageUrl: Option<string>, anonymous: Option<bool>)

  function IncidentCreatedAt(x: Incident): int { x.createdAt }

  predicate IncidentIdTaken(rows: seq<Incident>, id: string) {
    exists i | 0 <= i < |rows| :: rows[i].id == id
  }

  /** No two incidents share an id, the table's primary key. */
  ghost predicate UniqueIncidentIds(rows: seq<Incident>) {
    forall i, j | 0 <= i < j < |rows| :: rows[i].id != rows[j].id
  }

  const InsertFailed := "Internal server error"

  /** The row `create` writes for `userId`. */
  function Filed(userId: string, dto: IncidentReport, d: IncidentDefaults): Incident {
    Incident(d.id, dto.title, dto.description, dto.location, dto.severity, dto.imageUrl,
             if dto.anonymous.Some? then dto.anonymous.value else false,
             userId, d.status, None, d.createdAt, None)
  }

  function CreateStep(rows: seq<Incident>, userId: string, dto: IncidentReport, d: IncidentDefaults)
    : (o: Outcome<Incident, Incident>)
    ensures o.result.Ok? <==> !IncidentIdTaken(rows, d.id)
    ensures o.result.Ok? ==> o.rows == rows + [o.result.value]
    ensures o.result.Err? ==> o.rows == rows
  {
    if IncidentIdTaken(rows, d.id) then Outcome(Err(InternalError, InsertFailed), rows)
    else Outcome(Ok(Filed(userId, dto, d)), rows + [Filed(userId, dto, d)])
  }

  /** The report is stored as given and always records the caller as
      reporter, anonymous or not; `anonymous` defaults to false. */
  lemma CreateRecordsReporter(rows: seq<Incident>, userId: string, dto: IncidentReport, d: IncidentDefaults)
    requires !IncidentIdTaken(rows, d.id)
    ensures var x := CreateStep(rows, userId, dto, d).result.value;
      && x.reportedById == userId
      && x.title == dto.title && x.description == dto.description && x.location == dto.location
      && x.severity == dto.severity && x.imageUrl == dto.imageUrl
      && x.anonymous == (dto.anonymous == Some(true))
      && x in FindByUser(CreateStep(rows, userId, dto, d).rows, userId)
  {
    var o := CreateStep(rows, userId, dto, d);
    assert o.result.value == o.rows[|rows|];
  }

  /** `create` refuses a taken id, so the ids stay unique. */
  lemma CreateKeepsUniqueIds(rows: seq<Incident>, userId: string, dto: IncidentReport, d: IncidentDefaults)
    requires UniqueIncidentIds(rows)
    ensures UniqueIncidentIds(CreateStep(rows, userId, dto, d).rows)
  {
    var o := CreateStep(rows, userId, dto, d);
    if o.result.Ok? {
      forall i | 0 <= i < |rows| ensures o.rows[i].id != o.rows[|rows|].id {
        assert o.rows[i] == rows[i];
      }
    }
  }

  function ReportedBy(userId: string): Incident -> bool {
    (x: Incident) => x.reportedById == userId
  }

  /** `findByUser`: exactly that user's incidents, anonymous ones included,
      newest first, no cap. */
  function FindByUser(rows: seq<Incident>, userId: string): (r: seq<Incident>)
    ensures SortedDesc(r, IncidentCreatedAt)
    ensures forall x | x in r :: x.reportedById == userId && x in rows
    ensures forall x | x in rows && x.reportedById == userId :: x in r
    ensures multiset(r) == multiset(Filter(rows, ReportedBy(userId)))
  {
    var f := Filter(rows, ReportedBy(userId));
    var r := SortDesc(f, IncidentCreatedAt);
    assert forall x | x in r :: x.reportedById == userId && x in rows by {
      forall x | x in r ensures x.reportedById == userId && x in rows {
        SortDescMember(f, IncidentCreatedAt, x);
        FilterMember(rows, ReportedBy(userId), x);
      }
    }
    assert forall x | x in rows && x.reportedById == userId :: x in r by {
      forall x | x in rows && x.reportedById == userId ensures x in r {
        FilterMember(rows, ReportedBy(userId), x);
        SortDescMember(f, IncidentCreatedAt, x);
      }
    }
    r
  }

  class IncidentTable {
    var rows: seq<Incident>

    ghost predicate Valid()
      reads this
    {
      UniqueIncidentIds(rows)
    }

    constructor (initial: seq<Incident>)
      requires UniqueIncidentIds(initial)
      ensures Valid() && rows == initial
    {
      rows := initial;
    }

    /** `incidentsService.create(userId, dto)`. */
    method Create(userId: string, dto: IncidentReport, d: IncidentDefaults) returns (r: Result<Incident>)
      requires Valid()
      modifies this
      ensures Valid()
      ensures r == CreateStep(old(rows), userId, dto, d).result
      ensures rows == CreateStep(old(rows), userId, dto, d).rows
    {
      if IncidentIdTaken(rows, d.id) {
        return Err(InternalError, InsertFailed);
      }
      var anonymous := if dto.anonymous.Some? then dto.anonymous.value else false;
      var x := Incident(d.id, dto.title, dto.description, dto.location, dto.severity, dto.imageUrl,
                        anonymous, userId, d.status, None, d.createdAt, None);
      CreateKeepsUniqueIds(rows, userId, dto, d);
      rows := rows + [x];
      r := Ok(x);
    }
  }
}

=== FILE: js_strings.dfy ===
/** The few pieces of JavaScript string semantics the pages and services rely
    on: the `\s` / `trim()` whitespace class, UTF-16 `length`, `Array.join`,
    number-to-string and `parseInt(s, 10)`. */
module JsStrings {
  import opened Domain

  /** ECMAScript WhiteSpace plus LineTerminator: the set matched by `\s` and
      removed by `String.prototype.trim`. */
  predicate IsJsWhitespace(c: char) {
    var n := c as int;
    n == 0x09 || n == 0x0A || n == 0x0B || n == 0x0C || n == 0x0D || n == 0x20
    || n == 0xA0 || n == 0x1680 || (0x2000 <= n <= 0x200A)
    || n == 0x2028 || n == 0x2029 || n == 0x202F || n == 0x205F
    || n == 0x3000 || n == 0xFEFF
  }

  /** `!s.trim()`: the string is empty once whitespace is trimmed. */
  predicate IsBlank(s: string) {
    forall i | 0 <= i < |s| :: IsJsWhitespace(s[i])
  }

  function TrimStart(s: string): (r: string)
    ensures r != [] ==> !IsJsWhitespace(r[0])
  {
    if s != [] && IsJsWhitespace(s[0]) then TrimStart(s[1..]) else s
  }

  function TrimEnd(s: string): (r: string)
    ensures r != [] ==> !IsJsWhitespace(r[|r| - 1])
  {
    if s != [] && IsJsWhitespace(s[|s| - 1]) then TrimEnd(s[..|s| - 1]) else s
  }

  /** `String.prototype.trim`. */
  function Trim(s: string): string {
    TrimEnd(TrimStart(s))
  }

  lemma {:induction false} TrimStartEmptyIffBlank(s: string)
    ensures TrimStart(s) == [] <==> IsBlank(s)
    decreases |s|
  {
    if s != [] && IsJsWhitespace(s[0]) {
      TrimStartEmptyIffBlank(s[1..]);
      assert IsBlank(s) <==> IsBlank(s[1..]) by {
        if IsBlank(s[1..]) {
          forall i | 0 <= i < |s| ensures IsJsWhitespace(s[i]) {
            if i > 0 { assert s[i] == s[1..][i - 1]; }
          }
        }
      }
    }
  }

  /** The pages' `!x.trim()` test holds exactly for strings made of whitespace. */
  lemma TrimEmptyIffBlank(s: string)
    ensures Trim(s) == [] <==> IsBlank(s)
  {
    TrimStartEmptyIffBlank(s);
    var t := TrimStart(s);
    if t != [] {
      assert TrimEnd(t) != [] by {
        assert !IsJsWhitespace(t[0]);
        if TrimEnd(t) == [] { TrimEndKeepsNonBlank(t); }
      }
    }
  }

  lemma {:induction false} TrimEndKeepsNonBlank(s: string)
    requires s != [] && !IsJsWhitespace(s[0])
    ensures TrimEnd(s) != []
    decreases |s|
  {
    if IsJsWhitespace(s[|s| - 1]) {
      assert |s| > 1;
      TrimEndKeepsNonBlank(s[..|s| - 1]);
    }
  }

  /** The number of UTF-16 code units of a string: JavaScript's `length`,
      which the pages' `length < 8` tests use. */
  function JsLength(s: string): (n: nat)
    ensures |s| <= n <= 2 * |s|
  {
    if s == [] then 0
    else JsLength(s[..|s| - 1]) + (if s[|s| - 1] as int > 0xFFFF then 2 else 1)
  }

  /** The variation selectors U+FE0E and U+FE0F. */
  predicate IsPresentationSelector(c: char) {
    c as int == 0xFE0E || c as int == 0xFE0F
  }

  /** validator.js `isLength`, which class-validator's MinLength calls: the
      UTF-16 length less one per surrogate pair and one per variation
      selector, that is, the code points other than U+FE0E and U+FE0F. */
  function ValidatorLength(s: string): (n: nat)
    ensures n <= |s|
    ensures n == |s| <==> forall i | 0 <= i < |s| :: !IsPresentationSelector(s[i])
  {
    if s == [] then 0
    else
      var n := ValidatorLength(s[..|s| - 1]);
      assert forall i | 0 <= i < |s| - 1 :: s[..|s| - 1][i] == s[i];
      n + (if IsPresentationSelector(s[|s| - 1]) then 0 else 1)
  }

  /** Four emoji: eight UTF-16 code units, four for `isLength`. */
  lemma {:induction false} FourEmojiLengths()
    ensures JsLength("\U{1F600}\U{1F600}\U{1F600}\U{1F600}") == 8
    ensures ValidatorLength("\U{1F600}\U{1F600}\U{1F600}\U{1F600}") == 4
  {
    var e1 := "\U{1F600}";
    var e2 := e1 + e1;
    var e3 := e2 + e1;
    var e4 := e3 + e1;
    assert e4 == "\U{1F600}\U{1F600}\U{1F600}\U{1F600}";
    assert e1[..0] == [] && e2[..1] == e1 && e3[..2] == e2 && e4[..3] == e3;
    assert JsLength(e1) == 2 && JsLength(e2) == 4 && JsLength(e3) == 6 && JsLength(e4) == 8;
    assert ValidatorLength(e1) == 1 && ValidatorLength(e2) == 2;
    assert ValidatorLength(e3) == 3 && ValidatorLength(e4) == 4;
  }

  /** The UTF-8 encoding of one code point (Dafny's `char` is a Unicode
      scalar value, so there are no lone surrogates to encode). Each
      continuation byte carries six bits, taken from the low end. */
  function CharUtf8(c: char): (b: seq<Byte>)
    ensures 1 <= |b| <= 4
    ensures forall k | 0 <= k < |b| :: (b[k] == 0 <==> c as int == 0)
  {
    var n0 := c as int;
    var n1 := n0 / 0x40;
    var n2 := n1 / 0x40;
    var n3 := n2 / 0x40;
    if n0 < 0x80 then [n0]
    else if n0 < 0x800 then [0xC0 + n1, 0x80 + n0 % 0x40]
    else if n0 < 0x10000 then [0xE0 + n2, 0x80 + n1 % 0x40, 0x80 + n0 % 0x40]
    else [0xF0 + n3, 0x80 + n2 % 0x40, 0x80 + n1 % 0x40, 0x80 + n0 % 0x40]
  }

  /** The number of bytes of a sequence that its leading byte announces. */
  function LeadLength(b: Byte): nat {
    if b < 0x80 then 1 else if b < 0xE0 then 2 else if b < 0xF0 then 3 else 4
  }

  /** The code point a UTF-8 sequence of one to four bytes encodes. */
  function DecodeUtf8(b: seq<Byte>): int
    requires 1 <= |b| <= 4
  {
    var lead: int := b[0];
    var bits := seq(|b| - 1, k requires 0 <= k < |b| - 1 => b[k + 1] as int - 0x80);
    if |b| == 1 then lead
    else if |b| == 2 then (lead - 0xC0) * 0x40 + bits[0]
    else if |b| == 3 then ((lead - 0xE0) * 0x40 + bits[0]) * 0x40 + bits[1]
    else (((lead - 0xF0) * 0x40 + bits[0]) * 0x40 + bits[1]) * 0x40 + bits[2]
  }

  /** Each code point's encoding announces its own length and decodes back. */
  lemma CharUtf8Decodes(c: char)
    ensures LeadLength(CharUtf8(c)[0]) == |CharUtf8(c)|
    ensures DecodeUtf8(CharUtf8(c)) == c as int
  {
    var n0 := c as int;
    var n1 := n0 / 0x40;
    var n2 := n1 / 0x40;
    var n3 := n2 / 0x40;
    assert n0 == n1 * 0x40 + n0 % 0x40;
    assert n1 == n2 * 0x40 + n1 % 0x40;
    assert n2 == n3 * 0x40 + n2 % 0x40;
  }

  /** `Buffer.from(s, 'utf8')`: the UTF-8 bytes of a string. */
  function Utf8(s: string): (b: seq<Byte>)
    ensures |b| >= |s|
    ensures s == [] <==> b == []
  {
    if s == [] then [] else CharUtf8(s[0]) + Utf8(s[1..])
  }

  lemma {:induction false} Utf8Append(s: string, t: string)
    ensures Utf8(s + t) == Utf8(s) + Utf8(t)
    decreases |s|
  {
    if s != [] {
      assert (s + t)[0] == s[0] && (s + t)[1..] == s[1..] + t;
      assert Utf8(s + t) == CharUtf8(s[0]) + Utf8(s[1..] + t);
      Utf8Append(s[1..], t);
    } else {
      assert s + t == t;
    }
  }

  /** A string without U+0000 has no zero byte in its encoding. */
  lemma {:induction false} Utf8NoZero(s: string)
    requires forall i | 0 <= i < |s| :: s[i] as int != 0
    ensures forall k | 0 <= k < |Utf8(s)| :: Utf8(s)[k] != 0
    decreases |s|
  {
    if s != [] {
      Utf8NoZero(s[1..]);
      var h := CharUtf8(s[0]);
      var b := Utf8(s);
      forall k | 0 <= k < |b| ensures b[k] != 0 {
        if k >= |h| { assert b[k] == Utf8(s[1..])[k - |h|]; }
      }
    }
  }

  /** The encoding is injective: distinct strings have distinct bytes. */
  lemma {:induction false} Utf8Injective(s: string, t: string)
    requires Utf8(s) == Utf8(t)
    ensures s == t
    decreases |s|
  {
    if s != [] {
      var a, b := CharUtf8(s[0]), CharUtf8(t[0]);
      CharUtf8Decodes(s[0]);
      CharUtf8Decodes(t[0]);
      assert Utf8(s)[0] == a[0] && Utf8(t)[0] == b[0];
      assert |a| == |b|;
      assert a == Utf8(s)[..|a|] && b == Utf8(t)[..|b|];
      assert s[0] == t[0];
      assert Utf8(s[1..]) == Utf8(s)[|a|..] == Utf8(t)[|b|..] == Utf8(t[1..]);
      Utf8Injective(s[1..], t[1..]);
    }
  }

  /** `Array.prototype.join(sep)` over strings. */
  function Join(items: seq<string>, sep: string): string {
    if |items| == 0 then ""
    else if |items| == 1 then items[0]
    else items[0] + sep + Join(items[1..], sep)
  }

  lemma {:induction false} JoinEmptyOnlyForEmptyParts(items: seq<string>, sep: string)
    requires sep != []
    ensures Join(items, sep) == [] <==> (|items| == 0 || (|items| == 1 && items[0] == []))
  {
    if |items| > 1 {
      assert |Join(items, sep)| >= |sep|;
    }
  }

  function DigitChar(d: nat): char
    requires d < 10
  {
    "0123456789"[d]
  }

  predicate IsDigit(c: char) {
    48 <= c as int <= 57
  }

  /** Decimal rendering of a non-negative integer. It is what `${n}` produces
      for a number below 10^21; from there up JS writes exponent form. */
  function NatToString(n: nat): (s: string)
    ensures |s| > 0
    ensures forall i | 0 <= i < |s| :: IsDigit(s[i])
  {
    if n < 10 then [DigitChar(n)] else NatToString(n / 10) + [DigitChar(n % 10)]
  }

  function IntToString(n: int): string {
    if n < 0 then "-" + NatToString(-n) else NatToString(n)
  }

  /** The longest prefix of decimal digits. */
  function LeadingDigits(s: string): (d: string)
    ensures |d| <= |s| && d == s[..|d|]
    ensures forall i | 0 <= i < |d| :: IsDigit(d[i])
    ensures |d| < |s| ==> !IsDigit(s[|d|])
  {
    if s != [] && IsDigit(s[0]) then [s[0]] + LeadingDigits(s[1..]) else ""
  }

  function DigitsValue(d: string): nat
    requires forall i | 0 <= i < |d| :: IsDigit(d[i])
  {
    if d == [] then 0
    else
      assert IsDigit(d[|d| - 1]);
      DigitsValue(d[..|d| - 1]) * 10 + (d[|d| - 1] as int - 48)
  }

  /** `parseInt(s, 10)`: leading whitespace is skipped, an optional sign is
      read, then as many decimal digits as follow; None stands for NaN. The
      value is the exact integer: JS rounds it to a double, which changes
      it from 2^53 up and makes it Infinity past about 309 digits. */
  function ParseInt10(s: string): (r: Option<int>)
    ensures r.None? <==> LeadingDigits(SignFree(TrimStart(s))) == []
  {
    var t := TrimStart(s);
    var negative := t != [] && t[0] == '-';
    var digits := LeadingDigits(SignFree(t));
    var magnitude: int := if digits == [] then 0 else DigitsValue(digits);
    if digits == [] then None
    else if negative then Some(-magnitude)
    else Some(magnitude)
  }

  function SignFree(t: string): string {
    if t != [] && (t[0] == '-' || t[0] == '+') then t[1..] else t
  }

  lemma {:induction false} LeadingDigitsOfDigits(s: string)
    requires forall i | 0 <= i < |s| :: IsDigit(s[i])
    ensures LeadingDigits(s) == s
    decreases |s|
  {
    if s != [] {
      LeadingDigitsOfDigits(s[1..]);
    }
  }

  lemma {:induction false} DigitsValueOfNatToString(n: nat)
    ensures DigitsValue(NatToString(n)) == n
  {
    var s := NatToString(n);
    if n >= 10 {
      DigitsValueOfNatToString(n / 10);
      assert s[..|s| - 1] == NatToString(n / 10);
    }
  }

  /** 2^53: every integer below it is a double exactly. */
  const SafeIntegerBound := 0x20_0000_0000_0000

  /** parseInt reads back every count below 2^53 that `${n}` prints. */
  lemma ParseIntOfNatToString(n: nat)
    requires n < SafeIntegerBound
    ensures ParseInt10(NatToString(n)) == Some(n)
  {
    var s := NatToString(n);
    assert !IsJsWhitespace(s[0]);
    assert TrimStart(s) == s;
    assert SignFree(s) == s;
    LeadingDigitsOfDigits(s);
    DigitsValueOfNatToString(n);
  }
}

=== FILE: login_page.dfy ===
/** The login page: its two fields, `validateForm`, and `handleLogin`. The
    call to `login` is a parameter: `None` when it resolves, the failure
    when it rejects. */
module LoginPage {
  import opened Domain
  import opened JsStrings
  import opened EmailPattern
  import opened FormErrors
  import opened ApiErrors
  import Auth
  import Dtos

  datatype Field = Email | Password

  const PasswordMissing := "Password is required"
  const LoginFallback := "Login failed. Please try again."
  const AfterLogin := "/dashboard"

  /** The errors object `validateForm` builds: the shared email check, and
      an empty password. */
  function Errors(email: string, password: string): (e: map<Field, string>)
    ensures Email in e <==> EmailProblem(email).Some?
    ensures Email in e ==> e[Email] == EmailProblem(email).value
    ensures Password in e <==> password == ""
    ensures Password in e ==> e[Password] == PasswordMissing
  {
    var withEmail := if EmailProblem(email).Some? then map[Email := EmailProblem(email).value] else map[];
    if password == "" then withEmail[Password := PasswordMissing] else withEmail
  }

  /** The form passes exactly when the email matches the pattern and a
      password, of any length, was typed. */
  lemma ErrorsEmptyIff(email: string, password: string)
    ensures Errors(email, password) == map[] <==> LooksLikeEmail(email) && password != ""
  {
    EmailAcceptedIffPattern(email);
    var e := Errors(email, password);
    if e != map[] {
      assert Email in e || Password in e;
    }
  }

  /** What the page sends. */
  function Sent(email: string, password: string): Dtos.Body {
    Dtos.LoginBody(Auth.LoginInput(email, password))
  }

  /** The page lets through a password the back end's LoginDto refuses:
      one character is enough here, eight (as `isLength` counts them, so four
      emoji are too few) are needed there. */
  lemma ShortPasswordPassesPageOnly(email: string, password: string, isEmail: string -> bool)
    requires LooksLikeEmail(email) && password != "" && ValidatorLength(password) < 8
    ensures Errors(email, password) == map[]
    ensures Dtos.ValidateLogin(Sent(email, password), isEmail).None?
  {
    ErrorsEmptyIff(email, password);
    assert Dtos.Field(Sent(email, password), "password") == Some(Dtos.JString(password));
  }

  /** A form the page accepts with a password `isLength` counts at least 8
      long and an address validator.js accepts reaches the service unchanged. */
  lemma AcceptedFormReachesLogin(email: string, password: string, isEmail: string -> bool)
    requires LooksLikeEmail(email) && isEmail(email) && ValidatorLength(password) >= 8
    ensures Errors(email, password) == map[]
    ensures Dtos.ValidateLogin(Sent(email, password), isEmail) == Some(Auth.LoginInput(email, password))
  {
    ErrorsEmptyIff(email, password);
    Dtos.LoginRoundTrip(Auth.LoginInput(email, password), isEmail);
  }

  class Page {
    var email: string
    var password: string
    var errors: map<Field, string>
    var isSubmitting: bool
    var apiError: string
    var navigation: Option<string>

    constructor ()
      ensures email == "" && password == "" && errors == map[]
      ensures !isSubmitting && apiError == "" && navigation == None
    {
      email := "";
      password := "";
      errors := map[];
      isSubmitting := false;
      apiError := "";
      navigation := None;
    }

    /** The email input's `onChange`: the value, and its own message cleared. */
    method ChangeEmail(value: string)
      modifies this
      ensures email == value && errors == ClearError(old(errors), Email)
      ensures password == old(password) && isSubmitting == old(isSubmitting)
      ensures apiError == old(apiError) && navigation == old(navigation)
    {
      email := value;
      if Email in errors && errors[Email] != "" {
        errors := errors[Email := ""];
      }
    }

    /** The password input's `onChange`. */
    method ChangePassword(value: string)
      modifies this
      ensures password == value && errors == ClearError(old(errors), Password)
      ensures email == old(email) && isSubmitting == old(isSubmitting)
      ensures apiError == old(apiError) && navigation == old(navigation)
    {
      password := value;
      if Password in errors && errors[Password] != "" {
        errors := errors[Password := ""];
      }
    }

    method ValidateForm() returns (ok: bool)
      modifies this
      ensures errors == Errors(email, password)
      ensures ok <==> errors == map[]
      ensures email == old(email) && password == old(password) && isSubmitting == old(isSubmitting)
      ensures apiError == old(apiError) && navigation == old(navigation)
    {
      var newErrors: map<Field, string> := map[];
      if IsBlank(email) {
        newErrors := newErrors[Email := EmailRequired];
      } else if !LooksLikeEmail(email) {
        newErrors := newErrors[Email := EmailInvalid];
      }
      if password == "" {
        newErrors := newErrors[Password := PasswordMissing];
      }
      errors := newErrors;
      ok := |newErrors| == 0;
    }

    /** `handleLogin`: the old API message is cleared first; an invalid form
        sends nothing; a sent login navigates on success and shows the
        page's reading of the failure otherwise; the spinner stops either
        way. */
    method HandleLogin(outcome: Option<Failure>) returns (sent: Option<Auth.LoginInput>)
      modifies this
      ensures email == old(email) && password == old(password)
      ensures errors == Errors(email, password)
      ensures sent.Some? <==> errors == map[]
      ensures sent.Some? ==> sent.value == Auth.LoginInput(email, password) && !isSubmitting
      ensures sent.None? ==> apiError == "" && navigation == old(navigation) && isSubmitting == old(isSubmitting)
      ensures sent.Some? && outcome.None? ==> navigation == Some(AfterLogin) && apiError == ""
      ensures sent.Some? && outcome.Some? ==>
        navigation == old(navigation) && apiError == PageMessage(outcome.value, LoginFallback)
    {
      apiError := "";
      var ok := ValidateForm();
      if !ok {
        return None;
      }
      isSubmitting := true;
      sent := Some(Auth.LoginInput(email, password));
      if outcome.None? {
        navigation := Some(AfterLogin);
      } else {
        apiError := PageMessage(outcome.value, LoginFallback);
      }
      isSubmitting := false;
    }
  }
}

=== FILE: ordering.dfy ===
/** The query shapes the services hand to the store: `findFirst`, `where`
    (filter), `orderBy: { key: 'desc' }` (newest first), `take` (prefix) and
    `count`. */
module Ordering {
  import opened Domain

  /** `findFirst({ where: p })` / `findUnique`: the position of the first row
      in store order that satisfies p. */
  function FirstIndex<T>(s: seq<T>, p: T -> bool): (r: Option<nat>)
    ensures r.Some? ==> r.value < |s| && p(s[r.value]) && forall i | 0 <= i < r.value :: !p(s[i])
    ensures r.None? ==> forall i | 0 <= i < |s| :: !p(s[i])
  {
    if s == [] then None
    else if p(s[0]) then Some(0)
    else match FirstIndex(s[1..], p)
      case None => None
      case Some(k) => Some(k + 1)
  }

  /** `where`: the rows satisfying p, in store order. */
  function Filter<T(!new)>(s: seq<T>, p: T -> bool): (r: seq<T>)
    ensures |r| <= |s|
    ensures forall i | 0 <= i < |r| :: p(r[i])
    ensures forall x :: multiset(r)[x] == if p(x) then multiset(s)[x] else 0
  {
    if s == [] then []
    else
      var rest := Filter(s[1..], p);
      assert s == [s[0]] + s[1..];
      if p(s[0]) then [s[0]] + rest else rest
  }

  /** `count({ where })`. */
  function Count<T(!new)>(s: seq<T>, p: T -> bool): nat {
    |Filter(s, p)|
  }

  /** How `count` grows by one row. */
  lemma CountCons<T(!new)>(s: seq<T>, p: T -> bool)
    requires s != []
    ensures Count(s, p) == (if p(s[0]) then 1 else 0) + Count(s[1..], p)
  {
  }

  ghost predicate SortedDesc<T>(s: seq<T>, key: T -> int) {
    forall i, j | 0 <= i < j < |s| :: key(s[i]) >= key(s[j])
  }

  /** A head no smaller than a sorted tail's first key keeps it sorted. */
  lemma ConsSorted<T>(h: T, rest: seq<T>, key: T -> int)
    requires SortedDesc(rest, key)
    requires rest != [] ==> key(h) >= key(rest[0])
    ensures SortedDesc([h] + rest, key)
  {
    var r := [h] + rest;
    forall i, j | 0 <= i < j < |r| ensures key(r[i]) >= key(r[j]) {
      if i == 0 && j > 1 {
        assert key(rest[0]) >= key(rest[j - 1]);
      }
    }
  }

  /** Places x before the first element whose key is smaller. */
  function InsertDesc<T>(x: T, s: seq<T>, key: T -> int): (r: seq<T>)
    requires SortedDesc(s, key)
    ensures SortedDesc(r, key)
    ensures multiset(r) == multiset(s) + multiset{x}
    ensures |r| == |s| + 1
    ensures r[0] == x || (s != [] && r[0] == s[0])
  {
    if s == [] then [x]
    else if key(x) >= key(s[0]) then
      ConsSorted(x, s, key);
      [x] + s
    else
      var rest := InsertDesc(x, s[1..], key);
      assert s == [s[0]] + s[1..];
      assert rest[0] == x || key(rest[0]) <= key(s[0]);
      ConsSorted(s[0], rest, key);
      [s[0]] + rest
  }

  /** `orderBy: { key: 'desc' }`: the same rows, newest first; rows with equal
      keys keep their store order. */
  function SortDesc<T>(s: seq<T>, key: T -> int): (r: seq<T>)
    ensures SortedDesc(r, key)
    ensures multiset(r) == multiset(s)
    ensures |r| == |s|
  {
    if s == [] then []
    else
      assert s == [s[0]] + s[1..];
      InsertDesc(s[0], SortDesc(s[1..], key), key)
  }

  /** `take: n`. */
  function Take<T>(s: seq<T>, n: nat): seq<T> {
    if n <= |s| then s[..n] else s
  }

  lemma FilterMember<T(!new)>(s: seq<T>, p: T -> bool, x: T)
    ensures x in Filter(s, p) <==> x in s && p(x)
  {
    assert x in Filter(s, p) <==> x in multiset(Filter(s, p));
    assert x in s <==> x in multiset(s);
  }

  lemma SortDescMember<T>(s: seq<T>, key: T -> int, x: T)
    ensures x in SortDesc(s, key) <==> x in s
  {
    assert x in SortDesc(s, key) <==> x in multiset(SortDesc(s, key));
    assert x in s <==> x in multiset(s);
  }

  /** In a newest-first list, anything cut off by `take` is no newer than
      what was kept. */
  lemma TakeCutsOnlyOlder<T>(sorted: seq<T>, key: T -> int, n: nat, x: T)
    requires SortedDesc(sorted, key)
    requires x in sorted && x !in Take(sorted, n)
    ensures forall i | 0 <= i < |Take(sorted, n)| :: key(Take(sorted, n)[i]) >= key(x)
  {
    var r := Take(sorted, n);
    var j :| 0 <= j < |sorted| && sorted[j] == x;
    assert forall k | 0 <= k < |r| :: r[k] == sorted[k] && r[k] != x;
    assert j >= |r|;
    forall i | 0 <= i < |r| ensures key(r[i]) >= key(x) {
      assert r[i] == sorted[i];
    }
  }

  /** The query `findMany({ where: p, orderBy: { key: 'desc' }, take: n })`. */
  function NewestFirst<T(!new)>(s: seq<T>, p: T -> bool, key: T -> int, n: nat): seq<T> {
    Take(SortDesc(Filter(s, p), key), n)
  }

  /** `take` keeps a prefix: min(n, |s|) rows, each at its own position. */
  lemma TakePrefix<T>(s: seq<T>, n: nat)
    ensures |Take(s, n)| == if |s| <= n then |s| else n
    ensures multiset(Take(s, n)) <= multiset(s)
    ensures forall i | 0 <= i < |Take(s, n)| :: Take(s, n)[i] == s[i]
  {
    if n <= |s| {
      assert s == s[..n] + s[n..];
    }
  }

  /** A capped newest-first query returns min(n, matches) rows, newest
      first, drawn without repetition from the matching rows of the store. */
  lemma NewestFirstSound<T(!new)>(s: seq<T>, p: T -> bool, key: T -> int, n: nat)
    ensures |NewestFirst(s, p, key, n)| == if Count(s, p) <= n then Count(s, p) else n
    ensures multiset(NewestFirst(s, p, key, n)) <= multiset(Filter(s, p))
    ensures SortedDesc(NewestFirst(s, p, key, n), key)
    ensures forall x | x in NewestFirst(s, p, key, n) :: p(x) && x in s
  {
    var f := Filter(s, p);
    var sorted := SortDesc(f, key);
    var r := Take(sorted, n);
    TakePrefix(sorted, n);
    assert SortedDesc(r, key) by {
      forall i, j | 0 <= i < j < |r| ensures key(r[i]) >= key(r[j]) {
        assert r[i] == sorted[i] && r[j] == sorted[j];
      }
    }
    forall x | x in r ensures p(x) && x in s {
      assert x in sorted by {
        var i :| 0 <= i < |r| && r[i] == x;
        assert sorted[i] == x;
      }
      SortDescMember(f, key, x);
      FilterMember(s, p, x);
    }
  }

  /** No matching row left out by the cap is newer than a returned one. */
  lemma NewestFirstCutoff<T(!new)>(s: seq<T>, p: T -> bool, key: T -> int, n: nat, x: T)
    requires x in s && p(x) && x !in NewestFirst(s, p, key, n)
    ensures forall i | 0 <= i < |NewestFirst(s, p, key, n)| ::
      key(NewestFirst(s, p, key, n)[i]) >= key(x)
  {
    var f := Filter(s, p);
    FilterMember(s, p, x);
    SortDescMember(f, key, x);
    TakeCutsOnlyOlder(SortDesc(f, key), key, n, x);
  }

  /** The cutoff for every matching row the cap leaves out. */
  lemma NewestFirstCutoffAll<T(!new)>(s: seq<T>, p: T -> bool, key: T -> int, n: nat)
    ensures forall x | x in s && p(x) && x !in NewestFirst(s, p, key, n) ::
      forall i | 0 <= i < |NewestFirst(s, p, key, n)| :: key(NewestFirst(s, p, key, n)[i]) >= key(x)
  {
    forall x | x in s && p(x) && x !in NewestFirst(s, p, key, n)
      ensures forall i | 0 <= i < |NewestFirst(s, p, key, n)| :: key(NewestFirst(s, p, key, n)[i]) >= key(x)
    {
      NewestFirstCutoff(s, p, key, n, x);
    }
  }

  /** Below the cap, every matching row is returned. */
  lemma NewestFirstBelowCap<T(!new)>(s: seq<T>, p: T -> bool, key: T -> int, n: nat)
    requires Count(s, p) <= n
    ensures multiset(NewestFirst(s, p, key, n)) == multiset(Filter(s, p))
  {
    var sorted := SortDesc(Filter(s, p), key);
    assert |sorted| <= n;
    assert Take(sorted, n) == sorted;
  }
}

=== FILE: protected_route.dfy ===
/** `ProtectedRoute`: what a guarded front-end route renders for the session
    state `useAuth()` reports. */
module ProtectedRoute {
  import opened Domain

  datatype View = Spinner | Redirect(path: string) | Outlet

  /** The dashboard each role lands on. */
  function HomeOf(role: Role): (path: string)
    ensures role == ADMIN ==> path == "/admin-dashboard"
    ensures role == GUARD ==> path == "/guard-dashboard"
    ensures role != ADMIN && role != GUARD ==> path == "/dashboard"
  {
    if role == ADMIN then "/admin-dashboard"
    else if role == GUARD then "/guard-dashboard"
    else "/dashboard"
  }

  /** Loading first, then the session, then the role list. */
  function Render(isLoading: bool, user: Option<Role>, allowedRoles: Option<seq<Role>>): (v: View)
    ensures v == Spinner <==> isLoading
    ensures v == Redirect("/login") <==> !isLoading && user.None?
    ensures v == Outlet <==>
      !isLoading && user.Some? && (allowedRoles.None? || user.value in allowedRoles.value)
  {
    if isLoading then Spinner
    else if user.None? then Redirect("/login")
    else if allowedRoles.Some? && user.value !in allowedRoles.value then Redirect(HomeOf(user.value))
    else Outlet
  }

  /** A signed-in user outside the route's roles is sent to their own
      dashboard, never to the login page. */
  lemma ExcludedRoleGoesHome(user: Role, allowed: seq<Role>)
    requires user !in allowed
    ensures Render(false, Some(user), Some(allowed)) == Redirect(HomeOf(user))
    ensures Render(false, Some(user), Some(allowed)) != Redirect("/login")
  {
  }

  /** An empty `allowedRoles` list shuts out every signed-in user; no list
      lets every one of them through. */
  lemma EmptyListDeniesEveryone(user: Role)
    ensures Render(false, Some(user), Some([])).Redirect?
    ensures Render(false, Some(user), None) == Outlet
  {
  }

  /** While loading, nothing else is looked at. */
  lemma LoadingHidesEverything(u1: Option<Role>, u2: Option<Role>, a1: Option<seq<Role>>, a2: Option<seq<Role>>)
    ensures Render(true, u1, a1) == Render(true, u2, a2) == Spinner
  {
  }
}

=== FILE: reset_password_page.dfy ===
/** The reset-password page: the token it reads from its URL, `validateForm`
    and `handleSubmit`. The `resetPassword` call is a parameter: `None` when
    it resolves, the failure when it rejects. */
module ResetPasswordPage {
  import opened Domain
  import opened JsStrings
  import opened FormErrors
  import opened ApiErrors
  import opened SearchParams
  import Users
  import Auth

  datatype Field = Token | NewPassword | ConfirmPassword

  const TokenMissing := "Reset token is missing. Please use the link from your email."
  const PasswordTooShort := "Password must be at least 8 characters"
  const PasswordsDiffer := "Passwords do not match"
  const ResetFallback := "Reset failed. The link may have expired."

  /** What `resetPassword(token, newPassword)` sends. */
  datatype ResetRequest = ResetRequest(token: string, newPassword: string)

  /** `searchParams.get('token') || ''`: the first `token` value, and the
      empty string when there is none. */
  function TokenOf(url: string): (t: string)
    ensures Get(Params(QueryOf(url)), "token").None? ==> t == ""
    ensures Get(Params(QueryOf(url)), "token").Some? ==> t == Get(Params(QueryOf(url)), "token").value
  {
    match Get(Params(QueryOf(url)), "token")
    case None => ""
    case Some(v) => v
  }

  /** Read at the URL `forgotPassword` hands out, the page's token is exactly
      the hex token the service stored. (Whether a browser reaches this page
      at that URL is not modelled.) */
  lemma TokenOfLink(bytes: seq<Byte>)
    ensures TokenOf(Auth.ResetLinkPrefix + Auth.ToHex(bytes)) == Auth.ToHex(bytes)
  {
    TokenOfHexLink(Auth.ToHex(bytes));
  }

  lemma TokenOfHexLink(hex: string)
    requires forall k | 0 <= k < |hex| :: Auth.IsHexDigit(hex[k])
    ensures TokenOf(Auth.ResetLinkPrefix + hex) == hex
  {
    var base := "http://localhost:5176/reset-password";
    assert Auth.ResetLinkPrefix + hex == base + "?" + "token" + "=" + hex;
    LinkParam(base, "token", hex);
  }

  /** The whole flow for a known email whose mail failed: read at the link in
      the response, the page's token is the stored token, and submitting it
      at time t resets the password exactly when t is within 15 minutes. */
  lemma EmailedLinkResets(rows: seq<Users.User>, i: nat, bytes: seq<Byte>, now: int, newPassword: string, t: int)
    requires Users.UniqueKeys(rows) && i < |rows|
    requires !Auth.HoldsToken(rows, Auth.ToHex(bytes))
    ensures var o := Auth.ForgotStep(rows, rows[i].email, bytes, now, false);
      && o.result.value.resetLink.Some?
      && TokenOf(o.result.value.resetLink.value) == Auth.ToHex(bytes)
      && (Auth.ResetStep(o.rows, TokenOf(o.result.value.resetLink.value), newPassword, t).result.Ok?
          <==> t <= now + Auth.ResetWindowMs)
  {
    Users.IndexOfMember(rows, i);
    TokenOfLink(bytes);
    Auth.ResetWindow(rows, i, bytes, now, false, newPassword, t);
  }

  /** The errors object `validateForm` builds: a missing token, a new
      password under 8 UTF-16 units, and a confirmation that differs, each
      checked on its own. */
  function Errors(token: string, newPassword: string, confirmPassword: string): (e: map<Field, string>)
    ensures Token in e <==> token == ""
    ensures NewPassword in e <==> JsLength(newPassword) < 8
    ensures ConfirmPassword in e <==> newPassword != confirmPassword
    ensures Token in e ==> e[Token] == TokenMissing
    ensures NewPassword in e ==> e[NewPassword] == PasswordTooShort
    ensures ConfirmPassword in e ==> e[ConfirmPassword] == PasswordsDiffer
  {
    var e0: map<Field, string> := if token == "" then map[Token := TokenMissing] else map[];
    var e1 := if JsLength(newPassword) < 8 then e0[NewPassword := PasswordTooShort] else e0;
    if newPassword != confirmPassword then e1[ConfirmPassword := PasswordsDiffer] else e1
  }

  /** The form passes exactly when a token is present, the new password has
      8 units or more, and the two passwords agree. */
  lemma ErrorsEmptyIff(token: string, newPassword: string, confirmPassword: string)
    ensures Errors(token, newPassword, confirmPassword) == map[]
        <==> token != "" && JsLength(newPassword) >= 8 && newPassword == confirmPassword
  {
    var e := Errors(token, newPassword, confirmPassword);
    if e != map[] {
      assert Token in e || NewPassword in e || ConfirmPassword in e;
    }
  }

  /** A page opened without a token can never submit, whatever is typed. */
  lemma NoTokenNeverSubmits(url: string, newPassword: string, confirmPassword: string)
    requires Get(Params(QueryOf(url)), "token").None?
    ensures Errors(TokenOf(url), newPassword, confirmPassword) != map[]
  {
    assert Token in Errors(TokenOf(url), newPassword, confirmPassword);
  }

  class Page {
    const token: string
    var newPassword: string
    var confirmPassword: string
    var errors: map<Field, string>
    var apiError: string
    var isSubmitting: bool
    var isSuccess: bool

    /** The page as rendered at `url`. */
    constructor (url: string)
      ensures token == TokenOf(url)
      ensures newPassword == "" && confirmPassword == "" && errors == map[]
      ensures apiError == "" && !isSubmitting && !isSuccess
    {
      token := TokenOf(url);
      newPassword := "";
      confirmPassword := "";
      errors := map[];
      apiError := "";
      isSubmitting := false;
      isSuccess := false;
    }

    /** The new-password input's `onChange`. */
    method ChangeNewPassword(value: string)
      modifies this
      ensures newPassword == value && errors == ClearError(old(errors), NewPassword)
      ensures confirmPassword == old(confirmPassword) && apiError == old(apiError)
      ensures isSubmitting == old(isSubmitting) && isSuccess == old(isSuccess)
    {
      newPassword := value;
      if NewPassword in errors && errors[NewPassword] != "" {
        errors := errors[NewPassword := ""];
      }
    }

    /** The confirmation input's `onChange`. */
    method ChangeConfirmPassword(value: string)
      modifies this
      ensures confirmPassword == value && errors == ClearError(old(errors), ConfirmPassword)
      ensures newPassword == old(newPassword) && apiError == old(apiError)
      ensures isSubmitting == old(isSubmitting) && isSuccess == old(isSuccess)
    {
      confirmPassword := value;
      if ConfirmPassword in errors && errors[ConfirmPassword] != "" {
        errors := errors[ConfirmPassword := ""];
      }
    }

    method ValidateForm() returns (ok: bool)
      modifies this
      ensures errors == Errors(token, newPassword, confirmPassword)
      ensures ok <==> errors == map[]
      ensures newPassword == old(newPassword) && confirmPassword == old(confirmPassword)
      ensures apiError == old(apiError) && isSubmitting == old(isSubmitting) && isSuccess == old(isSuccess)
    {
      var newErrors: map<Field, string> := map[];
      if token == "" {
        newErrors := newErrors[Token := TokenMissing];
      }
      if JsLength(newPassword) < 8 {
        newErrors := newErrors[NewPassword := PasswordTooShort];
      }
      if newPassword != confirmPassword {
        newErrors := newErrors[ConfirmPassword := PasswordsDiffer];
      }
      errors := newErrors;
      ok := |newErrors| == 0;
    }

    /** `handleSubmit`: the old API message is cleared; an invalid form
        sends nothing; a sent request marks success only when it resolves
        and shows the page's reading of the failure otherwise; the spinner
        stops either way. */
    method HandleSubmit(outcome: Option<Failure>) returns (sent: Option<ResetRequest>)
      modifies this
      ensures newPassword == old(newPassword) && confirmPassword == old(confirmPassword)
      ensures errors == Errors(token, newPassword, confirmPassword)
      ensures sent.Some? <==> errors == map[]
      ensures sent.Some? ==> sent.value == ResetRequest(token, newPassword) && !isSubmitting
      ensures sent.None? ==> apiError == "" && isSuccess == old(isSuccess) && isSubmitting == old(isSubmitting)
      ensures sent.Some? && outcome.None? ==> isSuccess && apiError == ""
      ensures sent.Some? && outcome.Some? ==>
        isSuccess == old(isSuccess) && apiError == PageMessage(outcome.value, ResetFallback)
    {
      apiError := "";
      var ok := ValidateForm();
      if !ok {
        return None;
      }
      isSubmitting := true;
      sent := Some(ResetRequest(token, newPassword));
      if outcome.None? {
        isSuccess := true;
      } else {
        apiError := PageMessage(outcome.value, ResetFallback);
      }
      isSubmitting := false;
    }
  }
}

=== FILE: search_params.dfy ===
/** The query of a page URL as `useSearchParams` reads it: the text after the
    first `?` and before any `#`, split on `&` into `name=value` pairs, with
    `get(name)` returning the first pair of that name. */
module SearchParams {
  import opened Domain
  import opened Ordering

  /** The first position of c in s. */
  function Find(s: string, c: char): (r: Option<nat>)
    ensures r.Some? ==> r.value < |s| && s[r.value] == c && c !in s[..r.value]
    ensures r.None? <==> c !in s
  {
    if s == [] then None
    else if s[0] == c then Some(0)
    else match Find(s[1..], c)
      case None => None
      case Some(k) =>
        assert s[..k + 1] == [s[0]] + s[1..][..k];
        Some(k + 1)
  }

  /** The first c in s is the one at n when none comes before it. */
  lemma {:induction false} FindAt(s: string, c: char, n: nat)
    requires n < |s| && s[n] == c && c !in s[..n]
    ensures Find(s, c) == Some(n)
  {
    if n > 0 {
      assert s[0] in s[..n];
      assert s[1..][n - 1] == c && s[1..][..n - 1] == s[..n][1..];
      FindAt(s[1..], c, n - 1);
    }
  }

  /** `String.prototype.split(sep)` on one character. */
  function Split(s: string, sep: char): (parts: seq<string>)
    ensures |parts| >= 1
    ensures sep !in s ==> parts == [s]
    decreases |s|
  {
    match Find(s, sep)
    case None => [s]
    case Some(i) => [s[..i]] + Split(s[i + 1..], sep)
  }

  /** `location.search` without its `?`: empty when the URL has no query. */
  function QueryOf(url: string): string {
    match Find(url, '?')
    case None => ""
    case Some(i) =>
      var rest := url[i + 1..];
      match Find(rest, '#')
      case None => rest
      case Some(j) => rest[..j]
  }

  /** One `name=value` piece; a piece without `=` has the empty value. */
  function ParsePair(piece: string): (string, string) {
    match Find(piece, '=')
    case None => (piece, "")
    case Some(i) => (piece[..i], piece[i + 1..])
  }

  /** The pairs of the non-empty pieces, in order. */
  function Pairs(pieces: seq<string>): (ps: seq<(string, string)>)
    ensures |ps| <= |pieces|
  {
    if pieces == [] then []
    else (if pieces[0] == "" then [] else [ParsePair(pieces[0])]) + Pairs(pieces[1..])
  }

  function Params(query: string): seq<(string, string)> {
    Pairs(Split(query, '&'))
  }

  /** `URLSearchParams.get`: the value of the first pair with that name, or
      null. */
  function Get(ps: seq<(string, string)>, name: string): (r: Option<string>)
    ensures r.None? <==> forall i | 0 <= i < |ps| :: ps[i].0 != name
    ensures r.Some? ==> exists i | 0 <= i < |ps| :: ps[i] == (name, r.value)
                          && forall j | 0 <= j < i :: ps[j].0 != name
  {
    match FirstIndex(ps, (p: (string, string)) => p.0 == name)
    case None => None
    case Some(i) => assert ps[i] == (name, ps[i].1); Some(ps[i].1)
  }

  /** A query made of one `name=value` piece, with no `&` anywhere and no
      `=` in the name, gives that value back for that name. */
  lemma {:induction false} SingleParam(name: string, value: string)
    requires name != "" && '=' !in name && '&' !in name && '&' !in value
    ensures Get(Params(name + "=" + value), name) == Some(value)
  {
    var piece := name + "=" + value;
    assert '&' !in piece by {
      forall k | 0 <= k < |piece| ensures piece[k] != '&' {
        if k < |name| { assert piece[k] == name[k]; }
        else if k > |name| { assert piece[k] == value[k - |name| - 1]; }
      }
    }
    assert Split(piece, '&') == [piece];
    var n := |name|;
    assert piece[n] == '=' && piece[..n] == name && piece[n + 1..] == value;
    FindAt(piece, '=', n);
    assert Pairs([piece]) == [ParsePair(piece)] + Pairs([]);
  }

  /** A URL `base?query` with no `?` in base and no `#` in query has exactly
      that query. */
  lemma QueryAfterMark(base: string, query: string)
    requires '?' !in base && '#' !in query
    ensures QueryOf(base + "?" + query) == query
  {
    var url := base + "?" + query;
    var n := |base|;
    assert url[n] == '?' && url[n + 1..] == query && url[..n] == base;
    FindAt(url, '?', n);
  }

  /** A URL `base?name=value`, with no `?` in base and none of `#`, `&`,
      `=` where they would end the piece early, gives value for name. */
  lemma LinkParam(base: string, name: string, value: string)
    requires '?' !in base
    requires name != "" && '=' !in name && '&' !in name && '#' !in name
    requires '&' !in value && '#' !in value
    ensures Get(Params(QueryOf(base + "?" + name + "=" + value)), name) == Some(value)
  {
    var q := name + "=" + value;
    assert '#' !in q by {
      forall k | 0 <= k < |q| ensures q[k] != '#' {
        if k < |name| { assert q[k] == name[k]; }
        else if k > |name| { assert q[k] == value[k - |name| - 1]; }
      }
    }
    assert base + "?" + name + "=" + value == base + "?" + q;
    QueryAfterMark(base, q);
    SingleParam(name, value);
  }
}

=== FILE: signup_page.dfy ===
/** The sign-up page: its form state, field edits, `validateForm` and the
    submit that only navigates. No API is called. */
module SignupPage {
  import opened Domain
  import opened JsStrings
  import opened EmailPattern
  import opened FormErrors

  datatype Field =
    | FirstName | LastName | IdNumber | Email | RoleChoice | CurrentAddress
    | StaysInDorm | ContactNumber | DepartmentCourse | Password | ConfirmPassword

  /** The number of fields `validateForm` checks. */
  const FieldCount := 11

  /** Where a field's check comes in `validateForm`. */
  function Rank(f: Field): (i: nat)
    ensures i < FieldCount
  {
    match f
    case RoleChoice => 0
    case FirstName => 1
    case LastName => 2
    case IdNumber => 3
    case Email => 4
    case CurrentAddress => 5
    case StaysInDorm => 6
    case ContactNumber => 7
    case DepartmentCourse => 8
    case Password => 9
    case ConfirmPassword => 10
  }

  /** The field checked at position `i`. */
  function FieldAt(i: nat): Field
    requires i < FieldCount
  {
    if i == 0 then RoleChoice else if i == 1 then FirstName else if i == 2 then LastName
    else if i == 3 then IdNumber else if i == 4 then Email else if i == 5 then CurrentAddress
    else if i == 6 then StaysInDorm else if i == 7 then ContactNumber
    else if i == 8 then DepartmentCourse else if i == 9 then Password else ConfirmPassword
  }

  /** `Rank` and `FieldAt` are inverse: each position holds one field. */
  lemma RankInverse(f: Field, i: nat)
    requires i < FieldCount
    ensures Rank(f) == i <==> FieldAt(i) == f
  {
  }

  /** The three roles the drop-down offers. */
  datatype OfferedRole = Student | Faculty | Staff

  function RoleLabel(r: OfferedRole): string {
    match r
    case Student => "Student"
    case Faculty => "Faculty"
    case Staff => "Staff"
  }

  /** The dormitory select's two enabled options. */
  datatype Dorm = Yes | No

  function DormValue(d: Dorm): string {
    match d
    case Yes => "yes"
    case No => "no"
  }

  /** The `<Input>` elements wired to `handleInputChange`, by their id. */
  datatype TextInput =
    | FirstNameInput | IdNumberInput | EmailInput | CurrentAddressInput
    | ContactNumberInput | DepartmentCourseInput | PasswordInput | ConfirmPasswordInput

  /** The form field an input's id names: none of them is `lastName`. */
  function InputField(i: TextInput): (f: Field)
    ensures f != LastName && f != RoleChoice && f != StaysInDorm
  {
    match i
    case FirstNameInput => FirstName
    case IdNumberInput => IdNumber
    case EmailInput => Email
    case CurrentAddressInput => CurrentAddress
    case ContactNumberInput => ContactNumber
    case DepartmentCourseInput => DepartmentCourse
    case PasswordInput => Password
    case ConfirmPasswordInput => ConfirmPassword
  }

  datatype Form = Form(
    firstName: string, lastName: string, idNumber: string, email: string, role: string,
    currentAddress: string, staysInDorm: string, contactNumber: string,
    departmentCourse: string, password: string, confirmPassword: string)

  const BlankForm := Form("", "", "", "", "", "", "", "", "", "", "")

  function Value(form: Form, f: Field): string {
    match f
    case FirstName => form.firstName
    case LastName => form.lastName
    case IdNumber => form.idNumber
    case Email => form.email
    case RoleChoice => form.role
    case CurrentAddress => form.currentAddress
    case StaysInDorm => form.staysInDorm
    case ContactNumber => form.contactNumber
    case DepartmentCourse => form.departmentCourse
    case Password => form.password
    case ConfirmPassword => form.confirmPassword
  }

  /** `{ ...prev, [id]: value }`. */
  function WithValue(form: Form, f: Field, v: string): (r: Form)
    ensures Value(r, f) == v
    ensures forall g: Field | g != f :: Value(r, g) == Value(form, g)
  {
    match f
    case FirstName => form.(firstName := v)
    case LastName => form.(lastName := v)
    case IdNumber => form.(idNumber := v)
    case Email => form.(email := v)
    case RoleChoice => form.(role := v)
    case CurrentAddress => form.(currentAddress := v)
    case StaysInDorm => form.(staysInDorm := v)
    case ContactNumber => form.(contactNumber := v)
    case DepartmentCourse => form.(departmentCourse := v)
    case Password => form.(password := v)
    case ConfirmPassword => form.(confirmPassword := v)
  }

  const RoleMissing := "Please select your role"
  const FirstNameMissing := "First name is required"
  const LastNameMissing := "Last name is required"
  const IdNumberMissing := "ID number is required"
  const AddressMissing := "Current address is required"
  const DormMissing := "Please select if you stay in dormitory"
  const ContactMissing := "Contact number is required"
  const CourseMissing := "This field is required"
  const PasswordTooShort := "Password must be at least 8 characters"
  const PasswordsDiffer := "Passwords do not match"

  /** The outcomes of the tests `validateForm` makes, in its order; each
      holds when its check fails. */
  datatype Checks = Checks(
    noRole: bool, firstNameBlank: bool, lastNameBlank: bool, idNumberBlank: bool,
    emailBlank: bool, emailMalformed: bool, addressBlank: bool, noDorm: bool,
    contactBlank: bool, courseBlank: bool, passwordShort: bool, passwordsDiffer: bool)

  /** `!formData.role`, `!formData.firstName.trim()`, …, the pattern test on
      the untrimmed email, `password.length < 8`, `password !== confirmPassword`. */
  function ChecksOf(form: Form): Checks {
    Checks(
      form.role == "", IsBlank(form.firstName), IsBlank(form.lastName), IsBlank(form.idNumber),
      IsBlank(form.email), !LooksLikeEmail(form.email), IsBlank(form.currentAddress), form.staysInDorm == "",
      IsBlank(form.contactNumber), IsBlank(form.departmentCourse),
      JsLength(form.password) < 8, form.password != form.confirmPassword)
  }

  /** The message recorded for one field, given the outcomes: the pattern
      is only consulted for an email that is not blank. */
  function ProblemOf(c: Checks, f: Field): Option<string> {
    match f
    case RoleChoice => if c.noRole then Some(RoleMissing) else None
    case FirstName => if c.firstNameBlank then Some(FirstNameMissing) else None
    case LastName => if c.lastNameBlank then Some(LastNameMissing) else None
    case IdNumber => if c.idNumberBlank then Some(IdNumberMissing) else None
    case Email =>
      if c.emailBlank then Some(EmailRequired)
      else if c.emailMalformed then Some(EmailInvalid)
      else None
    case CurrentAddress => if c.addressBlank then Some(AddressMissing) else None
    case StaysInDorm => if c.noDorm then Some(DormMissing) else None
    case ContactNumber => if c.contactBlank then Some(ContactMissing) else None
    case DepartmentCourse => if c.courseBlank then Some(CourseMissing) else None
    case Password => if c.passwordShort then Some(PasswordTooShort) else None
    case ConfirmPassword => if c.passwordsDiffer then Some(PasswordsDiffer) else None
  }

  /** One `if (…) newErrors.x = '…'` of `validateForm`: a failed field gets
      its message, every other entry stays. */
  function Note(m: map<Field, string>, c: Checks, f: Field): map<Field, string> {
    if ProblemOf(c, f).Some? then m[f := ProblemOf(c, f).value] else m
  }

  /** The errors object once the first `n` checks have run. */
  function ErrorsAfter(c: Checks, n: nat): map<Field, string>
    requires n <= FieldCount
  {
    if n == 0 then map[] else Note(ErrorsAfter(c, n - 1), c, FieldAt(n - 1))
  }

  /** After `n` checks the object holds exactly the failed fields among the
      first `n`, each with its message. */
  lemma {:induction false} ErrorsAfterHolds(c: Checks, n: nat)
    requires n <= FieldCount
    ensures forall f: Field :: f in ErrorsAfter(c, n) <==> Rank(f) < n && ProblemOf(c, f).Some?
    ensures forall f | f in ErrorsAfter(c, n) :: ErrorsAfter(c, n)[f] == ProblemOf(c, f).value
  {
    if n > 0 {
      ErrorsAfterHolds(c, n - 1);
      var g := FieldAt(n - 1);
      forall f: Field ensures Rank(f) == n - 1 <==> f == g {
        RankInverse(f, n - 1);
      }
    }
  }

  /** The errors object built from the outcomes once every check has run:
      exactly the fields with a problem, each holding its message. */
  function ErrorsOf(c: Checks): (e: map<Field, string>)
    ensures forall f: Field :: f in e <==> ProblemOf(c, f).Some?
    ensures forall f | f in e :: e[f] == ProblemOf(c, f).value
  {
    ErrorsAfterHolds(c, FieldCount);
    ErrorsAfter(c, FieldCount)
  }

  /** The message `validateForm` records for one field of a form, if any. */
  function Problem(form: Form, f: Field): Option<string> {
    ProblemOf(ChecksOf(form), f)
  }

  /** The errors object `validateForm` builds for a form. */
  function Errors(form: Form): (e: map<Field, string>)
    ensures forall f: Field :: f in e <==> Problem(form, f).Some?
    ensures forall f | f in e :: e[f] == Problem(form, f).value
  {
    ErrorsOf(ChecksOf(form))
  }

  /** Each blank test is the shared `Required` check, and the email's
      message is the shared email check's. */
  lemma ProblemsAreTheSharedChecks(form: Form)
    ensures Problem(form, FirstName) == Required(form.firstName, FirstNameMissing)
    ensures Problem(form, LastName) == Required(form.lastName, LastNameMissing)
    ensures Problem(form, IdNumber) == Required(form.idNumber, IdNumberMissing)
    ensures Problem(form, CurrentAddress) == Required(form.currentAddress, AddressMissing)
    ensures Problem(form, ContactNumber) == Required(form.contactNumber, ContactMissing)
    ensures Problem(form, DepartmentCourse) == Required(form.departmentCourse, CourseMissing)
    ensures Problem(form, Email) == EmailProblem(form.email)
  {
  }

  /** What a form needs to pass: a role and a dormitory answer chosen, the
      six text fields not blank, the email matching the pattern, and the
      password of 8 code units typed twice alike. */
  predicate Complete(form: Form) {
    && form.role != "" && form.staysInDorm != ""
    && !IsBlank(form.firstName) && !IsBlank(form.lastName) && !IsBlank(form.idNumber)
    && !IsBlank(form.currentAddress) && !IsBlank(form.contactNumber) && !IsBlank(form.departmentCourse)
    && LooksLikeEmail(form.email)
    && JsLength(form.password) >= 8 && form.password == form.confirmPassword
  }

  lemma CompleteHasNoProblem(form: Form, f: Field)
    requires Complete(form)
    ensures Problem(form, f).None?
  {
    if f == Email {
      EmailAcceptedIffPattern(form.email);
    }
  }

  lemma NoProblemIsComplete(form: Form)
    requires forall f: Field :: Problem(form, f).None?
    ensures Complete(form)
  {
    EmailAcceptedIffPattern(form.email);
    assert Problem(form, RoleChoice).None? && Problem(form, StaysInDorm).None?;
    assert Problem(form, FirstName).None? && Problem(form, LastName).None? && Problem(form, IdNumber).None?;
    assert Problem(form, CurrentAddress).None? && Problem(form, ContactNumber).None?;
    assert Problem(form, DepartmentCourse).None? && Problem(form, Email).None?;
    assert Problem(form, Password).None? && Problem(form, ConfirmPassword).None?;
  }

  /** The form passes exactly when it is complete. */
  lemma ErrorsEmptyIff(form: Form)
    ensures Errors(form) == map[] <==> Complete(form)
  {
    var e := Errors(form);
    if e != map[] {
      var f :| f in e;
      if Complete(form) {
        CompleteHasNoProblem(form, f);
      }
    } else {
      NoProblemIsComplete(form);
    }
  }

  /** A short password and a mismatched confirmation are reported together. */
  lemma PasswordErrorsIndependent(form: Form)
    requires JsLength(form.password) < 8 && form.password != form.confirmPassword
    ensures Errors(form)[Password] == PasswordTooShort
    ensures Errors(form)[ConfirmPassword] == PasswordsDiffer
  {
    assert Problem(form, Password) == Some(PasswordTooShort);
    assert Problem(form, ConfirmPassword) == Some(PasswordsDiffer);
  }

  /** A blank email is reported as missing, never as malformed. */
  lemma BlankEmailIsMissing(form: Form)
    requires IsBlank(form.email)
    ensures Errors(form)[Email] == EmailRequired
  {
  }

  /** With `lastName` still "" the form never passes. */
  lemma LastNameBlocksSubmit(form: Form)
    requires form.lastName == ""
    ensures Errors(form)[LastName] == LastNameMissing
    ensures Errors(form) != map[]
  {
    assert IsBlank(form.lastName);
  }

  datatype Navigation = Navigation(path: string, message: string)

  const CreatedMessage := "Account created successfully!"

  /** The page's state: the form data, the errors object, and where it
      navigated with which message. */
  class Page {
    var form: Form
    var errors: map<Field, string>
    var navigation: Option<Navigation>

    /** The form's TypeScript type: a role is "" or one of the offered
        labels, the dormitory answer "", "yes" or "no". */
    ghost predicate Valid()
      reads this
    {
      && (form.role == "" || exists r: OfferedRole :: form.role == RoleLabel(r))
      && form.staysInDorm in {"", "yes", "no"}
    }

    constructor ()
      ensures Valid()
      ensures form == BlankForm && errors == map[] && navigation == None
    {
      form := BlankForm;
      errors := map[];
      navigation := None;
    }

    /** `handleInputChange`: the edited field only, and its message only. */
    method HandleInputChange(input: TextInput, value: string)
      requires Valid()
      modifies this
      ensures Valid()
      ensures form == WithValue(old(form), InputField(input), value)
      ensures errors == ClearError(old(errors), InputField(input))
      ensures navigation == old(navigation)
    {
      var f := InputField(input);
      form := WithValue(form, f, value);
      if f in errors && errors[f] != "" {
        errors := errors[f := ""];
      }
    }

    /** `handleRoleChange`, from the drop-down's three buttons. */
    method HandleRoleChange(r: OfferedRole)
      requires Valid()
      modifies this
      ensures Valid()
      ensures form == old(form).(role := RoleLabel(r))
      ensures errors == old(errors) && navigation == old(navigation)
    {
      form := form.(role := RoleLabel(r));
    }

    /** The dormitory select's inline `onChange`; it clears no message. */
    method HandleDormChange(d: Dorm)
      requires Valid()
      modifies this
      ensures Valid()
      ensures form == old(form).(staysInDorm := DormValue(d))
      ensures errors == old(errors) && navigation == old(navigation)
    {
      form := form.(staysInDorm := DormValue(d));
    }

    /** `validateForm`: the fields' checks, then a fresh errors object
        filled from them, which replaces the page's. */
    method ValidateForm() returns (ok: bool)
      requires Valid()
      modifies this
      ensures Valid()
      ensures form == old(form) && navigation == old(navigation)
      ensures errors == Errors(form)
      ensures ok <==> errors == map[]
    {
      var c := ChecksOf(form);
      var newErrors: map<Field, string> := map[];
      newErrors := Note(newErrors, c, RoleChoice);
      assert newErrors == ErrorsAfter(c, 1);
      newErrors := Note(newErrors, c, FirstName);
      assert newErrors == ErrorsAfter(c, 2);
      newErrors := Note(newErrors, c, LastName);
      assert newErrors == ErrorsAfter(c, 3);
      newErrors := Note(newErrors, c, IdNumber);
      assert newErrors == ErrorsAfter(c, 4);
      newErrors := Note(newErrors, c, Email);
      assert newErrors == ErrorsAfter(c, 5);
      newErrors := Note(newErrors, c, CurrentAddress);
      assert newErrors == ErrorsAfter(c, 6);
      newErrors := Note(newErrors, c, StaysInDorm);
      assert newErrors == ErrorsAfter(c, 7);
      newErrors := Note(newErrors, c, ContactNumber);
      assert newErrors == ErrorsAfter(c, 8);
      newErrors := Note(newErrors, c, DepartmentCourse);
      assert newErrors == ErrorsAfter(c, 9);
      newErrors := Note(newErrors, c, Password);
      assert newErrors == ErrorsAfter(c, 10);
      newErrors := Note(newErrors, c, ConfirmPassword);
      assert newErrors == ErrorsAfter(c, 11);
      errors := newErrors;
      ok := |newErrors| == 0;
    }

    /** `handleSubmit`: a valid form navigates to /login with the success
        message; an invalid one only shows its errors. */
    method HandleSubmit()
      requires Valid()
      modifies this
      ensures Valid()
      ensures form == old(form) && errors == Errors(form)
      ensures navigation == if errors == map[] then Some(Navigation("/login", CreatedMessage)) else old(navigation)
      ensures old(form).lastName == "" ==> navigation == old(navigation)
    {
      var ok := ValidateForm();
      if ok {
        navigation := Some(Navigation("/login", CreatedMessage));
      }
      if form.lastName == "" {
        LastNameBlocksSubmit(form);
      }
    }
  }
}

=== FILE: sos.dfy ===
/** SosService.getActive: the campus-wide emergency broadcasts still open. */
module Sos {
  import opened Domain
  import opened Ordering

  datatype SosBroadcast = SosBroadcast(
    id: string, kind: EmergencyType, message: string, triggeredById: string,
    isActive: bool, createdAt: int, closedAt: Option<int>)

  function SosCreatedAt(b: SosBroadcast): int { b.createdAt }

  function IsOpen(): SosBroadcast -> bool {
    (b: SosBroadcast) => b.isActive
  }

  /** `getActive`: every active broadcast (no cap) and only those, newest
      first; the broadcasts are an argument and nothing is written. */
  function GetActive(broadcasts: seq<SosBroadcast>): (r: seq<SosBroadcast>)
    ensures SortedDesc(r, SosCreatedAt)
    ensures forall b | b in r :: b.isActive && b in broadcasts
    ensures forall b | b in broadcasts && b.isActive :: b in r
    ensures multiset(r) == multiset(Filter(broadcasts, IsOpen()))
  {
    var r := SortDesc(Filter(broadcasts, IsOpen()), SosCreatedAt);
    assert forall b | b in r :: b.isActive && b in broadcasts by {
      forall b | b in r ensures b.isActive && b in broadcasts {
        SortDescMember(Filter(broadcasts, IsOpen()), SosCreatedAt, b);
        FilterMember(broadcasts, IsOpen(), b);
      }
    }
    assert forall b | b in broadcasts && b.isActive :: b in r by {
      forall b | b in broadcasts && b.isActive ensures b in r {
        FilterMember(broadcasts, IsOpen(), b);
        SortDescMember(Filter(broadcasts, IsOpen()), SosCreatedAt, b);
      }
    }
    r
  }
}

=== FILE: tone_tables.dfy ===
/** The badge colour tables of the front end's constants: one class string
    per member of each enum. */
module ToneTables {
  import opened Domain

  const SeverityTone: map<Severity, string> := map[
    LOW := "bg-emerald-50 text-emerald-700 border border-emerald-100",
    MEDIUM := "bg-amber-50 text-amber-700 border border-amber-100",
    HIGH := "bg-orange-50 text-orange-700 border border-orange-100",
    CRITICAL := "bg-red-50 text-red-700 border border-red-100"]

  const StatusTone: map<IncidentStatus, string> := map[
    IncidentStatus.PENDING := "bg-amber-100 text-amber-800",
    RESOLVED := "bg-emerald-100 text-emerald-700"]

  const RoleTone: map<string, string> := map[
    "ADMIN" := "bg-violet-50 text-violet-700 border border-violet-200",
    "GUARD" := "bg-sky-50 text-sky-700 border border-sky-200",
    "STUDENT" := "bg-green-50 text-green-700 border border-green-200",
    "FACULTY" := "bg-indigo-50 text-indigo-700 border border-indigo-200",
    "STAFF" := "bg-teal-50 text-teal-700 border border-teal-200"]

  const VisitorStatusTone: map<string, string> := map[
    "PENDING" := "bg-amber-50 text-amber-700 border border-amber-200",
    "APPROVED" := "bg-emerald-50 text-emerald-700 border border-emerald-200",
    "REJECTED" := "bg-red-50 text-red-700 border border-red-200",
    "EXPIRED" := "bg-slate-100 text-slate-600 border border-slate-200"]

  const EmergencyTypeTone: map<EmergencyType, string> := map[
    EARTHQUAKE := "bg-orange-50 text-orange-700 border border-orange-200",
    FIRE := "bg-red-50 text-red-700 border border-red-200",
    SECURITY_THREAT := "bg-violet-50 text-violet-700 border border-violet-200",
    WEATHER_WARNING := "bg-sky-50 text-sky-700 border border-sky-200",
    CUSTOM := "bg-slate-100 text-slate-700 border border-slate-200"]

  function PassStatusName(s: PassStatus): string {
    match s
    case PENDING => "PENDING"
    case APPROVED => "APPROVED"
    case REJECTED => "REJECTED"
    case EXPIRED => "EXPIRED"
  }

  /** Every member of each enum has a tone: no badge falls back to undefined. */
  lemma ToneTablesTotal()
    ensures forall s: Severity :: s in SeverityTone
    ensures forall s: IncidentStatus :: s in StatusTone
    ensures forall t: EmergencyType :: t in EmergencyTypeTone
    ensures forall r: Role :: RoleName(r) in RoleTone
    ensures forall s: PassStatus :: PassStatusName(s) in VisitorStatusTone
  {
    forall s: Severity ensures s in SeverityTone {
      match s case LOW => case MEDIUM => case HIGH => case CRITICAL =>
    }
    forall s: IncidentStatus ensures s in StatusTone {
      match s case PENDING => case RESOLVED =>
    }
    forall t: EmergencyType ensures t in EmergencyTypeTone {
      match t case EARTHQUAKE => case FIRE => case SECURITY_THREAT => case WEATHER_WARNING => case CUSTOM =>
    }
    forall r: Role ensures RoleName(r) in RoleTone {
      match r case ADMIN => case GUARD => case STUDENT => case FACULTY => case STAFF =>
    }
    forall s: PassStatus ensures PassStatusName(s) in VisitorStatusTone {
      match s case PENDING => case APPROVED => case REJECTED => case EXPIRED =>
    }
  }
}

=== FILE: users.dfy ===
/** The user table and the admin CRUD service over it (UsersService).
    The store is a sequence of rows in insertion order; `findUnique` on a
    unique column is the first (and, while the table is valid, only) match. */
module Users {
  import opened Domain
  import opened JsStrings
  import opened Ordering

  /** A password column: a bcrypt hash, recorded by its cost factor and the
      key bytes it was computed from (the hash is modelled as collision-free
      on those bytes), or a string written to the column without hashing. */
  datatype PasswordHash = Bcrypt(cost: nat, key: seq<Byte>) | Plain(text: string)

  /** A byte sequence repeated to fill 72 bytes. */
  function Cycle72(b: seq<Byte>): (r: seq<Byte>)
    requires |b| > 0
    ensures |r| == 72
  {
    seq(72, i requires 0 <= i < 72 => b[i % |b|])
  }

  lemma CycleKeepsPrefix(b: seq<Byte>, i: nat)
    requires |b| > 0 && i < 72 && i < |b|
    ensures Cycle72(b)[i] == b[i]
  {
    assert i % |b| == i;
  }

  /** The bytes bcryptjs's key schedule reads: the UTF-8 bytes of the password
      and a terminating zero byte, repeated to fill 72 bytes. Nothing past the
      72nd byte reaches the hash. */
  function BcryptKey(p: string): (k: seq<Byte>)
    ensures |k| == 72
  {
    Cycle72(Utf8(p) + [0])
  }

  /** `bcrypt.hash(p, 12)`, as both services call it. */
  function Hash(p: string): (h: PasswordHash)
    ensures h.Bcrypt? && h.cost == 12
  {
    Bcrypt(12, BcryptKey(p))
  }

  /** `bcrypt.compare(q, h)`: q is hashed again with h's salt and cost, and
      the two hashes are compared; a column that is not a bcrypt hash matches
      no password. */
  predicate Compare(q: string, h: PasswordHash) {
    h.Bcrypt? && h.key == BcryptKey(q)
  }

  predicate NulFree(s: string) {
    forall i | 0 <= i < |s| :: s[i] as int != 0
  }

  /** For passwords of fewer than 72 UTF-8 bytes without U+0000, `compare(q,
      hash(p))` holds exactly when q equals p. */
  lemma CompareHash(p: string, q: string)
    requires |Utf8(p)| < 72 && |Utf8(q)| < 72 && NulFree(p) && NulFree(q)
    ensures Compare(q, Hash(p)) <==> q == p
  {
    if Compare(q, Hash(p)) {
      var a, b := Utf8(p), Utf8(q);
      var k := BcryptKey(p);
      assert k == BcryptKey(q);
      Utf8NoZero(p);
      Utf8NoZero(q);
      if |a| < |b| {
        CycleKeepsPrefix(a + [0], |a|);
        CycleKeepsPrefix(b + [0], |a|);
      } else if |b| < |a| {
        CycleKeepsPrefix(a + [0], |b|);
        CycleKeepsPrefix(b + [0], |b|);
      }
      forall i | 0 <= i < |a| ensures a[i] == b[i] {
        CycleKeepsPrefix(a + [0], i);
        CycleKeepsPrefix(b + [0], i);
      }
      Utf8Injective(p, q);
    }
  }

  /** bcrypt reads only the first 72 bytes: two passwords that agree on
      their first 72 characters compare equal, whatever follows. */
  lemma LongPasswordsCollide(a: string, x: string, y: string)
    requires |a| >= 72
    ensures Compare(a + y, Hash(a + x))
  {
    Utf8Append(a, x);
    Utf8Append(a, y);
    var kx, ky := Utf8(a + x) + [0], Utf8(a + y) + [0];
    forall i | 0 <= i < 72 ensures Cycle72(kx)[i] == Cycle72(ky)[i] {
      CycleKeepsPrefix(kx, i);
      CycleKeepsPrefix(ky, i);
      assert kx[i] == Utf8(a)[i] == ky[i];
    }
  }

  datatype User = User(
    id: string,
    email: string,
    password: PasswordHash,
    firstName: string,
    lastName: string,
    role: Role,
    contactNumber: Option<string>,
    qrToken: string,
    isActive: bool,
    passwordResetToken: Option<string>,
    passwordResetExpiry: Option<int>,   // milliseconds since the epoch
    createdAt: int)

  /** The column values the schema fills in on insert (its defaults are not
      part of this model, so the caller supplies them). */
  datatype RowDefaults = RowDefaults(id: string, qrToken: string, isActive: bool, createdAt: int)

  function CreatedAt(u: User): int { u.createdAt }

  predicate IdTaken(rows: seq<User>, id: string) {
    exists i | 0 <= i < |rows| :: rows[i].id == id
  }

  predicate EmailTaken(rows: seq<User>, email: string) {
    exists i | 0 <= i < |rows| :: rows[i].email == email
  }

  /** The table's unique constraints: `id` (primary key) and `email`. */
  ghost predicate UniqueKeys(rows: seq<User>) {
    forall i, j | 0 <= i < j < |rows| :: rows[i].id != rows[j].id && rows[i].email != rows[j].email
  }

  function IdIndex(rows: seq<User>, id: string): (r: Option<nat>)
    ensures r.Some? ==> r.value < |rows| && rows[r.value].id == id
    ensures r.None? <==> !IdTaken(rows, id)
  {
    FirstIndex(rows, (u: User) => u.id == id)
  }

  function EmailIndex(rows: seq<User>, email: string): (r: Option<nat>)
    ensures r.Some? ==> r.value < |rows| && rows[r.value].email == email
    ensures r.None? <==> !EmailTaken(rows, email)
  {
    FirstIndex(rows, (u: User) => u.email == email)
  }

  /** While the keys are unique, a row is found at its own position. */
  lemma IndexOfMember(rows: seq<User>, i: nat)
    requires UniqueKeys(rows) && i < |rows|
    ensures IdIndex(rows, rows[i].id) == Some(i)
    ensures EmailIndex(rows, rows[i].email) == Some(i)
  {
    var a := IdIndex(rows, rows[i].id).value;
    var b := EmailIndex(rows, rows[i].email).value;
    SameIdSameRow(rows, a, i);
    SameEmailSameRow(rows, b, i);
  }

  /** `findByEmail`: the matching row or null; it never fails. */
  function FindByEmail(rows: seq<User>, email: string): (r: Option<User>)
    ensures r.Some? <==> EmailTaken(rows, email)
    ensures r.Some? ==> r.value in rows && r.value.email == email
  {
    match EmailIndex(rows, email)
    case None => None
    case Some(i) => Some(rows[i])
  }

  function UserNotFound(id: string): string {
    "User " + id + " was not found"
  }

  /** `findOne`: the unfiltered row, or NotFound. */
  function FindOne(rows: seq<User>, id: string): (r: Result<User>)
    ensures r.Err? <==> !IdTaken(rows, id)
    ensures r.Err? ==> r == Err(NotFound, UserNotFound(id))
    ensures r.Ok? ==> r.value in rows && r.value.id == id
  {
    match IdIndex(rows, id)
    case None => Err(NotFound, UserNotFound(id))
    case Some(i) => Ok(rows[i])
  }

  /** `findAll`: every user, newest first. */
  function FindAll(rows: seq<User>): (r: seq<User>)
    ensures SortedDesc(r, CreatedAt)
    ensures multiset(r) == multiset(rows)
  {
    SortDesc(rows, CreatedAt)
  }

  /** The fields of a CreateUserDto that passed validation. */
  datatype CreateUserInput = CreateUserInput(
    email: string, password: string, firstName: string, lastName: string,
    role: Role, contactNumber: Option<string>, isActive: Option<bool>)

  /** `{ ...data, password: hashedPassword }` completed by the schema defaults. */
  function CreatedRow(dto: CreateUserInput, d: RowDefaults): (u: User)
    ensures Compare(dto.password, u.password) && u.password.cost == 12
    ensures u.email == dto.email && u.firstName == dto.firstName && u.lastName == dto.lastName
    ensures u.role == dto.role && u.contactNumber == dto.contactNumber
    ensures u.isActive == (if dto.isActive.Some? then dto.isActive.value else d.isActive)
    ensures u.passwordResetToken.None? && u.passwordResetExpiry.None?
  {
    User(d.id, dto.email, Hash(dto.password), dto.firstName, dto.lastName, dto.role,
         dto.contactNumber, d.qrToken,
         if dto.isActive.Some? then dto.isActive.value else d.isActive,
         None, None, d.createdAt)
  }

  /** A unique-constraint violation on insert is not caught by `create`, so the
      framework answers 500. */
  const UnhandledError := "Internal server error"

  /** `prisma.user.create`: the insert succeeds unless a unique column clashes. */
  function InsertStep(rows: seq<User>, u: User): (o: Outcome<User, User>)
    ensures o.result.Ok? <==> !IdTaken(rows, u.id) && !EmailTaken(rows, u.email)
    ensures o.result.Ok? ==> o.result.value == u && o.rows == rows + [u]
    ensures o.result.Err? ==> o.rows == rows
  {
    if IdTaken(rows, u.id) || EmailTaken(rows, u.email) then Outcome(Err(InternalError, UnhandledError), rows)
    else Outcome(Ok(u), rows + [u])
  }

  lemma InsertKeepsUnique(rows: seq<User>, u: User)
    requires UniqueKeys(rows)
    ensures UniqueKeys(InsertStep(rows, u).rows)
  {
    var r := InsertStep(rows, u).rows;
    if r != rows {
      forall i, j | 0 <= i < j < |r| ensures r[i].id != r[j].id && r[i].email != r[j].email {
        if j == |rows| {
          assert r[j] == u && r[i] == rows[i];
        }
      }
    }
  }

  /** After a successful insert, the new row is found by its id and email. */
  lemma InsertThenFind(rows: seq<User>, u: User)
    requires UniqueKeys(rows)
    requires InsertStep(rows, u).result.Ok?
    ensures FindOne(InsertStep(rows, u).rows, u.id) == Ok(u)
    ensures FindByEmail(InsertStep(rows, u).rows, u.email) == Some(u)
  {
    InsertKeepsUnique(rows, u);
    IndexOfMember(InsertStep(rows, u).rows, |rows|);
  }

  /** `users.create`: hash the password, then insert; an email already in use
      surfaces as an unhandled store error. */
  function CreateStep(rows: seq<User>, dto: CreateUserInput, d: RowDefaults): (o: Outcome<User, User>)
    ensures o.result.Ok? <==> !EmailTaken(rows, dto.email) && !IdTaken(rows, d.id)
    ensures o.result.Ok? ==> o.rows == rows + [o.result.value] && o.result.value == CreatedRow(dto, d)
    ensures o.result.Err? ==> o == Outcome(Err(InternalError, UnhandledError), rows)
  {
    InsertStep(rows, CreatedRow(dto, d))
  }

  /** One column of an update's `data`: `undefined` leaves the column,
      `null` writes NULL, a value writes that value. */
  datatype Change<+T> = Keep | Clear | Put(value: T)

  /** An admin update's body after the pipe. UpdateUserDto is not part of this
      model; it is taken to be `PartialType(CreateUserDto)`, so each of
      CreateUserDto's columns may appear, email and password included. */
  datatype UserPatch = UserPatch(
    email: Change<string>, password: Change<string>, firstName: Change<string>, lastName: Change<string>,
    contactNumber: Change<string>, role: Change<Role>, isActive: Change<bool>)

  /** A NULL for a column other than the nullable `contactNumber`, which
      Prisma refuses before it writes. */
  predicate ClearsRequired(p: UserPatch) {
    p.email.Clear? || p.password.Clear? || p.firstName.Clear? || p.lastName.Clear?
    || p.role.Clear? || p.isActive.Clear?
  }

  function Changed<T>(c: Change<T>, current: T): T
    requires !c.Clear?
  {
    if c.Put? then c.value else current
  }

  /** The row `prisma.user.update` writes: each column the data names takes
      the value sent, the password too, which is stored as sent, unhashed. */
  function Patched(u: User, p: UserPatch): (v: User)
    requires !ClearsRequired(p)
    ensures v.id == u.id && v.qrToken == u.qrToken && v.createdAt == u.createdAt
    ensures v.passwordResetToken == u.passwordResetToken && v.passwordResetExpiry == u.passwordResetExpiry
    ensures v.email == (if p.email.Put? then p.email.value else u.email)
    ensures v.password == (if p.password.Put? then Plain(p.password.value) else u.password)
    ensures v.contactNumber ==
      (match p.contactNumber case Keep => u.contactNumber case Clear => None case Put(c) => Some(c))
    ensures p == UserPatch(Keep, Keep, Keep, Keep, Keep, Keep, Keep) ==> v == u
  {
    u.(email := Changed(p.email, u.email),
       password := if p.password.Put? then Plain(p.password.value) else u.password,
       firstName := Changed(p.firstName, u.firstName),
       lastName := Changed(p.lastName, u.lastName),
       contactNumber := match p.contactNumber case Keep => u.contactNumber case Clear => None
                        case Put(c) => Some(c),
       role := Changed(p.role, u.role),
       isActive := Changed(p.isActive, u.isActive))
  }

  /** A password set through an update is stored as plain text, which
      `bcrypt.compare` matches with no password: the user can no longer log
      in with any password. A text of 60 UTF-16 units is excluded, because
      bcryptjs reads it as a hash. */
  lemma PatchedPasswordLocksOut(u: User, p: UserPatch, q: string)
    requires !ClearsRequired(p) && p.password.Put? && JsLength(p.password.value) != 60
    ensures !Compare(q, Patched(u, p).password)
  {
  }

  /** Some row other than the one with that id holds the email. */
  predicate EmailHeldByOther(rows: seq<User>, id: string, email: string) {
    exists j | 0 <= j < |rows| :: rows[j].id != id && rows[j].email == email
  }

  /** `update`: `findOne` first (NotFound, no write); then the update, which
      fails with an unhandled 500 and no write when it sets a required column
      to NULL or takes an email another user holds; otherwise the row is
      overwritten. */
  function UpdateStep(rows: seq<User>, id: string, p: UserPatch): (o: Outcome<User, User>)
    ensures |o.rows| == |rows|
    ensures o.result.Err? ==> o.rows == rows
    ensures o.result == Err(NotFound, UserNotFound(id)) <==> !IdTaken(rows, id)
    ensures o.result == Err(InternalError, UnhandledError) <==>
      IdTaken(rows, id) && (ClearsRequired(p) || (p.email.Put? && EmailHeldByOther(rows, id, p.email.value)))
    ensures o.result.Err? ==> o.result.kind == NotFound || o.result.kind == InternalError
  {
    match IdIndex(rows, id)
    case None => Outcome(Err(NotFound, UserNotFound(id)), rows)
    case Some(i) =>
      if ClearsRequired(p) || (p.email.Put? && EmailHeldByOther(rows, id, p.email.value)) then
        Outcome(Err(InternalError, UnhandledError), rows)
      else
        var v := Patched(rows[i], p);
        Outcome(Ok(v), rows[i := v])
  }

  /** While the keys are unique, two rows with the same id are the same row. */
  lemma SameIdSameRow(rows: seq<User>, i: nat, j: nat)
    requires UniqueKeys(rows) && i < |rows| && j < |rows| && rows[i].id == rows[j].id
    ensures i == j
  {
  }

  lemma SameEmailSameRow(rows: seq<User>, i: nat, j: nat)
    requires UniqueKeys(rows) && i < |rows| && j < |rows| && rows[i].email == rows[j].email
    ensures i == j
  {
  }

  /** A successful update patches the one user with that id and leaves every
      other row as it was; the keys stay unique. */
  lemma UpdateChangesOnlyThatUser(rows: seq<User>, id: string, p: UserPatch)
    requires UniqueKeys(rows)
    ensures var o := UpdateStep(rows, id, p);
      && UniqueKeys(o.rows)
      && (o.result.Ok? ==> forall j | 0 <= j < |rows| ::
           o.rows[j] == (if rows[j].id == id then Patched(rows[j], p) else rows[j]))
  {
    var o := UpdateStep(rows, id, p);
    if o.result.Ok? {
      var i := IdIndex(rows, id).value;
      forall j | 0 <= j < |rows|
        ensures o.rows[j] == (if rows[j].id == id then Patched(rows[j], p) else rows[j])
      {
        if rows[j].id == id { SameIdSameRow(rows, i, j); }
      }
      forall a, b | 0 <= a < b < |o.rows| ensures o.rows[a].id != o.rows[b].id && o.rows[a].email != o.rows[b].email {
        assert o.rows[a].id == rows[a].id && o.rows[b].id == rows[b].id;
        if a != i && b != i {
          assert o.rows[a] == rows[a] && o.rows[b] == rows[b];
        } else if a == i {
          assert o.rows[b] == rows[b];
          if p.email.Put? { assert rows[b].id != id; }
        } else {
          assert o.rows[a] == rows[a];
          if p.email.Put? { assert rows[a].id != id; }
        }
      }
    }
  }

  /** `remove`: `findOne` first (NotFound, no write), then delete the row. */
  function RemoveStep(rows: seq<User>, id: string): (o: Outcome<User, User>)
    ensures o.result.Err? <==> !IdTaken(rows, id)
    ensures o.result.Err? ==> o == Outcome(Err(NotFound, UserNotFound(id)), rows)
    ensures o.result.Ok? ==>
      && o.result.value in rows && o.result.value.id == id
      && multiset(o.rows) + multiset{o.result.value} == multiset(rows)
  {
    match IdIndex(rows, id)
    case None => Outcome(Err(NotFound, UserNotFound(id)), rows)
    case Some(i) =>
      assert rows == rows[..i] + [rows[i]] + rows[i + 1..];
      Outcome(Ok(rows[i]), rows[..i] + rows[i + 1..])
  }

  /** The table without the rows carrying `id`, in store order. */
  function WithoutId(rows: seq<User>, id: string): (r: seq<User>)
    ensures forall u | u in r :: u in rows && u.id != id
  {
    if rows == [] then []
    else (if rows[0].id == id then [] else [rows[0]]) + WithoutId(rows[1..], id)
  }

  /** A successful remove takes out exactly the user with that id: what is
      left is the table without that id, in store order, and the keys stay
      unique. */
  lemma RemoveDeletesExactlyThatUser(rows: seq<User>, id: string)
    requires UniqueKeys(rows)
    requires IdTaken(rows, id)
    ensures RemoveStep(rows, id).rows == WithoutId(rows, id)
    ensures !IdTaken(RemoveStep(rows, id).rows, id)
    ensures UniqueKeys(RemoveStep(rows, id).rows)
  {
    var i := IdIndex(rows, id).value;
    var rest := rows[..i] + rows[i + 1..];
    assert RemoveStep(rows, id).rows == rest;
    assert forall j | 0 <= j < |rows| && j != i :: rows[j].id != id;
    WithoutIdSkipsOne(rows, id, i);
    forall k | 0 <= k < |rest| ensures rest[k].id != id {
      assert rest[k] in WithoutId(rows, id);
    }
    DropKeepsUnique(rows, i);
  }

  lemma DropKeepsUnique(rows: seq<User>, i: nat)
    requires UniqueKeys(rows) && i < |rows|
    ensures UniqueKeys(rows[..i] + rows[i + 1..])
  {
    var rest := rows[..i] + rows[i + 1..];
    forall a, b | 0 <= a < b < |rest| ensures rest[a].id != rest[b].id && rest[a].email != rest[b].email {
      var a' := if a < i then a else a + 1;
      var b' := if b < i then b else b + 1;
      assert rest[a] == rows[a'] && rest[b] == rows[b'];
    }
  }

  lemma {:induction false} WithoutIdSkipsOne(rows: seq<User>, id: string, i: nat)
    requires i < |rows| && rows[i].id == id
    requires forall j | 0 <= j < |rows| && j != i :: rows[j].id != id
    ensures WithoutId(rows, id) == rows[..i] + rows[i + 1..]
  {
    var tail := rows[1..];
    if i == 0 {
      WithoutIdKeepsAll(tail, id);
      assert rows[i + 1..] == tail;
    } else {
      WithoutIdSkipsOne(tail, id, i - 1);
      assert rows[..i] == [rows[0]] + tail[..i - 1];
      assert rows[i + 1..] == tail[i..];
    }
  }

  lemma {:induction false} WithoutIdKeepsAll(rows: seq<User>, id: string)
    requires forall u | u in rows :: u.id != id
    ensures WithoutId(rows, id) == rows
  {
    if rows != [] {
      WithoutIdKeepsAll(rows[1..], id);
      assert rows == [rows[0]] + rows[1..];
    }
  }

  /** The user table as the services see it. */
  class UserTable {
    var rows: seq<User>

    ghost predicate Valid()
      reads this
    {
      UniqueKeys(rows)
    }

    constructor (initial: seq<User>)
      requires UniqueKeys(initial)
      ensures Valid() && rows == initial
    {
      rows := initial;
    }

    /** `prisma.user.create`. */
    method Insert(u: User) returns (r: Result<User>)
      requires Valid()
      modifies this
      ensures Valid()
      ensures r == InsertStep(old(rows), u).result && rows == InsertStep(old(rows), u).rows
    {
      InsertKeepsUnique(rows, u);
      if IdTaken(rows, u.id) || EmailTaken(rows, u.email) {
        r := Err(InternalError, UnhandledError);
      } else {
        rows := rows + [u];
        r := Ok(u);
      }
    }

    /** `prisma.user.update({ where: { id }, data })` with data that keeps the
        id and takes no other user's email. */
    method Overwrite(i: nat, u: User)
      requires Valid() && i < |rows| && u.id == rows[i].id
      requires forall j | 0 <= j < |rows| && j != i :: rows[j].email != u.email
      modifies this
      ensures Valid()
      ensures rows == old(rows)[i := u]
    {
      rows := rows[i := u];
      forall a, b | 0 <= a < b < |rows| ensures rows[a].id != rows[b].id && rows[a].email != rows[b].email {
        assert rows[a].id == old(rows)[a].id && rows[b].id == old(rows)[b].id;
        if a != i && b != i {
          assert rows[a] == old(rows)[a] && rows[b] == old(rows)[b];
        }
      }
    }

    /** `users.create`. */
    method Create(dto: CreateUserInput, d: RowDefaults) returns (r: Result<User>)
      requires Valid()
      modifies this
      ensures Valid()
      ensures r == CreateStep(old(rows), dto, d).result && rows == CreateStep(old(rows), dto, d).rows
    {
      var hashed := Hash(dto.password);
      var row := User(d.id, dto.email, hashed, dto.firstName, dto.lastName, dto.role,
                      dto.contactNumber, d.qrToken,
                      if dto.isActive.Some? then dto.isActive.value else d.isActive,
                      None, None, d.createdAt);
      r := Insert(row);
    }

    /** `users.update`. */
    method Update(id: string, p: UserPatch) returns (r: Result<User>)
      requires Valid()
      modifies this
      ensures Valid()
      ensures r == UpdateStep(old(rows), id, p).result && rows == UpdateStep(old(rows), id, p).rows
    {
      var found := FindOne(rows, id);
      if found.Err? {
        return found;
      }
      var i := IdIndex(rows, id).value;
      if ClearsRequired(p) || (p.email.Put? && EmailHeldByOther(rows, id, p.email.value)) {
        return Err(InternalError, UnhandledError);
      }
      var v := Patched(rows[i], p);
      forall j | 0 <= j < |rows| && j != i ensures rows[j].email != v.email {
        if !p.email.Put? { assert rows[j].email != rows[i].email; }
        else { assert rows[j].id != id; }
      }
      Overwrite(i, v);
      r := Ok(v);
    }

    /** `users.remove`. */
    method Remove(id: string) returns (r: Result<User>)
      requires Valid()
      modifies this
      ensures Valid()
      ensures r == RemoveStep(old(rows), id).result && rows == RemoveStep(old(rows), id).rows
    {
      var found := FindOne(rows, id);
      if found.Err? {
        return found;
      }
      RemoveDeletesExactlyThatUser(rows, id);
      var i := IdIndex(rows, id).value;
      r := Ok(rows[i]);
      rows := rows[..i] + rows[i + 1..];
    }
  }
}

=== FILE: visitor_pass.dfy ===
/** VisitorPassService: public applications for campus visits and their
    approval or rejection. The pass table is a sequence of rows in insertion
    order; `crypto.randomUUID()` is a parameter, and so is JavaScript's date
    parser: `toDate(s)` is the instant `new Date(s)` gives, in milliseconds
    since the epoch, or None for an Invalid Date. */
module VisitorPasses {
  import opened Domain
  import opened Ordering

  datatype VisitorPass = VisitorPass(
    id: string,
    fullName: string,
    contactNumber: string,
    purpose: string,
    personToVisit: string,
    visitDate: int,             // milliseconds since the epoch
    timeWindowStart: int,
    timeWindowEnd: int,
    status: PassStatus,
    qrToken: Option<string>,
    approvedById: Option<string>,
    createdAt: int)

  /** Column values `create` leaves to the schema (not part of this model). */
  datatype PassDefaults = PassDefaults(
    id: string, status: PassStatus, qrToken: Option<string>, approvedById: Option<string>, createdAt: int)

  /** The fields of a CreateVisitorPassDto that passed validation. */
  datatype PassApplication = PassApplication(
    fullName: string, contactNumber: string, purpose: string, personToVisit: string,
    visitDate: string, timeWindowStart: string, timeWindowEnd: string,
    email: Option<string>, address: Option<string>)

  function PassCreatedAt(p: VisitorPass): int { p.createdAt }

  predicate PassIdTaken(rows: seq<VisitorPass>, id: string) {
    exists i | 0 <= i < |rows| :: rows[i].id == id
  }

  ghost predicate UniquePassIds(rows: seq<VisitorPass>) {
    forall i, j | 0 <= i < j < |rows| :: rows[i].id != rows[j].id
  }

  function PassIndex(rows: seq<VisitorPass>, id: string): (r: Option<nat>)
    ensures r.Some? ==> r.value < |rows| && rows[r.value].id == id
    ensures r.None? <==> !PassIdTaken(rows, id)
  {
    FirstIndex(rows, (p: VisitorPass) => p.id == id)
  }

  const InsertFailed := "Internal server error"

  function PassNotFound(id: string): string {
    "Visitor pass " + id + " not found"
  }

  /** The three instants `new Date(...)` makes of the application's dates,
      when all three are valid dates. */
  function Instants(dto: PassApplication, toDate: string -> Option<int>): Option<(int, int, int)> {
    var visit, start, end := toDate(dto.visitDate), toDate(dto.timeWindowStart), toDate(dto.timeWindowEnd);
    if visit.Some? && start.Some? && end.Some? then Some((visit.value, start.value, end.value)) else None
  }

  /** The row `create` writes: the applicant's four text fields and the three
      instants; everything else comes from the schema. */
  function NewPass(dto: PassApplication, t: (int, int, int), d: PassDefaults): VisitorPass {
    VisitorPass(d.id, dto.fullName, dto.contactNumber, dto.purpose, dto.personToVisit,
                t.0, t.1, t.2, d.status, d.qrToken, d.approvedById, d.createdAt)
  }

  /** `create`: an Invalid Date is refused by Prisma before any write, and
      so is a taken id; both surface as an unhandled 500. */
  function CreateStep(rows: seq<VisitorPass>, dto: PassApplication, d: PassDefaults,
                      toDate: string -> Option<int>): (o: Outcome<VisitorPass, VisitorPass>)
    ensures o.result.Ok? <==>
      toDate(dto.visitDate).Some? && toDate(dto.timeWindowStart).Some? && toDate(dto.timeWindowEnd).Some?
      && !PassIdTaken(rows, d.id)
    ensures o.result.Ok? ==> o.rows == rows + [o.result.value]
    ensures o.result.Err? ==> o == Outcome(Err(InternalError, InsertFailed), rows)
  {
    var t := Instants(dto, toDate);
    if t.None? || PassIdTaken(rows, d.id) then Outcome(Err(InternalError, InsertFailed), rows)
    else Outcome(Ok(NewPass(dto, t.value, d)), rows + [NewPass(dto, t.value, d)])
  }

  /** `create` stores the applicant's text fields as given and the instants
      the date parser makes of the three dates, drops the optional email and
      address, and sets no status, token or approver of its own. */
  lemma CreateStoresApplication(rows: seq<VisitorPass>, dto: PassApplication, d: PassDefaults,
                                toDate: string -> Option<int>, email: Option<string>, address: Option<string>)
    requires CreateStep(rows, dto, d, toDate).result.Ok?
    ensures var p := CreateStep(rows, dto, d, toDate).result.value;
      && p.id == d.id
      && p.fullName == dto.fullName && p.contactNumber == dto.contactNumber
      && p.purpose == dto.purpose && p.personToVisit == dto.personToVisit
      && Some(p.visitDate) == toDate(dto.visitDate) && Some(p.timeWindowStart) == toDate(dto.timeWindowStart)
      && Some(p.timeWindowEnd) == toDate(dto.timeWindowEnd)
      && p.status == d.status && p.qrToken == d.qrToken && p.approvedById == d.approvedById
    ensures CreateStep(rows, dto.(email := email, address := address), d, toDate) == CreateStep(rows, dto, d, toDate)
  {
  }

  /** `findAll`: every pass, newest first. */
  function FindAll(rows: seq<VisitorPass>): (r: seq<VisitorPass>)
    ensures SortedDesc(r, PassCreatedAt)
    ensures multiset(r) == multiset(rows)
  {
    SortDesc(rows, PassCreatedAt)
  }

  function FindOne(rows: seq<VisitorPass>, id: string): (r: Result<VisitorPass>)
    ensures r.Err? <==> !PassIdTaken(rows, id)
    ensures r.Err? ==> r == Err(NotFound, PassNotFound(id))
    ensures r.Ok? ==> r.value in rows && r.value.id == id
  {
    match PassIndex(rows, id)
    case None => Err(NotFound, PassNotFound(id))
    case Some(i) => Ok(rows[i])
  }

  /** The two statuses `updateStatus` accepts. */
  datatype Decision = Approve | Reject

  /** The `data` of `updateStatus`: the status; on approval the approver (an
      absent id leaves the column) and a fresh UUID; on rejection both stay
      `undefined`, which leaves them unchanged. */
  function Decided(p: VisitorPass, decision: Decision, approver: Option<string>, uuid: string): VisitorPass {
    match decision
    case Approve =>
      p.(status := APPROVED,
         approvedById := if approver.Some? then approver else p.approvedById,
         qrToken := Some(uuid))
    case Reject => p.(status := REJECTED)
  }

  function UpdateStatusStep(rows: seq<VisitorPass>, id: string, decision: Decision,
                            approver: Option<string>, uuid: string): (o: Outcome<VisitorPass, VisitorPass>)
    ensures |o.rows| == |rows|
    ensures o.result.Err? <==> !PassIdTaken(rows, id)
    ensures o.result.Err? ==> o == Outcome(Err(NotFound, PassNotFound(id)), rows)
  {
    match PassIndex(rows, id)
    case None => Outcome(Err(NotFound, PassNotFound(id)), rows)
    case Some(i) =>
      var p := Decided(rows[i], decision, approver, uuid);
      Outcome(Ok(p), rows[i := p])
  }

  /** The decision applies whatever the current status is: approving sets
      APPROVED, the approver and the new token; rejecting sets REJECTED and
      keeps the token and approver; no other column moves. */
  lemma DecisionIgnoresCurrentStatus(p: VisitorPass, decision: Decision, approver: Option<string>, uuid: string)
    ensures var q := Decided(p, decision, approver, uuid);
      && q.id == p.id && q.fullName == p.fullName && q.visitDate == p.visitDate
      && q.timeWindowStart == p.timeWindowStart && q.timeWindowEnd == p.timeWindowEnd
      && q.createdAt == p.createdAt
      && (decision == Approve ==>
            q.status == APPROVED && q.qrToken == Some(uuid) && (approver.Some? ==> q.approvedById == approver))
      && (decision == Reject ==> q.status == REJECTED && q.qrToken == p.qrToken && q.approvedById == p.approvedById)
      && q.status != EXPIRED
  {
  }

  /** Every approval replaces the token, a re-approval included, and a pass
      rejected after approval keeps the token it was given. */
  lemma ApproveThenReject(p: VisitorPass, approver: string, uuid1: string, uuid2: string)
    ensures var a := Decided(p, Approve, Some(approver), uuid1);
      && Decided(a, Approve, Some(approver), uuid2).qrToken == Some(uuid2)
      && Decided(a, Reject, None, uuid2).qrToken == Some(uuid1)
      && Decided(a, Reject, None, uuid2).approvedById == Some(approver)
      && (uuid1 != uuid2 ==> Decided(a, Approve, Some(approver), uuid2).qrToken != a.qrToken)
  {
  }

  /** Only the pass with that id is modified. */
  lemma UpdateStatusChangesOnlyThatPass(rows: seq<VisitorPass>, id: string, decision: Decision,
                                        approver: Option<string>, uuid: string)
    requires UniquePassIds(rows)
    ensures var o := UpdateStatusStep(rows, id, decision, approver, uuid);
      && UniquePassIds(o.rows)
      && forall j | 0 <= j < |rows| ::
           o.rows[j] == (if rows[j].id == id then Decided(rows[j], decision, approver, uuid) else rows[j])
  {
    var o := UpdateStatusStep(rows, id, decision, approver, uuid);
    if PassIdTaken(rows, id) {
      var i := PassIndex(rows, id).value;
      forall j | 0 <= j < |rows|
        ensures o.rows[j] == (if rows[j].id == id then Decided(rows[j], decision, approver, uuid) else rows[j])
      {
        if rows[j].id == id { SamePassId(rows, i, j); }
      }
      forall a, b | 0 <= a < b < |o.rows| ensures o.rows[a].id != o.rows[b].id {
        assert o.rows[a].id == rows[a].id && o.rows[b].id == rows[b].id;
      }
    }
  }

  lemma SamePassId(rows: seq<VisitorPass>, i: nat, j: nat)
    requires UniquePassIds(rows) && i < |rows| && j < |rows| && rows[i].id == rows[j].id
    ensures i == j
  {
  }

  /** Nothing here ever sets EXPIRED: if the schema's initial status is not
      EXPIRED, no pass becomes EXPIRED through create or updateStatus. */
  ghost predicate NoneExpired(rows: seq<VisitorPass>) {
    forall i | 0 <= i < |rows| :: rows[i].status != EXPIRED
  }

  lemma NeverExpires(rows: seq<VisitorPass>, dto: PassApplication, d: PassDefaults, toDate: string -> Option<int>,
                     id: string, decision: Decision, approver: Option<string>, uuid: string)
    requires NoneExpired(rows) && d.status != EXPIRED
    ensures NoneExpired(CreateStep(rows, dto, d, toDate).rows)
    ensures NoneExpired(UpdateStatusStep(rows, id, decision, approver, uuid).rows)
  {
    var c := CreateStep(rows, dto, d, toDate).rows;
    forall i | 0 <= i < |c| ensures c[i].status != EXPIRED {
      if i < |rows| { assert c[i] == rows[i]; }
    }
    var u := UpdateStatusStep(rows, id, decision, approver, uuid).rows;
    if PassIdTaken(rows, id) {
      var k := PassIndex(rows, id).value;
      forall i | 0 <= i < |u| ensures u[i].status != EXPIRED {
        if i != k { assert u[i] == rows[i]; }
      }
    }
  }

  class VisitorPassTable {
    var rows: seq<VisitorPass>

    ghost predicate Valid()
      reads this
    {
      UniquePassIds(rows)
    }

    constructor (initial: seq<VisitorPass>)
      requires UniquePassIds(initial)
      ensures Valid() && rows == initial
    {
      rows := initial;
    }

    /** `visitorPassService.create`. */
    method Create(dto: PassApplication, d: PassDefaults, toDate: string -> Option<int>) returns (r: Result<VisitorPass>)
      requires Valid()
      modifies this
      ensures Valid()
      ensures r == CreateStep(old(rows), dto, d, toDate).result && rows == CreateStep(old(rows), dto, d, toDate).rows
    {
      var visit, start, end := toDate(dto.visitDate), toDate(dto.timeWindowStart), toDate(dto.timeWindowEnd);
      if visit.None? || start.None? || end.None? || PassIdTaken(rows, d.id) {
        return Err(InternalError, InsertFailed);
      }
      var p := VisitorPass(d.id, dto.fullName, dto.contactNumber, dto.purpose, dto.personToVisit,
                           visit.value, start.value, end.value,
                           d.status, d.qrToken, d.approvedById, d.createdAt);
      rows := rows + [p];
      r := Ok(p);
    }

    /** `visitorPassService.updateStatus`: `findOne` first, then the update. */
    method UpdateStatus(id: string, decision: Decision, approver: Option<string>, uuid: string)
      returns (r: Result<VisitorPass>)
      requires Valid()
      modifies this
      ensures Valid()
      ensures r == UpdateStatusStep(old(rows), id, decision, approver, uuid).result
      ensures rows == UpdateStatusStep(old(rows), id, decision, approver, uuid).rows
    {
      var found := FindOne(rows, id);
      if found.Err? {
        return found;
      }
      UpdateStatusChangesOnlyThatPass(rows, id, decision, approver, uuid);
      var i := PassIndex(rows, id).value;
      var p := Decided(rows[i], decision, approver, uuid);
      rows := rows[i := p];
      r := Ok(p);
    }
  }
}

=== FILE: visitor_pass_page.dfy ===
/** The public visitor-pass page: its six fields, `handleInputChange`,
    `validateForm` and `handleSubmit`. The page calls no API. */
module VisitorPassPage {
  import opened Domain
  import opened JsStrings
  import opened EmailPattern
  import opened FormErrors
  import Dtos

  datatype Field = FullName | Email | ContactNumber | Address | PersonToVisit | PurposeOfVisit

  datatype Form = Form(
    fullName: string, email: string, contactNumber: string,
    address: string, personToVisit: string, purposeOfVisit: string)

  const BlankForm := Form("", "", "", "", "", "")

  function Value(form: Form, f: Field): string {
    match f
    case FullName => form.fullName
    case Email => form.email
    case ContactNumber => form.contactNumber
    case Address => form.address
    case PersonToVisit => form.personToVisit
    case PurposeOfVisit => form.purposeOfVisit
  }

  /** `{ ...prev, [id]: value }`. */
  function WithValue(form: Form, f: Field, v: string): (r: Form)
    ensures Value(r, f) == v
    ensures forall g: Field | g != f :: Value(r, g) == Value(form, g)
  {
    match f
    case FullName => form.(fullName := v)
    case Email => form.(email := v)
    case ContactNumber => form.(contactNumber := v)
    case Address => form.(address := v)
    case PersonToVisit => form.(personToVisit := v)
    case PurposeOfVisit => form.(purposeOfVisit := v)
  }

  const FullNameMissing := "Full name is required"
  const ContactMissing := "Contact number is required"
  const AddressMissing := "Address is required"
  const PersonMissing := "Person to visit is required"
  const PurposeMissing := "Purpose of visit is required"
  const SubmittedMessage := "Visitor pass application submitted!"

  /** The message `validateForm` records for one field: the blank check for
      the five text fields, the shared email check for the email. */
  function Problem(form: Form, f: Field): Option<string> {
    match f
    case FullName => Required(form.fullName, FullNameMissing)
    case Email => EmailProblem(form.email)
    case ContactNumber => Required(form.contactNumber, ContactMissing)
    case Address => Required(form.address, AddressMissing)
    case PersonToVisit => Required(form.personToVisit, PersonMissing)
    case PurposeOfVisit => Required(form.purposeOfVisit, PurposeMissing)
  }

  const FieldCount := 6

  /** A field's place in `validateForm`'s order. */
  function Rank(f: Field): (i: nat)
    ensures i < FieldCount
  {
    match f
    case FullName => 0
    case Email => 1
    case ContactNumber => 2
    case Address => 3
    case PersonToVisit => 4
    case PurposeOfVisit => 5
  }

  /** The field checked at place i. */
  function FieldAt(i: nat): Field
    requires i < FieldCount
  {
    if i == 0 then FullName
    else if i == 1 then Email
    else if i == 2 then ContactNumber
    else if i == 3 then Address
    else if i == 4 then PersonToVisit
    else PurposeOfVisit
  }

  lemma RankInverse(f: Field, i: nat)
    requires i < FieldCount
    ensures Rank(f) == i <==> FieldAt(i) == f
  {
  }

  /** One `if (…) newErrors.x = '…'` of `validateForm`: a failed field gets
      its message, every other entry stays. */
  function Note(m: map<Field, string>, form: Form, f: Field): map<Field, string> {
    if Problem(form, f).Some? then m[f := Problem(form, f).value] else m
  }

  /** The errors object once the first `n` checks have run. */
  function ErrorsAfter(form: Form, n: nat): map<Field, string>
    requires n <= FieldCount
  {
    if n == 0 then map[] else Note(ErrorsAfter(form, n - 1), form, FieldAt(n - 1))
  }

  /** After `n` checks the object holds exactly the failed fields among the
      first `n`, each with its message. */
  lemma {:induction false} ErrorsAfterHolds(form: Form, n: nat)
    requires n <= FieldCount
    ensures forall f: Field :: f in ErrorsAfter(form, n) <==> Rank(f) < n && Problem(form, f).Some?
    ensures forall f | f in ErrorsAfter(form, n) :: ErrorsAfter(form, n)[f] == Problem(form, f).value
  {
    if n > 0 {
      ErrorsAfterHolds(form, n - 1);
      var g := FieldAt(n - 1);
      forall f: Field ensures Rank(f) == n - 1 <==> f == g {
        RankInverse(f, n - 1);
      }
    }
  }

  /** The errors object `validateForm` builds: exactly the fields with a
      problem, each holding its message. */
  function Errors(form: Form): (e: map<Field, string>)
    ensures forall f: Field :: f in e <==> Problem(form, f).Some?
    ensures forall f | f in e :: e[f] == Problem(form, f).value
  {
    ErrorsAfterHolds(form, FieldCount);
    ErrorsAfter(form, FieldCount)
  }

  /** What a form needs to pass: five text fields not blank and an email
      matching the pattern. */
  predicate Complete(form: Form) {
    && !IsBlank(form.fullName) && LooksLikeEmail(form.email) && !IsBlank(form.contactNumber)
    && !IsBlank(form.address) && !IsBlank(form.personToVisit) && !IsBlank(form.purposeOfVisit)
  }

  /** The form passes exactly when it is complete. */
  lemma ErrorsEmptyIff(form: Form)
    ensures Errors(form) == map[] <==> Complete(form)
  {
    EmailAcceptedIffPattern(form.email);
    var e := Errors(form);
    if e == map[] {
      assert Problem(form, FullName).None? && Problem(form, Email).None?;
      assert Problem(form, ContactNumber).None? && Problem(form, Address).None?;
      assert Problem(form, PersonToVisit).None? && Problem(form, PurposeOfVisit).None?;
    } else {
      var f :| f in e;
      assert Problem(form, f).Some?;
    }
  }

  /** The fields the page collects, under their ids, as a request body
      would carry them. */
  function FormBody(form: Form): Dtos.Body {
    map["fullName" := Dtos.JString(form.fullName), "email" := Dtos.JString(form.email),
        "contactNumber" := Dtos.JString(form.contactNumber), "address" := Dtos.JString(form.address),
        "personToVisit" := Dtos.JString(form.personToVisit),
        "purposeOfVisit" := Dtos.JString(form.purposeOfVisit)]
  }

  /** Even a complete form could not become a visitor pass: it has no
      `visitDate` (nor time window, nor `purpose`), which the back end's
      CreateVisitorPassDto requires. */
  lemma FormNeverPassesDto(form: Form, isIsoDate: string -> bool)
    ensures Dtos.ValidatePassApplication(FormBody(form), isIsoDate).None?
  {
    assert Dtos.Field(FormBody(form), "visitDate").None?;
  }

  datatype Navigation = Navigation(path: string, message: string)

  /** The page's state: the form data, the errors object, and where it
      navigated with which message. */
  class Page {
    var form: Form
    var errors: map<Field, string>
    var navigation: Option<Navigation>

    constructor ()
      ensures form == BlankForm && errors == map[] && navigation == None
    {
      form := BlankForm;
      errors := map[];
      navigation := None;
    }

    /** `handleInputChange`: the edited field only, and its message only. */
    method HandleInputChange(f: Field, value: string)
      modifies this
      ensures form == WithValue(old(form), f, value)
      ensures errors == ClearError(old(errors), f)
      ensures navigation == old(navigation)
    {
      form := WithValue(form, f, value);
      if f in errors && errors[f] != "" {
        errors := errors[f := ""];
      }
    }

    /** `validateForm`: one `if` per field, in the page's order, filling a
        fresh errors object that replaces the page's. */
    method ValidateForm() returns (ok: bool)
      modifies this
      ensures form == old(form) && navigation == old(navigation)
      ensures errors == Errors(form)
      ensures ok <==> errors == map[]
    {
      var newErrors: map<Field, string> := map[];
      newErrors := Note(newErrors, form, FullName);
      assert newErrors == ErrorsAfter(form, 1);
      newErrors := Note(newErrors, form, Email);
      assert newErrors == ErrorsAfter(form, 2);
      newErrors := Note(newErrors, form, ContactNumber);
      assert newErrors == ErrorsAfter(form, 3);
      newErrors := Note(newErrors, form, Address);
      assert newErrors == ErrorsAfter(form, 4);
      newErrors := Note(newErrors, form, PersonToVisit);
      assert newErrors == ErrorsAfter(form, 5);
      newErrors := Note(newErrors, form, PurposeOfVisit);
      assert newErrors == ErrorsAfter(form, 6);
      errors := newErrors;
      ok := |newErrors| == 0;
    }

    /** `handleSubmit`: a valid form only navigates to /login with the
        confirmation; nothing is sent anywhere. */
    method HandleSubmit()
      modifies this
      ensures form == old(form) && errors == Errors(form)
      ensures navigation == if Complete(form) then Some(Navigation("/login", SubmittedMessage)) else old(navigation)
    {
      var ok := ValidateForm();
      ErrorsEmptyIff(form);
      if ok {
        navigation := Some(Navigation("/login", SubmittedMessage));
      }
    }
  }
}
